=== FILE: README.md ===
# Wedding RSVP backend — a Dafny model

This project models the server side of a wedding RSVP site:

- the guest-lookup endpoint (`api/guest-lookup.php`): a fuzzy name search over the guest list, and a direct lookup by id;
- the submission endpoint (`api/send-rsvp.php`): it records one answer per guest;
- the converter (`data/convert-excel.py`): it turns the spreadsheet of invitees into the `guests.json` list that both endpoints read.

Both endpoints run the same gate, in this order:

1. the request must be a POST;
2. the `Origin` header must be absent or on an allow-list;
3. a per-client sliding window allows a few requests a minute;
4. the signed `X-RSVP-Token` must be valid and not expired.

After the gate, the lookup goes through these steps:

- It validates the typed name.
- It tries an exact pass over the precomputed lower-case names.
- It scores every guest with seven additive signals: containment, two phonetic codes, two token edit distances, the full-name edit distance, and word prefixes.
- It keeps the guests scoring 50 or more and sorts them by score.
- It answers with the single guest, with an "already answered" notice, with a "did you mean" list of at most five, or with "not found".

The submission validates its body, finds the guest by id and refuses a second answer for the same guest. Otherwise it appends exactly one record to `rsvps.json`.

## How the model is laid out

| module | models |
|---|---|
| `Options` | the option type used for PHP's `null`, `?:` and missing keys |
| `Pieces` | pieces interleaved with the runs between them: what a split on white space undoes |
| `Php` | PHP's byte strings and the built-ins the endpoints use: truthiness, `trim`, `preg_split('/\s+/')`, `explode`, `strpos`, UTF-8 well-formedness and the name pattern `/^[\p{L}\s'\-.]+$/u` |
| `PyText` | Python's `str.strip()`, `str.split()`, `str(int)` and `int(str)` |
| `Levenshtein` | the edit distance, as a recursive definition and as PHP's two-row algorithm |
| `Guests` | the guest records and the first-match searches by id and by lower-case name |
| `Ranking` | `usort` by descending score and the cut to five |
| `Matcher` | validation, the query, the score and its signals, the scoring loop and the resolution into an answer |
| `SearchProperties` | the properties of the search |
| `RateLimit` | the sliding 60-second window |
| `Token` | the `payload.signature` token check |
| `RsvpStore` | the submission after the gate and the RSVP file |
| `Endpoints` | the gate and both endpoints end to end |
| `GuestList` | the spreadsheet-to-`guests.json` conversion and the hand-over of its output to the PHP side |

The following are parameters:

- the clock: `now` is the `time()` value, and `submittedAt` is the `date('c')` string;
- the stored rate-limit window;
- the guest list;
- the RSVP file contents.

Library functions whose code is not part of the repository are fields of records of total functions and stay uninterpreted:

- `Php.Library`: `mb_strtolower`, `metaphone`, `strip_tags`, and `\p{L}` above U+007F;
- `PyText.PyLibrary`: `str.lower`/`str.upper`, `jellyfish.metaphone`, `str(float)`, and the values of non-ASCII digits;
- `Token.Crypto`: `hash_hmac`, and `base64_decode` followed by `json_decode`.

PHP strings are byte sequences (`Php.Bytes`), because `strlen`, `trim`, `strpos`, `levenshtein` and `preg_split` without `/u` all work on bytes. Python strings are `string`. `GuestList.Utf8` joins the two, because `json.dump(..., ensure_ascii=False)` writes UTF-8.

Where the code and its written description differ, the model follows the code. There are two exceptions, the defects under "## Findings". In each of them the operation the rest of the model uses (`Matcher.SignalsOf` and `Matcher.Score`, `RsvpStore.Submit`) applies the intended guard. A separate member (`Matcher.ScoreAsWritten`, `RsvpStore.SubmitAsWritten`) applies the guard as written, and lemmas say exactly where the two differ. The other departures from the written description are these:

- The 2–100 length bound is on bytes (`strlen`), not characters. It applies to the trimmed name, before `strip_tags`.
- Searching a guest's own name finds that guest only when no other guest shares the lower-case name. The name must also pass validation. `SearchProperties.SearchingOwnNameFindsGuest` carries these conditions.
- Only the best five qualifying guests appear, and only when there are two or more of them. A single qualifying guest is answered directly.
- The phonetic codes of the guests are recomputed from `name_lower` on every request. The codes stored in `guests.json` are never read by the lookup.
- A rate-limited request is not recorded, but a request refused for its token is (`Endpoints.RefusedTokenStillCounts`). The limiter runs before the token check.

## Model

| member | source | states |
|---|---|---|
| `RateLimit.Prune` | api/guest-lookup.php:50-52 | keeps exactly the stored timestamps less than 60 s before `now`, in order, and never more than there were |
| `RateLimit.Step` | api/guest-lookup.php:50-59 | refused exactly when the pruned window already holds `limit` entries; a refusal stores the old window untouched; an acceptance stores the pruned window plus `now`, which never exceeds the limit |
| `RateLimit.PruneLater` | api/guest-lookup.php:50-52 | pruning at an earlier time and then at a later one is the same as pruning at the later one |
| `RateLimit.FullWindowRejects` | api/guest-lookup.php:53-57 | a window already holding `limit` recent requests refuses and stores nothing new |
| `RateLimit.StaleWindowAllows` | api/guest-lookup.php:50-59 | once every stored timestamp is a minute old, the request passes and becomes the only entry |
| `RateLimit.WindowTracksAccepted` | api/guest-lookup.php:46-59 | over any run of requests in time order, the stored window, pruned from the last request on, is exactly the accepted requests of the last minute |
| `RateLimit.AcceptedPerMinuteBounded` | api/guest-lookup.php:53-58 | counting back a minute from any request, at most `limit` requests were let through |
| `Token.AcceptedIff` | api/guest-lookup.php:62-91 | a token is accepted exactly when it is `p.s` with neither part holding a dot, `s` the keyed hash of `p`, and `p` decoding to a payload whose `exp` is not yet past |
| `Token.SplitsAtItsDot` | api/guest-lookup.php:68-73 | `explode('.')` of two dot-free parts joined by one dot gives back exactly those two parts |
| `Token.IssuedTokenLifetime` | api/guest-lookup.php:87-91 | a correctly signed token is accepted up to and including its expiry second and refused as expired after it |
| `Token.ForgedSignatureRefused` | api/guest-lookup.php:81-86 | replacing the signature of a well-formed token by any other dot-free string gets it refused for its signature |
| `Endpoints.GuardPassesIff` | api/guest-lookup.php:14-91 | the gate lets a request through exactly when it is a POST from an absent or allowed origin, the window has room and the token is accepted; the request then counts in the window |
| `Endpoints.RefusedTokenStillCounts` | api/guest-lookup.php:53-91 | a request refused for its token has already used up a slot in the window |
| `Endpoints.EarlyRefusalKeepsWindow` | api/guest-lookup.php:14-57 | a request refused for its method, its origin or the rate leaves the stored window as it was |
| `Endpoints.DefaultLimits` | api/guest-lookup.php:53 | without configured rates, lookups are limited to 10 a minute and submissions (send-rsvp.php line 59) to 5 |
| `Endpoints.GateWindowIsLimiterRun` | api/guest-lookup.php:14-91 | after any run of requests, the window the gate stores is the limiter's window over exactly the requests that passed the method and origin checks, whatever their tokens |
| `Endpoints.GateWindowBounded` | api/guest-lookup.php:46-59 | over requests in time order, the stored window never holds more than `limit` requests of the last minute |
| `Endpoints.RefusalStatus` | api/guest-lookup.php:14-91 | every refusal of the gate answers 403, 405 or 429 |
| `Endpoints.SubmitStatus` | api/send-rsvp.php:108-189 | a submission answers 200 exactly when it succeeded |
| `Endpoints.FileChangesOnlyOnSuccess` | api/send-rsvp.php:20-189 | a submission that does not succeed, at the gate or after it, leaves the RSVP file as it was |
| `Endpoints.SubmittedGuestIsReportedAnswered` | api/guest-lookup.php:103-128 | after a successful submission, looking the same guest up by id answers that the guest has already answered |
| `RsvpStore.SubmittedIds` | api/guest-lookup.php:108 | an id is in the set exactly when some stored record carries it |
| `RsvpStore.SubmitSucceedsIff` | api/send-rsvp.php:102-179 | with the intended plus-one guard (see Findings), a submission succeeds exactly when the id is present and non-zero, the cleaned plus-one name is empty or a valid name, the guest exists and no record has its id; every failure leaves the file as it was |
| `RsvpStore.SuccessShape` | api/send-rsvp.php:122-179 | on success the new file is the old records plus the record built from the guest the id finds |
| `RsvpStore.SuccessAppendsOneRecord` | api/send-rsvp.php:168-179 | on success exactly one record is appended, with the id, the guest's own name, the three flags, the plus-one name only when the plus-one comes, and the time; earlier records are kept as they were |
| `RsvpStore.SubmitPreservesStoreInvariant` | api/send-rsvp.php:154-179 | if the store holds at most one record per guest and only records of listed guests, it still does after any submission |
| `RsvpStore.DuplicateRefused` | api/send-rsvp.php:157-166 | a guest with a stored RSVP is refused with 409 and the file is untouched, whatever else the request says |
| `RsvpStore.SecondSubmissionConflicts` | api/send-rsvp.php:157-166 | after a successful submission, a second one for the same guest is refused and the file keeps exactly the first record |
| `RsvpStore.OnlyIdAndNameMatter` | api/send-rsvp.php:122-179 | guest lists that agree on ids and names give the same outcome and file: the plus-one allowance, the pre-wedding invitation and the headcount are not enforced |
| `RsvpStore.SameIdsSameFind` | api/send-rsvp.php:124-130 | the first-match search by id finds corresponding guests in two lists that agree on ids and names |
| `RsvpStore.ZeroPlusOneNameSlipsThrough` | api/send-rsvp.php:114-119 | the plus-one guard as written accepts the name "0", which the intended guard refuses |
| `RsvpStore.PlusOneGuardsAgreeExceptZero` | api/send-rsvp.php:114-119 | on every other name the guard as written and the intended guard agree |
| `RsvpStore.SubmitAsWrittenSucceedsIff` | api/send-rsvp.php:102-179 | as written, a submission succeeds exactly when the id is present and non-zero, the cleaned plus-one name is falsy or a valid name, the guest exists and no record has its id; every failure leaves the file as it was |
| `RsvpStore.SubmitAsWrittenAgrees` | api/send-rsvp.php:106-119 | the handler as written and as intended give the same outcome and file unless the cleaned plus-one name is "0" |
| `RsvpStore.ZeroPlusOneNameStored` | api/send-rsvp.php:115-179 | a new RSVP with the plus-one coming and a plus-one name cleaning to "0" is stored with that name as written, and refused with 400 as intended |
| `RsvpStore.DuplicateRefusedAsWritten` | api/send-rsvp.php:157-166 | as written too, a guest with a stored RSVP whose plus-one name passes the written guard is refused with 409 and the file is untouched |
| `RsvpStore.SubmitAsWrittenPreservesStoreInvariant` | api/send-rsvp.php:154-179 | as written too, the store keeps at most one record per guest, each for a listed guest |
| `Guests.First` | api/guest-lookup.php:153-162 | none exactly when no element satisfies the test; otherwise an element of the list that does |
| `Guests.FirstIsEarliest` | api/guest-lookup.php:153-162 | the answer is the earliest element satisfying the test |
| `Guests.FindByIdFinds` | api/guest-lookup.php:114-127 | the by-id search finds a guest exactly when some guest has that id, and the guest it finds has that id |
| `Guests.ExactPassFindsUniqueGuest` | api/guest-lookup.php:153-161 | in a list without repeated lower-case names, the exact pass returns the one guest carrying the key |
| `Guests.ExactPassMissMeansNoEqualName` | api/guest-lookup.php:153-165 | when the exact pass finds nothing, no guest's lower-case name is the query |
| `Levenshtein.Compute` | api/guest-lookup.php:191 | PHP's two-row `levenshtein()` computes the least number of insertions, deletions and substitutions |
| `Levenshtein.NextRow` | api/guest-lookup.php:191 | each row of the table holds the distances from the next prefix of the first string to every prefix of the second |
| `Levenshtein.DistanceZeroIffEqual` | api/guest-lookup.php:205-208 | distance zero exactly for equal strings, which is when the full-name signal gives 20 |
| `Levenshtein.DistanceSymmetric` | api/guest-lookup.php:191 | the distance does not depend on which string is the query |
| `Levenshtein.DistanceAtLeastLengthGap` | api/guest-lookup.php:191 | the distance is at least the difference of the lengths |
| `Levenshtein.DistanceAtMostLonger` | api/guest-lookup.php:191 | the distance is at most the length of the longer string |
| `Php.Trim` | api/guest-lookup.php:131 | `trim()` leaves no trim byte at either end and never lengthens |
| `Php.TrimSlice` | api/guest-lookup.php:131 | `trim()` removes only trim bytes, from both ends, and keeps a contiguous slice |
| `Php.TrimIdempotent` | api/guest-lookup.php:131 | trimming twice is trimming once |
| `Php.Split` | api/guest-lookup.php:146 | `preg_split('/\s+/')` gives at least one piece, and no piece holds white space |
| `Php.SplitAtGaps` | api/guest-lookup.php:146 | the input is its pieces with one non-empty run of white space between each two neighbours, and only the first and the last piece can be empty (white space at either end of the name) |
| `Php.SplitInterleave` | api/guest-lookup.php:146 | conversely, pieces without white space, only the outer ones possibly empty, joined by runs of white space, split back into exactly those pieces: the pieces are determined by the input |
| `Php.SplitLosesOnlySpace` | api/guest-lookup.php:146 | gluing the pieces back together gives the input without its white space |
| `Php.SingleWordIffNoSpace` | api/guest-lookup.php:146-150 | a name splits into one token exactly when it has no white space, which is when no last-name code is computed |
| `Php.Explode` | api/guest-lookup.php:68 | `explode()` gives at least one piece, and no piece holds the separator |
| `Php.JoinExplode` | api/guest-lookup.php:68 | joining the pieces of `explode()` with the separator gives back the token |
| `Php.ExplodeJoin` | api/guest-lookup.php:68-75 | separator-free pieces, joined and exploded again, come back unchanged |
| `Php.Strpos` | api/guest-lookup.php:174 | `strpos()` finds something exactly when the needle occurs, and then returns its first offset |
| `Php.StrposZeroIffPrefix` | api/guest-lookup.php:213 | `strpos($gp, $sp) === 0` holds exactly when `$sp` starts `$gp` |
| `Php.DecodeEncode` | api/guest-lookup.php:138 | UTF-8 round trip: the pattern's decoder reads back the code points of any encoded text |
| `Php.DecodeAscii` | api/guest-lookup.php:138 | ASCII text decodes to its own bytes |
| `Php.NamePatternOfEncoded` | api/guest-lookup.php:138 | on UTF-8 text the pattern matches exactly when the text is non-empty and every code point is a letter, `\s` (including U+180E, which PCRE keeps in `\h`), an apostrophe, a hyphen or a period |
| `Php.VowelSeparatorMatches` | api/guest-lookup.php:138 | example: "A" followed by U+180E (bytes 41 E1 A0 8E) matches the name pattern, whatever the letter class says |
| `Php.AsciiDigitFailsNamePattern` | api/guest-lookup.php:138-142 | ASCII text holding a digit never matches the name pattern |
| `Ranking.SortByScore` | api/guest-lookup.php:228-231 | the result is in non-increasing score order and is a permutation of the candidates |
| `Ranking.Insert` | api/guest-lookup.php:228-231 | one step of the sort keeps the order and adds exactly the new candidate |
| `Ranking.Top` | api/guest-lookup.php:228-234 | the cut keeps min(n, 5) candidates, in non-increasing score order, drawn from the input |
| `Ranking.TopKeepsBest` | api/guest-lookup.php:228-234 | every kept candidate scores at least as much as every dropped one |
| `Matcher.QueryOf` | api/guest-lookup.php:145-150 | the query has at least one token; first and last are its first and last tokens; a one-token query has no last-name code |
| `Matcher.CodeBonus` | api/guest-lookup.php:178-188 | with the intended guard (see Findings), the phonetic signal is 30 exactly when the query's code is non-empty and equals the guest's, else 0 |
| `Matcher.CodeBonusAsWritten` | api/guest-lookup.php:181-188 | the guard as written gives the intended bonus for every query code but "0", and 0 for the code "0" |
| `Matcher.CountPrefixPairs` | api/guest-lookup.php:210-217 | the nested loop with `strpos(...) === 0` counts the (query token, guest token) pairs where a query token of three bytes or more starts the guest token |
| `Matcher.TokenEdit` | api/guest-lookup.php:190-202 | the token signal is `(3 - d) * 10` for the true edit distance `d` when it is at most 2 |
| `Matcher.FullEdit` | api/guest-lookup.php:204-208 | the full-name signal is `(4 - d) * 5` for the true edit distance `d` when it is at most 3 |
| `Matcher.ScoreGuest` | api/guest-lookup.php:166-217 | the loop body computes the sum of the seven signals for the guest, with the intended phonetic guard |
| `Matcher.Qualifying` | api/guest-lookup.php:219-225 | a guest's candidate is collected exactly when its score reaches 50, carrying that score and its RSVP flag |
| `Matcher.CollectCandidates` | api/guest-lookup.php:164-226 | the scoring loop collects exactly the qualifying candidates, in list order |
| `SearchProperties.ExactMatchShortCircuits` | api/guest-lookup.php:152-162 | the first guest whose lower-case name is the query decides the answer: that guest, or the conflict notice when its id has an RSVP |
| `SearchProperties.ScoringPassHasNoExactName` | api/guest-lookup.php:152-208 | the scoring pass runs only when no guest's lower-case name is the query, so no guest then gets the 20 of distance zero |
| `SearchProperties.SearchingOwnNameFindsGuest` | api/guest-lookup.php:130-162 | searching a guest's own name (valid, and not shared once lower-cased) returns that guest or its conflict notice |
| `SearchProperties.MatchNeverInvalid` | api/guest-lookup.php:152-260 | matching never answers "invalid name" |
| `SearchProperties.NameValidation` | api/guest-lookup.php:130-142 | a name is refused exactly when its trimmed form has a bad length or, after `strip_tags`, fails the name pattern; the list and the RSVPs play no part |
| `SearchProperties.DigitQueryRejected` | api/guest-lookup.php:137-142 | an ASCII query holding a digit is refused before any matching |
| `SearchProperties.SignalRanges` | api/guest-lookup.php:173-208 | the values each signal can take and exactly when it fires: containment 0/40, codes 0/30 (with the intended guard), token edits 0/10/20/30 (30 exactly for equal tokens), full edit 0/5/10/15/20 (20 exactly for equal names) |
| `SearchProperties.SingleTokenIgnoresLastName` | api/guest-lookup.php:185-202 | a one-token query gets nothing from the two last-name signals |
| `SearchProperties.PrefixBonusCountsPairs` | api/guest-lookup.php:210-217 | the prefix signal is 15 times the number of matching (query token, guest token) index pairs |
| `SearchProperties.RowPairsCount` | api/guest-lookup.php:212-216 | the inner loop's count is the number of guest tokens the query token starts |
| `SearchProperties.PrefixPairsCount` | api/guest-lookup.php:211-217 | the nested loops' count is the size of the set of matching index pairs |
| `SearchProperties.ScoringOutcome` | api/guest-lookup.php:219-260 | after the scoring pass: "not found" exactly when no guest reaches 50; a single qualifying guest is answered directly; a list exactly when two or more qualify, and it then holds the views of the best five |
| `SearchProperties.ListedCandidatesQualify` | api/guest-lookup.php:236-258 | every listed candidate is a listed guest that reached 50, with its RSVP flag and no more than id and name, and none outscores one listed before it |
| `SearchProperties.TopEntryQualifies` | api/guest-lookup.php:228-234 | every kept candidate is a guest of the list that scored at least 50 |
| `SearchProperties.DirectLookup` | api/guest-lookup.php:113-128 | a non-zero `guest_id` is answered from the list alone, whatever the name says: the guest with that id, its conflict notice, or "not found" exactly when no guest has the id |
| `SearchProperties.ZeroIdSearchesByName` | api/guest-lookup.php:114-115 | a missing or zero `guest_id` falls through to the name search |
| `SearchProperties.GeorgeInGeorgeSmith` | api/guest-lookup.php:173-176 | example of the containment signal: "george" against "george smith" earns 40 from containment alone |
| `SearchProperties.InsertionIsOneEdit` | api/guest-lookup.php:190-194 | inserting one byte before the last costs one edit, so "jon" against "john" earns 20 as a first-name match |
| `SearchProperties.ZeroCodeLosesBonus` | api/guest-lookup.php:181-188 | as written, the query code "0" earns nothing even against the same code; as intended it earns 30 |
| `SearchProperties.CodeBonusAgreesExceptZero` | api/guest-lookup.php:181-188 | for every other query code the guard as written and the intended guard agree |
| `SearchProperties.CodeSignalsAsWritten` | api/guest-lookup.php:178-188 | as written, each phonetic signal is 30 exactly when the query's code is truthy and equals the guest token's code, else 0; the other five signals are the intended ones |
| `SearchProperties.ScoreAsWrittenAgrees` | api/guest-lookup.php:166-217 | the score as written is never above the intended one, at most 60 below it, and equal to it unless a query code is "0" |
| `SearchProperties.ZeroCodeLowersScore` | api/guest-lookup.php:181-188 | a query and a guest whose first tokens both have the code "0" score at least 30 less as written than as intended |
| `PyText.Strip` | data/convert-excel.py:38-39 | `strip()` leaves no white space at either end and never lengthens |
| `PyText.StripParts` | data/convert-excel.py:38-39 | `strip()` removes only white space, before and after the result |
| `PyText.StripEmptyIffBlank` | data/convert-excel.py:38 | a cell strips to nothing exactly when it is all white space |
| `PyText.IntStrip` | data/convert-excel.py:25 | `int()` reads its number from the text without the white space it skips at either end: ASCII space, `\t`, `\n`, `\v`, `\f`, `\r` and non-ASCII white space, but not U+001C to U+001F |
| `PyText.IntStripParts` | data/convert-excel.py:25 | `int()` skips only that white space, before and after the text it reads |
| `PyText.Split` | data/convert-excel.py:17 | `split()` gives non-empty pieces without white space |
| `PyText.SplitAtGaps` | data/convert-excel.py:17 | the input is white space, then its pieces with one non-empty run of white space between each two neighbours, then white space; it has no pieces exactly when it is all white space |
| `PyText.SplitInterleave` | data/convert-excel.py:17 | conversely, non-empty pieces without white space, joined by runs of white space and wrapped in white space, split back into exactly those pieces |
| `PyText.SplitLosesOnlySpace` | data/convert-excel.py:17 | gluing the pieces back together gives the input without its white space |
| `PyText.SplitIgnoresStrip` | data/convert-excel.py:17 | `name.strip().split()` is `name.split()` |
| `PyText.ParsePrintedInt` | data/convert-excel.py:22-27 | `int(str(n))` is `n`, also with white space `int()` skips around the digits |
| `PyText.NonNumericText` | data/convert-excel.py:22-27 | text holding an ASCII character that is not a digit, sign, underscore or white space `int()` skips makes `int()` raise |
| `PyText.SeparatorRefused` | data/convert-excel.py:22-27 | text holding one of U+001C to U+001F, white space to `strip()`, makes `int()` raise |
| `PyText.SeparatorPaddedOne` | data/convert-excel.py:25 | example: "\x1c1" strips to "1", yet `int()` refuses it |
| `PyText.DigitsRoundTrip` | data/convert-excel.py:25 | the decimal digits of `n` read back as `n` |
| `GuestList.Truncate` | data/convert-excel.py:25 | `int()` of a float truncates toward zero |
| `GuestList.SafeIntOfNumbers` | data/convert-excel.py:22-27 | `safe_int` returns integers as they are, booleans as 1/0, floats truncated, and decimal text as its value, also with white space `int()` skips around it |
| `GuestList.SafeIntOfNonNumbers` | data/convert-excel.py:22-27 | `safe_int` returns 0 for an empty cell, for values `int()` cannot take and for non-numeric text |
| `GuestList.SeparatorCellsRefused` | data/convert-excel.py:22-27 | example: `safe_int("\x1c1")` is 0, and `int("\x1c2")` raises |
| `GuestList.GroupEntry` | data/convert-excel.py:38-46 | a group gives a guest exactly when its name cell is truthy, not blank and not "total"; the name is the stripped cell, the headcount is 1 plus `safe_int` of the plus-one cell, a plus-one is allowed exactly when the headcount is two or more, and the guest is invited to the pre-wedding exactly when the stripped pre-wedding cell (empty when falsy) upper-cases to "Y" |
| `GuestList.RowEntries` | data/convert-excel.py:32-62 | a row gives at most one guest, or two when it reaches column I |
| `GuestList.TwoColumnGuests` | data/convert-excel.py:29-64 | every guest from a two-column sheet has a non-empty, stripped name that is not "total"; a sheet gives at most two guests per row |
| `GuestList.SkippedRow` | data/convert-excel.py:38-54 | a row whose name cells are empty, blank or "total" adds no guest |
| `GuestList.ParentRow` | data/convert-excel.py:69-78 | a parents row gives at most one guest, with no plus-one, invited to the pre-wedding |
| `GuestList.ExtractParents` | data/convert-excel.py:66-79 | every guest of the parents sheet has no plus-one, is invited to the pre-wedding and has a non-empty name |
| `GuestList.ParentHeadcount` | data/convert-excel.py:72-77 | a named parents row with an empty headcount counts two people; one whose headcount `int()` cannot read stops the conversion |
| `GuestList.Dedup` | data/convert-excel.py:101-108 | the result has no two entries with the same lower-case name, and exactly the lower-case names of the input |
| `GuestList.DedupByName` | data/convert-excel.py:101-108 | the loop with its `seen` set computes the deduplication |
| `GuestList.DedupKeepsFirstOccurrences` | data/convert-excel.py:101-108 | deduplication keeps exactly the first entry of every lower-case name, in order |
| `GuestList.DedupKeepsInputs` | data/convert-excel.py:101-108 | every kept entry is one of the input entries |
| `GuestList.MetaphoneParts` | data/convert-excel.py:15-20 | a blank name has no codes, a one-word name only a first-name code, a longer name the codes of its first and last words |
| `GuestList.MetaphoneOfShortNames` | data/convert-excel.py:15-20 | a one-word name gets no last-name code, and a blank one gets no code at all |
| `GuestList.NumberedList` | data/convert-excel.py:110-123 | numbering keeps the entries in order with ids 1..n, the lower-case name of each name, its metaphone codes and its flags, and no two lower-case names repeat |
| `GuestList.ConvertedList` | data/convert-excel.py:81-123 | the output has ids 1..n in order, lower-case names that are the lower case of the names and never repeat, and the metaphone codes of the names |
| `GuestList.Utf8Injective` | data/convert-excel.py:125-126 | different names are written as different UTF-8 byte strings |
| `GuestList.ListServesLookup` | data/convert-excel.py:110-123 | read by the endpoints, a list numbered 1..n without repeated lower-case names finds each guest by its own id and, in the exact pass, by its own lower-case name |
| `GuestList.ConvertedListServesLookup` | data/convert-excel.py:81-126 | every converted guest is found by its own id and, in the exact pass, by its own lower-case name |

## Left out

- Loading `config.php`, the directory and file handling, `flock`, the `md5` file names of the rate windows, the response headers and every 500 error (missing configuration, missing guest file, unopenable or unlockable RSVP file): file-system I/O. The stored window, the guest list and the RSVP file contents are parameters instead.
- The two `time()` calls of one request are modelled as a single `now`. `date('c')` is the parameter `submittedAt`.
- `Access-Control-Allow-Origin` echoing: a header with no effect on the answer.
- `mb_strtolower`, `metaphone`, `strip_tags`, `\p{L}` above U+007F, `hash_hmac`/`hash_equals`, `base64_decode`/`json_decode`, and Python's `str.lower`, `str.upper`, `jellyfish.metaphone` and `str(float)` are uninterpreted functions. Their code is not part of the repository.
- The token payload's `exp` is modelled as an integer. A payload that decodes but has a non-numeric `exp` goes through PHP's loose comparison, which is not modelled.
- Token issuing (the page's script and the token endpoint) is not part of this model. `Token.IssuedTokenLifetime` states the lifetime in terms of the payload's `exp`.
- `intval` of the request's `guest_id` and the JSON decoding of request bodies: the model receives the integer (or its absence) and the already-decoded fields.
- `in_array` with loose comparison is modelled as set membership of integer ids. Both id lists hold integers written by the endpoints themselves.
- PHP 8 semantics throughout: `strpos` with an empty needle returns 0 (PHP 7 returns false with a warning); `levenshtein` has no length cap (before PHP 8 it returns -1 for a string over 255 bytes); `usort` is stable and is modelled by a stable insertion sort. `SearchProperties.ScoringOutcome` and `SearchProperties.ListedCandidatesQualify` rely on that stability: among equal scores, the list order of the guests is kept.
- `openpyxl.load_workbook`, the dispatch on sheet names, `json.dump` to disk and the final `print`: I/O. `GuestList.Convert` takes the three sheets as row sequences, all three present.
- Rows narrower than the columns the converter reads (five cells in a two-column sheet, three in the parents sheet) raise `IndexError` in the converter. They are excluded by a requires (`TwoColumnRows`, `ParentRows`) rather than modelled as a crash.
- `GuestList.ExtractParents`: an `int()` failure on a parents headcount, an uncaught exception in the converter, is modelled as `None` for the whole conversion.
- `script.js` and the HTML page: client side.
- `Endpoints.RefusalStatus`: only the set of status codes is stated; the message texts are not modelled.
- `Php.Split`: its own contract gives only the shape of the pieces. Where the pieces break is stated by `Php.SplitAtGaps` and `Php.SplitInterleave`.
- `PyText.Split`: its own contract gives only the shape of the pieces. Where the pieces break is stated by `PyText.SplitAtGaps` and `PyText.SplitInterleave`.
- `Matcher.CodeBonus`: states the intended phonetic guard, not the code's. The two differ only for the query code "0", which earns 0 in the code. `Matcher.CodeBonusAsWritten` and `SearchProperties.CodeBonusAgreesExceptZero` state the code's guard.
- `Matcher.ScoreGuest`: computes the intended score, which is 30 more than the code's for each query code "0" that the guest token's code matches. `Matcher.ScoreAsWritten` is the code's score, related to it by `SearchProperties.ScoreAsWrittenAgrees`.
- `Matcher.Qualifying`, `Matcher.CollectCandidates`, `SearchProperties.ScoringOutcome`, `SearchProperties.ListedCandidatesQualify` and `SearchProperties.TopEntryQualifies` are stated for the intended score. When no query code is "0", they hold for the code's score too (`SearchProperties.ScoreAsWrittenAgrees`).
- `SearchProperties.SignalRanges`: its phonetic clause is for the intended guard. `SearchProperties.CodeSignalsAsWritten` gives the code's: 30 only for a truthy code.
- `RsvpStore.SubmitSucceedsIff`: states the intended plus-one guard. The code's handler also accepts the cleaned name "0" (`RsvpStore.SubmitAsWrittenSucceedsIff`, `RsvpStore.ZeroPlusOneNameStored`).
- `RsvpStore.SuccessShape`, `RsvpStore.SuccessAppendsOneRecord`, `RsvpStore.SubmitPreservesStoreInvariant` and `RsvpStore.OnlyIdAndNameMatter` are stated for the intended handler. By `RsvpStore.SubmitAsWrittenAgrees` they carry over to the code's handler for every plus-one name but "0".
- `RsvpStore.DuplicateRefused`: requires the intended plus-one guard to pass, since a bad plus-one name is answered 400 before the duplicate test. `RsvpStore.DuplicateRefusedAsWritten` states it for the code's guard.
- `RsvpStore.SecondSubmissionConflicts`: requires the second request's plus-one name to pass the intended guard. With the code's guard the name "0" passes too, and `RsvpStore.DuplicateRefusedAsWritten` then gives the 409.
- `Endpoints.SubmitStatus`, `Endpoints.FileChangesOnlyOnSuccess` and `Endpoints.SubmittedGuestIsReportedAnswered` go through `RsvpStore.Submit`, the intended handler.
- `RsvpStore.SubmittedIds`: states membership only, not the order of `array_column`, which the endpoints never use.

## Findings

| source | as written | input that shows it | evidently intended | confidence | as-written member | corrected member |
|---|---|---|---|---|---|---|
| api/guest-lookup.php:181-188 | `if ($searchFirstMp && $gFirstMp === $searchFirstMp)` tests the code's PHP truthiness, and the code "0" is falsy | a query whose first (or last) token has metaphone code "0", e.g. "Thea" (TH is written "0"), against a guest whose token has the same code | equal non-empty codes earn +30 | not executed | `Matcher.CodeBonusAsWritten` and `Matcher.ScoreAsWritten` (shown by `SearchProperties.ZeroCodeLosesBonus` and `SearchProperties.ZeroCodeLowersScore`) | `Matcher.CodeBonus` (used by `Matcher.SignalsOf`; agreement elsewhere in `SearchProperties.CodeBonusAgreesExceptZero` and `SearchProperties.ScoreAsWrittenAgrees`) |
| api/send-rsvp.php:115-119 | `if ($plusOneName && !preg_match(...))` skips the name pattern for a falsy name, and "0" is falsy | `plus_one_name` = "0" with `plus_one_coming` true: it is stored as the plus-one's name | every non-empty plus-one name must match the name pattern | not executed | `RsvpStore.PlusOneNameOkAsWritten` and `RsvpStore.SubmitAsWritten` (shown by `RsvpStore.ZeroPlusOneNameSlipsThrough` and `RsvpStore.ZeroPlusOneNameStored`) | `RsvpStore.PlusOneNameOk` (used by `RsvpStore.Submit`; agreement elsewhere in `RsvpStore.PlusOneGuardsAgreeExceptZero` and `RsvpStore.SubmitAsWrittenAgrees`) |

=== FILE: endpoints.dfy ===
/**
 * The two endpoints end to end: the shared gate (method, origin, rate
 * limit, token) and then the lookup or the submission.  The rate-limit
 * window, the guest list and the RSVP file are passed in and handed back;
 * `now` is the `time()` value both the limiter and the expiry test use.
 */
module Endpoints {
  import opened Options
  import opened Php
  import opened Guests
  import RateLimit
  import Token
  import Matcher
  import RsvpStore

  /** The `security` part of config.php that the gate reads. */
  datatype Config = Config(
    secret: Bytes,
    allowedOrigins: seq<Bytes>,
    lookupRpm: Option<int>,
    submitRpm: Option<int>
  )

  const Post: Bytes := [0x50, 0x4F, 0x53, 0x54]   // "POST"

  /** The request as far as the gate sees it; missing headers are "". */
  datatype Request<Body> = Request(httpMethod: Bytes, origin: Bytes, token: Bytes, body: Body)

  datatype Refusal =
    | MethodNotAllowed
    | UnauthorizedOrigin
    | TooManyRequests
    | BadToken(error: Token.TokenError)

  function RefusalStatus(r: Refusal): (status: int)
    ensures status in {403, 405, 429}
  {
    match r
    case MethodNotAllowed => 405
    case UnauthorizedOrigin => 403
    case TooManyRequests => 429
    case BadToken(_) => 403
  }

  /** The gate's verdict and the rate-limit window it leaves stored. */
  datatype Gate = Pass(window: seq<int>) | Stop(refusal: Refusal, window: seq<int>)

  /** The checks shared by both endpoints, in their order. */
  function Guard<Body>(cfg: Config, crypto: Token.Crypto, req: Request<Body>,
                       window: seq<int>, now: int, limit: int): Gate
  {
    if req.httpMethod != Post then Stop(MethodNotAllowed, window)
    else if Truthy(req.origin) && req.origin !in cfg.allowedOrigins then Stop(UnauthorizedOrigin, window)
    else match RateLimit.Step(window, now, limit)
      case Rejected(w) => Stop(TooManyRequests, w)
      case Allowed(w) =>
        match Token.Check(crypto, cfg.secret, req.token, now)
        case Accepted => Pass(w)
        case Refused(e) => Stop(BadToken(e), w)
  }

  function LookupLimit(cfg: Config): int { cfg.lookupRpm.GetOr(RateLimit.DefaultLookupLimit) }
  function SubmitLimit(cfg: Config): int { cfg.submitRpm.GetOr(RateLimit.DefaultSubmitLimit) }

  // ---------------------------------------------------------------------
  // guest-lookup
  // ---------------------------------------------------------------------

  datatype LookupResponse = LookupRefused(refusal: Refusal) | LookupReply(reply: Matcher.Reply)

  datatype LookupExchange = LookupExchange(response: LookupResponse, window: seq<int>)

  function HandleLookup(cfg: Config, crypto: Token.Crypto, lib: Library,
                        req: Request<Matcher.LookupInput>, window: seq<int>, now: int,
                        guests: seq<Guest>, file: Option<seq<RsvpStore.Rsvp>>): LookupExchange
  {
    match Guard(cfg, crypto, req, window, now, LookupLimit(cfg))
    case Stop(r, w) => LookupExchange(LookupRefused(r), w)
    case Pass(w) =>
      var submitted := RsvpStore.SubmittedIds(RsvpStore.Records(file));
      LookupExchange(LookupReply(Matcher.Lookup(lib, req.body, guests, submitted)), w)
  }

  // ---------------------------------------------------------------------
  // send-rsvp
  // ---------------------------------------------------------------------

  datatype SubmitResponse = SubmitRefused(refusal: Refusal) | SubmitResult(outcome: RsvpStore.Outcome)

  datatype SubmitExchange = SubmitExchange(
    response: SubmitResponse, window: seq<int>, file: Option<seq<RsvpStore.Rsvp>>)

  function HandleSubmit(cfg: Config, crypto: Token.Crypto, lib: Library,
                        req: Request<RsvpStore.SubmitInput>, window: seq<int>, now: int,
                        guests: seq<Guest>, file: Option<seq<RsvpStore.Rsvp>>,
                        submittedAt: Bytes): SubmitExchange
  {
    match Guard(cfg, crypto, req, window, now, SubmitLimit(cfg))
    case Stop(r, w) => SubmitExchange(SubmitRefused(r), w, file)
    case Pass(w) =>
      var s := RsvpStore.Submit(lib, req.body, guests, file, submittedAt);
      SubmitExchange(SubmitResult(s.outcome), w, s.file)
  }

  function SubmitStatus(r: SubmitResponse): (status: int)
    ensures status == 200 <==> r == SubmitResult(RsvpStore.Success)
  {
    match r
    case SubmitRefused(why) => RefusalStatus(why)
    case SubmitResult(Success) => 200
    case SubmitResult(Failure(AlreadySubmitted)) => 409
    case SubmitResult(Failure(_)) => 400
  }

  // ---------------------------------------------------------------------
  // Properties of the gate
  // ---------------------------------------------------------------------

  /** A request reaches the body handling exactly when it is a POST from an
      allowed or absent origin, the window has room, and the token is
      accepted; it then counts against the window. */
  lemma GuardPassesIff<Body>(cfg: Config, crypto: Token.Crypto, req: Request<Body>,
                             window: seq<int>, now: int, limit: int)
    ensures Guard(cfg, crypto, req, window, now, limit).Pass? <==>
              req.httpMethod == Post
              && (!Truthy(req.origin) || req.origin in cfg.allowedOrigins)
              && |RateLimit.Prune(window, now)| < limit
              && Token.Check(crypto, cfg.secret, req.token, now) == Token.Accepted
    ensures Guard(cfg, crypto, req, window, now, limit).Pass? ==>
              Guard(cfg, crypto, req, window, now, limit).window == RateLimit.Prune(window, now) + [now]
  {
  }

  /** A request refused for its token has still used up a slot in the
      window: the limiter runs before the token check. */
  lemma RefusedTokenStillCounts<Body>(cfg: Config, crypto: Token.Crypto, req: Request<Body>,
                                      window: seq<int>, now: int, limit: int)
    requires req.httpMethod == Post && !Truthy(req.origin)
    requires |RateLimit.Prune(window, now)| < limit
    requires Token.Check(crypto, cfg.secret, req.token, now).Refused?
    ensures Guard(cfg, crypto, req, window, now, limit) ==
              Stop(BadToken(Token.Check(crypto, cfg.secret, req.token, now).error),
                   RateLimit.Prune(window, now) + [now])
  {
  }

  /** Refused before the limiter (wrong method, foreign origin) or by it, a
      request leaves the stored window as it was. */
  lemma EarlyRefusalKeepsWindow<Body>(cfg: Config, crypto: Token.Crypto, req: Request<Body>,
                                      window: seq<int>, now: int, limit: int)
    requires Guard(cfg, crypto, req, window, now, limit).Stop?
    requires !Guard(cfg, crypto, req, window, now, limit).refusal.BadToken?
    ensures Guard(cfg, crypto, req, window, now, limit).window == window
  {
  }

  /** Without a configured rate, lookups are limited to ten a minute and
      submissions to five. */
  lemma DefaultLimits(cfg: Config)
    requires cfg.lookupRpm.None? && cfg.submitRpm.None?
    ensures LookupLimit(cfg) == 10 && SubmitLimit(cfg) == 5
  {
  }

  // ---------------------------------------------------------------------
  // The gate over a run of requests
  // ---------------------------------------------------------------------

  /** A request and the `time()` at which it arrives. */
  datatype Timed<Body> = Timed(req: Request<Body>, at: int)

  /** The window the gate leaves stored after the requests, in order, from
      an empty window. */
  function GateWindow<Body>(cfg: Config, crypto: Token.Crypto, reqs: seq<Timed<Body>>, limit: int): seq<int>
    decreases |reqs|
  {
    if |reqs| == 0 then []
    else
      var last := reqs[|reqs| - 1];
      Guard(cfg, crypto, last.req, GateWindow(cfg, crypto, reqs[..|reqs| - 1], limit), last.at, limit).window
  }

  /** The method and origin checks that run before the limiter. */
  predicate ReachesLimiter<Body>(cfg: Config, req: Request<Body>) {
    req.httpMethod == Post && (!Truthy(req.origin) || req.origin in cfg.allowedOrigins)
  }

  /** The arrival times of the requests that get as far as the limiter. */
  function LimiterTimes<Body>(cfg: Config, reqs: seq<Timed<Body>>): seq<int>
    decreases |reqs|
  {
    if |reqs| == 0 then []
    else
      var last := reqs[|reqs| - 1];
      LimiterTimes(cfg, reqs[..|reqs| - 1]) + (if ReachesLimiter(cfg, last.req) then [last.at] else [])
  }

  /** Whatever their tokens, the window the gate stores after a run of
      requests is the limiter's window over exactly the requests that passed
      the method and origin checks: refused requests before the limiter
      leave no trace, and a bad token does not undo the slot it took. */
  lemma {:induction false} GateWindowIsLimiterRun<Body>(cfg: Config, crypto: Token.Crypto,
                                                        reqs: seq<Timed<Body>>, limit: int)
    ensures GateWindow(cfg, crypto, reqs, limit) == RateLimit.Run(LimiterTimes(cfg, reqs), limit).window
    decreases |reqs|
  {
    if |reqs| > 0 {
      var init, last := reqs[..|reqs| - 1], reqs[|reqs| - 1];
      GateWindowIsLimiterRun(cfg, crypto, init, limit);
      var times := LimiterTimes(cfg, init);
      var prev := GateWindow(cfg, crypto, init, limit);
      assert reqs[..|reqs| - 1] == init;
      if ReachesLimiter(cfg, last.req) {
        var t := times + [last.at];
        assert LimiterTimes(cfg, reqs) == t;
        assert t[..|t| - 1] == times;
        assert RateLimit.Run(t, limit).window == RateLimit.Step(prev, last.at, limit).window;
        assert Guard(cfg, crypto, last.req, prev, last.at, limit).window
            == RateLimit.Step(prev, last.at, limit).window;
      } else {
        assert LimiterTimes(cfg, reqs) == times + [];
        assert times + [] == times;
      }
    }
  }

  /** In time order, the window the gate stores never holds more than
      `limit` requests of the last minute. */
  lemma GateWindowBounded<Body>(cfg: Config, crypto: Token.Crypto, reqs: seq<Timed<Body>>, limit: int)
    requires RateLimit.Nondecreasing(LimiterTimes(cfg, reqs)) && limit >= 0
    requires |LimiterTimes(cfg, reqs)| > 0
    ensures var times := LimiterTimes(cfg, reqs);
            |RateLimit.Prune(GateWindow(cfg, crypto, reqs, limit), times[|times| - 1])| <= limit
  {
    var times := LimiterTimes(cfg, reqs);
    GateWindowIsLimiterRun(cfg, crypto, reqs, limit);
    RateLimit.WindowTracksAccepted(times, limit, times[|times| - 1]);
    RateLimit.AcceptedPerMinuteBounded(times, limit);
  }

  // ---------------------------------------------------------------------
  // Properties across the two endpoints
  // ---------------------------------------------------------------------

  /** A refused submission never touches the RSVP file. */
  lemma FileChangesOnlyOnSuccess(cfg: Config, crypto: Token.Crypto, lib: Library,
                                 req: Request<RsvpStore.SubmitInput>, window: seq<int>, now: int,
                                 guests: seq<Guest>, file: Option<seq<RsvpStore.Rsvp>>, submittedAt: Bytes)
    ensures HandleSubmit(cfg, crypto, lib, req, window, now, guests, file, submittedAt).response
              != SubmitResult(RsvpStore.Success) ==>
            HandleSubmit(cfg, crypto, lib, req, window, now, guests, file, submittedAt).file == file
  {
    if Guard(cfg, crypto, req, window, now, SubmitLimit(cfg)).Pass? {
      RsvpStore.SubmitSucceedsIff(lib, req.body, guests, file, submittedAt);
    }
  }

  /** After a successful submission, picking the same guest in the lookup
      reports that the guest has already answered. */
  lemma SubmittedGuestIsReportedAnswered(cfg: Config, crypto: Token.Crypto, lib: Library,
                                         req: Request<RsvpStore.SubmitInput>, window: seq<int>, now: int,
                                         guests: seq<Guest>, file: Option<seq<RsvpStore.Rsvp>>,
                                         submittedAt: Bytes,
                                         lookup: Request<Matcher.LookupInput>, window2: seq<int>, later: int)
    requires HandleSubmit(cfg, crypto, lib, req, window, now, guests, file, submittedAt).response
               == SubmitResult(RsvpStore.Success)
    requires Guard(cfg, crypto, lookup, window2, later, LookupLimit(cfg)).Pass?
    requires lookup.body.guestId == req.body.guestId
    ensures var after := HandleSubmit(cfg, crypto, lib, req, window, now, guests, file, submittedAt).file;
            HandleLookup(cfg, crypto, lib, lookup, window2, later, guests, after).response
              == LookupReply(Matcher.AlreadySubmitted(FindById(guests, req.body.guestId.value).value.name))
  {
    var s := RsvpStore.Submit(lib, req.body, guests, file, submittedAt);
    RsvpStore.SuccessAppendsOneRecord(lib, req.body, guests, file, submittedAt);
    var records := RsvpStore.Records(s.file);
    assert records[|RsvpStore.Records(file)|].guestId == req.body.guestId.value;
    assert req.body.guestId.value in RsvpStore.SubmittedIds(records);
    FindByIdFinds(guests, req.body.guestId.value);
  }
}

=== FILE: guest_list.dfy ===
/**
 * The converter that builds guests.json from the spreadsheet: extract
 * guests from the two-column sheets and the parents sheet, keep the first
 * guest of each lower-case name, then number them from 1 and add the
 * lower-case name and metaphone keys the lookup endpoint reads.  Rows are
 * sequences of cell values as openpyxl yields them; the workbook itself is
 * not modelled.
 */
module GuestList {
  import opened Options
  import opened PyText
  import Php
  import Guests

  /** An openpyxl cell value: None, str, int, float, bool, or anything else
      (a date, say), shown by str() as `shown`. */
  datatype Cell =
    | Empty
    | Text(text: string)
    | Integer(i: int)
    | Real(x: real)
    | Boolean(b: bool)
    | Other(shown: string)

  type Row = seq<Cell>

  /** Python truthiness of a cell value. */
  predicate Truthy(c: Cell) {
    match c
    case Empty => false
    case Text(t) => t != []
    case Integer(i) => i != 0
    case Real(x) => x != 0.0
    case Boolean(b) => b
    case Other(_) => true
  }

  /** str() of a cell value. */
  function Str(lib: PyLibrary, c: Cell): string {
    match c
    case Empty => "None"
    case Text(t) => t
    case Integer(i) => DecimalString(i)
    case Real(x) => lib.floatStr(x)
    case Boolean(b) => if b then "True" else "False"
    case Other(shown) => shown
  }

  /** int() of a float: truncation toward zero. */
  function Truncate(x: real): (n: int)
    ensures x >= 0.0 ==> n as real <= x < n as real + 1.0
    ensures x < 0.0 ==> n as real - 1.0 < x <= n as real
  {
    if x >= 0.0 then x.Floor else -((-x).Floor)
  }

  /** int() of a cell value; None where Python raises ValueError or TypeError. */
  function IntOf(lib: PyLibrary, c: Cell): Option<int> {
    match c
    case Empty => None
    case Text(t) => ParseInt(lib, t)
    case Integer(i) => Some(i)
    case Real(x) => Some(Truncate(x))
    case Boolean(b) => Some(if b then 1 else 0)
    case Other(_) => None
  }

  /** safe_int: int() of the value, 0 when int() raises. */
  function SafeInt(lib: PyLibrary, c: Cell): int {
    IntOf(lib, c).GetOr(0)
  }

  /** Numbers come back as themselves: integers, booleans, truncated floats,
      and decimal text, with white space int() skips around it. */
  lemma SafeIntOfNumbers(lib: PyLibrary, n: int, x: real, pad1: string, pad2: string)
    requires AllIntSpace(pad1) && AllIntSpace(pad2)
    ensures SafeInt(lib, Integer(n)) == n
    ensures SafeInt(lib, Boolean(true)) == 1 && SafeInt(lib, Boolean(false)) == 0
    ensures SafeInt(lib, Real(x)) == Truncate(x)
    ensures SafeInt(lib, Text(pad1 + DecimalString(n) + pad2)) == n
  {
    ParsePrintedInt(lib, n, pad1, pad2);
  }

  /** None, values int() cannot take, and text that is not a number give 0. */
  lemma SafeIntOfNonNumbers(lib: PyLibrary, shown: string, t: string, k: nat)
    requires k < |t| && t[k] as int < 0x80
    requires !('0' <= t[k] <= '9') && t[k] != '+' && t[k] != '-' && t[k] != '_' && !IsIntSpace(t[k])
    ensures SafeInt(lib, Empty) == 0
    ensures SafeInt(lib, Other(shown)) == 0
    ensures SafeInt(lib, Text(t)) == 0
  {
    NonNumericText(lib, t, k);
  }

  /** A headcount cell "\x1c1" or "\x1c2" is not a number to int(): a
      plus-one cell like it counts 0, a parents headcount like it stops the
      conversion. */
  lemma SeparatorCellsRefused(lib: PyLibrary)
    ensures SafeInt(lib, Text("\U{1C}1")) == 0
    ensures IntOf(lib, Text("\U{1C}2")).None?
  {
    SeparatorRefused(lib, "\U{1C}1", 0);
    SeparatorRefused(lib, "\U{1C}2", 0);
  }

  // ---------------------------------------------------------------------
  // Extraction
  // ---------------------------------------------------------------------

  /** A guest before numbering. */
  datatype Entry = Entry(name: string, plusOneAllowed: bool, preWeddingInvited: bool, headcount: int)

  /** The name cell holds a guest: truthy, not blank, and not the "total" line. */
  predicate KeepsName(lib: PyLibrary, c: Cell) {
    Truthy(c) && Strip(Str(lib, c)) != [] && lib.lower(Strip(Str(lib, c))) != "total"
  }

  /** One three-cell group of a two-column sheet: name, plus-one count,
      pre-wedding mark. */
  function GroupEntry(lib: PyLibrary, name: Cell, plusOne: Cell, preWed: Cell): (r: Option<Entry>)
    ensures r.Some? <==> KeepsName(lib, name)
    ensures r.Some? ==> r.value.name == Strip(Str(lib, name)) && r.value.name != []
                        && lib.lower(r.value.name) != "total"
                        && r.value.headcount == 1 + SafeInt(lib, plusOne)
                        && (r.value.plusOneAllowed <==> r.value.headcount >= 2)
    ensures r.Some? ==>
      (r.value.preWeddingInvited <==>
         lib.upper(Strip(Str(lib, if Truthy(preWed) then preWed else Text("")))) == "Y")
  {
    if KeepsName(lib, name) then
      var po := SafeInt(lib, plusOne);
      var mark := Strip(Str(lib, if Truthy(preWed) then preWed else Text("")));
      Some(Entry(Strip(Str(lib, name)), po >= 1, lib.upper(mark) == "Y", 1 + po))
    else None
  }

  function AsSeq<T>(o: Option<T>): seq<T> {
    match o
    case None => []
    case Some(v) => [v]
  }

  /** Columns C, D, E hold the left group; G, H, I the right one, read only
      when the row reaches column I. */
  function RowEntries(lib: PyLibrary, row: Row): (es: seq<Entry>)
    requires |row| >= 5
    ensures |es| <= (if |row| > 8 then 2 else 1)
  {
    AsSeq(GroupEntry(lib, row[2], row[3], row[4])) + AsSeq(RightGroup(lib, row))
  }

  function RightGroup(lib: PyLibrary, row: Row): Option<Entry>
    requires |row| >= 5
  {
    if |row| > 8 then GroupEntry(lib, row[6], row[7], row[8]) else None
  }

  predicate TwoColumnRows(rows: seq<Row>) {
    forall i :: 0 <= i < |rows| ==> |rows[i]| >= 5
  }

  function ExtractTwoColumn(lib: PyLibrary, rows: seq<Row>): seq<Entry>
    requires TwoColumnRows(rows)
    decreases |rows|
  {
    if |rows| == 0 then []
    else ExtractTwoColumn(lib, rows[..|rows| - 1]) + RowEntries(lib, rows[|rows| - 1])
  }

  /** What every extracted two-column guest satisfies. */
  predicate TwoColumnGuest(lib: PyLibrary, e: Entry) {
    e.name != [] && !IsSpace(e.name[0]) && !IsSpace(e.name[|e.name| - 1])
    && lib.lower(e.name) != "total"
    && (e.plusOneAllowed <==> e.headcount >= 2)
  }

  /** Every guest from a two-column sheet has a stripped, non-blank name
      other than "total", and a plus-one exactly when its headcount is at
      least two; each row gives at most two guests. */
  lemma {:induction false} TwoColumnGuests(lib: PyLibrary, rows: seq<Row>)
    requires TwoColumnRows(rows)
    ensures forall i :: 0 <= i < |ExtractTwoColumn(lib, rows)| ==>
              TwoColumnGuest(lib, ExtractTwoColumn(lib, rows)[i])
    ensures |ExtractTwoColumn(lib, rows)| <= 2 * |rows|
    decreases |rows|
  {
    if |rows| > 0 {
      var init := rows[..|rows| - 1];
      var row := rows[|rows| - 1];
      TwoColumnGuests(lib, init);
      RowGuests(lib, row);
      AllGuests(lib, ExtractTwoColumn(lib, init), RowEntries(lib, row));
    }
  }

  lemma AllGuests(lib: PyLibrary, a: seq<Entry>, b: seq<Entry>)
    requires forall i :: 0 <= i < |a| ==> TwoColumnGuest(lib, a[i])
    requires forall j :: 0 <= j < |b| ==> TwoColumnGuest(lib, b[j])
    ensures forall i :: 0 <= i < |a + b| ==> TwoColumnGuest(lib, (a + b)[i])
  {
  }

  lemma RowGuests(lib: PyLibrary, row: Row)
    requires |row| >= 5
    ensures forall j :: 0 <= j < |RowEntries(lib, row)| ==> TwoColumnGuest(lib, RowEntries(lib, row)[j])
  {
    GroupGuest(lib, row[2], row[3], row[4]);
    if |row| > 8 {
      GroupGuest(lib, row[6], row[7], row[8]);
    }
    BothGroups(lib, GroupEntry(lib, row[2], row[3], row[4]), RightGroup(lib, row));
  }

  lemma BothGroups(lib: PyLibrary, left: Option<Entry>, right: Option<Entry>)
    requires left.Some? ==> TwoColumnGuest(lib, left.value)
    requires right.Some? ==> TwoColumnGuest(lib, right.value)
    ensures forall j :: 0 <= j < |AsSeq(left) + AsSeq(right)| ==>
              TwoColumnGuest(lib, (AsSeq(left) + AsSeq(right))[j])
  {
  }

  lemma GroupGuest(lib: PyLibrary, name: Cell, plusOne: Cell, preWed: Cell)
    ensures GroupEntry(lib, name, plusOne, preWed).Some? ==>
              TwoColumnGuest(lib, GroupEntry(lib, name, plusOne, preWed).value)
  {
    var r := GroupEntry(lib, name, plusOne, preWed);
    if r.Some? {
      var stripped := Strip(Str(lib, name));
      assert r.value.name == stripped;
    }
  }

  /** A row whose name cells are empty, blank or "total" adds no guest. */
  lemma SkippedRow(lib: PyLibrary, rows: seq<Row>, row: Row)
    requires TwoColumnRows(rows) && |row| >= 5
    requires !KeepsName(lib, row[2]) && (|row| > 8 ==> !KeepsName(lib, row[6]))
    ensures ExtractTwoColumn(lib, rows + [row]) == ExtractTwoColumn(lib, rows)
  {
    assert (rows + [row])[..|rows|] == rows;
  }

  /** The parents sheet: column B is the headcount, column C the couple's
      name.  None when int() of a headcount raises. */
  function ParentRow(lib: PyLibrary, row: Row): (r: Option<seq<Entry>>)
    requires |row| >= 3
    ensures r.Some? ==> |r.value| <= 1
    ensures r.Some? ==> forall j :: 0 <= j < |r.value| ==>
              !r.value[j].plusOneAllowed && r.value[j].preWeddingInvited && r.value[j].name != []
  {
    var headcount, name := row[1], row[2];
    if Truthy(name) && Strip(Str(lib, name)) != [] then
      if !Truthy(headcount) then Some([Entry(Strip(Str(lib, name)), false, true, 2)])
      else match IntOf(lib, headcount)
        case None => None
        case Some(n) => Some([Entry(Strip(Str(lib, name)), false, true, n)])
    else Some([])
  }

  predicate ParentRows(rows: seq<Row>) {
    forall i :: 0 <= i < |rows| ==> |rows[i]| >= 3
  }

  function ExtractParents(lib: PyLibrary, rows: seq<Row>): (r: Option<seq<Entry>>)
    requires ParentRows(rows)
    ensures r.Some? ==> forall j :: 0 <= j < |r.value| ==>
              !r.value[j].plusOneAllowed && r.value[j].preWeddingInvited && r.value[j].name != []
    decreases |rows|
  {
    if |rows| == 0 then Some([])
    else match ExtractParents(lib, rows[..|rows| - 1])
      case None => None
      case Some(es) =>
        match ParentRow(lib, rows[|rows| - 1])
        case None => None
        case Some(more) => Some(es + more)
  }

  /** A named parents row with no headcount counts two people; one whose
      headcount int() cannot read stops the conversion. */
  lemma ParentHeadcount(lib: PyLibrary, rows: seq<Row>, row: Row)
    requires ParentRows(rows) && |row| >= 3
    requires ExtractParents(lib, rows).Some?
    requires Truthy(row[2]) && Strip(Str(lib, row[2])) != []
    ensures !Truthy(row[1]) ==>
              ExtractParents(lib, rows + [row]) == Some(ExtractParents(lib, rows).value
                                                        + [Entry(Strip(Str(lib, row[2])), false, true, 2)])
    ensures Truthy(row[1]) && IntOf(lib, row[1]).None? ==> ExtractParents(lib, rows + [row]).None?
  {
    assert (rows + [row])[..|rows|] == rows;
  }

  // ---------------------------------------------------------------------
  // First occurrence of each lower-case name
  // ---------------------------------------------------------------------

  function Key(lib: PyLibrary, e: Entry): string {
    lib.lower(e.name)
  }

  /** The keys of the entries. */
  function Keys(lib: PyLibrary, es: seq<Entry>): set<string>
    decreases |es|
  {
    if |es| == 0 then {} else Keys(lib, es[..|es| - 1]) + {Key(lib, es[|es| - 1])}
  }

  lemma KeysAppend(lib: PyLibrary, es: seq<Entry>, e: Entry)
    ensures Keys(lib, es + [e]) == Keys(lib, es) + {Key(lib, e)}
  {
    assert (es + [e])[..|es|] == es;
  }

  lemma {:induction false} KeyInKeys(lib: PyLibrary, es: seq<Entry>, i: nat)
    requires i < |es|
    ensures Key(lib, es[i]) in Keys(lib, es)
    decreases |es|
  {
    if i < |es| - 1 {
      KeyInKeys(lib, es[..|es| - 1], i);
    }
  }

  lemma {:induction false} KeyWitness(lib: PyLibrary, es: seq<Entry>, k: string) returns (i: nat)
    requires k in Keys(lib, es)
    ensures i < |es| && Key(lib, es[i]) == k
    decreases |es|
  {
    if Key(lib, es[|es| - 1]) == k {
      i := |es| - 1;
    } else {
      i := KeyWitness(lib, es[..|es| - 1], k);
    }
  }

  predicate DistinctKeys(lib: PyLibrary, es: seq<Entry>) {
    forall i, j :: 0 <= i < j < |es| ==> Key(lib, es[i]) != Key(lib, es[j])
  }

  lemma FreshKeyKeepsDistinct(lib: PyLibrary, kept: seq<Entry>, e: Entry)
    requires DistinctKeys(lib, kept) && Key(lib, e) !in Keys(lib, kept)
    ensures DistinctKeys(lib, kept + [e])
  {
    forall i | 0 <= i < |kept|
      ensures Key(lib, kept[i]) != Key(lib, e)
    {
      KeyInKeys(lib, kept, i);
    }
  }

  /** The deduplication as the loop performs it: an entry is kept unless
      its key was seen among the entries kept before it. */
  function Dedup(lib: PyLibrary, es: seq<Entry>): (r: seq<Entry>)
    ensures DistinctKeys(lib, r)
    ensures Keys(lib, r) == Keys(lib, es)
    decreases |es|
  {
    if |es| == 0 then []
    else
      var init, e := es[..|es| - 1], es[|es| - 1];
      var kept := Dedup(lib, init);
      assert es == init + [e];
      KeysAppend(lib, init, e);
      if Key(lib, e) in Keys(lib, kept) then kept
      else
        KeysAppend(lib, kept, e);
        FreshKeyKeepsDistinct(lib, kept, e);
        kept + [e]
  }

  lemma DedupStep(lib: PyLibrary, es: seq<Entry>, e: Entry)
    ensures Dedup(lib, es + [e]) ==
              if Key(lib, e) in Keys(lib, Dedup(lib, es)) then Dedup(lib, es) else Dedup(lib, es) + [e]
  {
    assert (es + [e])[..|es|] == es;
  }

  /** The loop of the converter, with its `seen` set. */
  method DedupByName(lib: PyLibrary, es: seq<Entry>) returns (unique: seq<Entry>)
    ensures unique == Dedup(lib, es)
  {
    var seen: set<string> := {};
    unique := [];
    for i := 0 to |es|
      invariant unique == Dedup(lib, es[..i])
      invariant seen == Keys(lib, unique)
    {
      var key := lib.lower(es[i].name);
      assert es[..i + 1] == es[..i] + [es[i]];
      DedupStep(lib, es[..i], es[i]);
      if key !in seen {
        KeysAppend(lib, unique, es[i]);
        seen := seen + {key};
        unique := unique + [es[i]];
      }
    }
    assert es[..|es|] == es;
  }

  /** The `j`-th entry is the first with its key. */
  predicate IsFirst(lib: PyLibrary, es: seq<Entry>, j: nat)
    requires j < |es|
  {
    forall i :: 0 <= i < j ==> Key(lib, es[i]) != Key(lib, es[j])
  }

  /** Reference definition: the entries that are the first with their key,
      in their original order. */
  function FirstOccurrences(lib: PyLibrary, es: seq<Entry>): seq<Entry>
    decreases |es|
  {
    if |es| == 0 then []
    else FirstOccurrences(lib, es[..|es| - 1]) + (if IsFirst(lib, es, |es| - 1) then [es[|es| - 1]] else [])
  }

  /** Deduplication keeps exactly the first entry of every key, in order. */
  lemma {:induction false} DedupKeepsFirstOccurrences(lib: PyLibrary, es: seq<Entry>)
    ensures Dedup(lib, es) == FirstOccurrences(lib, es)
    decreases |es|
  {
    if |es| > 0 {
      var n := |es| - 1;
      var init, e := es[..n], es[n];
      assert es == init + [e];
      DedupKeepsFirstOccurrences(lib, init);
      DedupStep(lib, init, e);
      if Key(lib, e) in Keys(lib, init) {
        var i := KeyWitness(lib, init, Key(lib, e));
        assert es[i] == init[i];
        assert !IsFirst(lib, es, n);
      } else {
        forall i | 0 <= i < n
          ensures Key(lib, es[i]) != Key(lib, e)
        {
          assert es[i] == init[i];
          KeyInKeys(lib, init, i);
        }
        assert IsFirst(lib, es, n);
      }
    }
  }

  /** Every kept entry is one of the input entries. */
  lemma {:induction false} DedupKeepsInputs(lib: PyLibrary, es: seq<Entry>)
    ensures forall j :: 0 <= j < |Dedup(lib, es)| ==> Dedup(lib, es)[j] in es
    decreases |es|
  {
    if |es| > 0 {
      var init := es[..|es| - 1];
      DedupKeepsInputs(lib, init);
      assert forall x :: x in init ==> x in es;
    }
  }

  // ---------------------------------------------------------------------
  // Numbering and the metaphone keys
  // ---------------------------------------------------------------------

  datatype Codes = Codes(first: string, last: string)

  /** metaphone_parts: the codes of the first and the last word; the last
      code only when there are at least two words. */
  function MetaphoneParts(lib: PyLibrary, name: string): (c: Codes)
    ensures Split(name) == [] ==> c == Codes("", "")
    ensures |Split(name)| == 1 ==> c == Codes(lib.metaphone(Split(name)[0]), "")
    ensures |Split(name)| >= 2 ==>
              c == Codes(lib.metaphone(Split(name)[0]), lib.metaphone(Split(name)[|Split(name)| - 1]))
  {
    var parts := Split(Strip(name));
    SplitIgnoresStrip(name);
    Codes(if |parts| > 0 then lib.metaphone(parts[0]) else "",
          if |parts| > 1 then lib.metaphone(parts[|parts| - 1]) else "")
  }

  /** A one-word name gets no last-name code; a blank one no code at all. */
  lemma MetaphoneOfShortNames(lib: PyLibrary, word: string, blank: string)
    requires word != [] && NoSpace(word)
    requires AllSpace(blank)
    ensures MetaphoneParts(lib, word) == Codes(lib.metaphone(word), "")
    ensures MetaphoneParts(lib, blank) == Codes("", "")
  {
    SplitOfWord(word);
    SplitOfSpaces(blank);
  }

  /** A guest as written to guests.json. */
  datatype ListedGuest = ListedGuest(
    id: int,
    name: string,
    nameLower: string,
    firstMetaphone: string,
    lastMetaphone: string,
    plusOneAllowed: bool,
    preWeddingInvited: bool,
    headcount: int
  )

  function Listed(lib: PyLibrary, i: nat, e: Entry): ListedGuest {
    var codes := MetaphoneParts(lib, e.name);
    ListedGuest(i + 1, e.name, lib.lower(e.name), codes.first, codes.last,
                e.plusOneAllowed, e.preWeddingInvited, e.headcount)
  }

  /** `enumerate(unique_guests, start=1)`. */
  function Numbered(lib: PyLibrary, unique: seq<Entry>): seq<ListedGuest> {
    seq(|unique|, i requires 0 <= i < |unique| => Listed(lib, i, unique[i]))
  }

  /** The whole conversion: both two-column sheets, then the parents sheet,
      deduplicated and numbered.  None when the parents sheet stops it. */
  function Convert(lib: PyLibrary, corine: seq<Row>, isaac: seq<Row>, parents: seq<Row>): Option<seq<ListedGuest>>
    requires TwoColumnRows(corine) && TwoColumnRows(isaac) && ParentRows(parents)
  {
    match ExtractParents(lib, parents)
    case None => None
    case Some(ps) =>
      Some(Numbered(lib, Dedup(lib, ExtractTwoColumn(lib, corine) + ExtractTwoColumn(lib, isaac) + ps)))
  }

  predicate DistinctNames(out: seq<ListedGuest>) {
    forall i, j :: 0 <= i < j < |out| ==> out[i].nameLower != out[j].nameLower
  }

  /** Numbering a list without repeated keys. */
  lemma NumberedList(lib: PyLibrary, unique: seq<Entry>)
    requires DistinctKeys(lib, unique)
    ensures var out := Numbered(lib, unique);
            |out| == |unique|
            && (forall i :: 0 <= i < |out| ==>
                  out[i].id == i + 1 && out[i].name == unique[i].name
                  && out[i].nameLower == lib.lower(out[i].name)
                  && Codes(out[i].firstMetaphone, out[i].lastMetaphone) == MetaphoneParts(lib, out[i].name)
                  && out[i].plusOneAllowed == unique[i].plusOneAllowed
                  && out[i].preWeddingInvited == unique[i].preWeddingInvited
                  && out[i].headcount == unique[i].headcount)
            && DistinctNames(out)
  {
    var out := Numbered(lib, unique);
    assert forall i :: 0 <= i < |out| ==> out[i] == Listed(lib, i, unique[i]);
  }

  /** What the lookup endpoint relies on: ids 1..n in order, the stored
      lower-case name is the lower-case of the name, no two guests share
      it, and the metaphone keys are those of the name. */
  lemma ConvertedList(lib: PyLibrary, corine: seq<Row>, isaac: seq<Row>, parents: seq<Row>)
    requires TwoColumnRows(corine) && TwoColumnRows(isaac) && ParentRows(parents)
    requires Convert(lib, corine, isaac, parents).Some?
    ensures var out := Convert(lib, corine, isaac, parents).value;
            (forall i :: 0 <= i < |out| ==>
               out[i].id == i + 1 && out[i].nameLower == lib.lower(out[i].name)
               && Codes(out[i].firstMetaphone, out[i].lastMetaphone) == MetaphoneParts(lib, out[i].name))
            && DistinctNames(out)
  {
    var ps := ExtractParents(lib, parents).value;
    var unique := Dedup(lib, ExtractTwoColumn(lib, corine) + ExtractTwoColumn(lib, isaac) + ps);
    assert Convert(lib, corine, isaac, parents).value == Numbered(lib, unique);
    NumberedList(lib, unique);
  }

  // ---------------------------------------------------------------------
  // The list as the PHP endpoints read it
  // ---------------------------------------------------------------------

  function CodePoints(s: string): (cs: seq<int>)
    ensures |cs| == |s|
    ensures forall i :: 0 <= i < |cs| ==> Php.IsScalarValue(cs[i])
  {
    seq(|s|, i requires 0 <= i < |s| => s[i] as int)
  }

  /** The UTF-8 bytes json.dump writes and json_decode hands to PHP. */
  function Utf8(s: string): Php.Bytes {
    Php.EncodeUtf8(CodePoints(s))
  }

  lemma Utf8Injective(a: string, b: string)
    requires Utf8(a) == Utf8(b)
    ensures a == b
  {
    var ca, cb := CodePoints(a), CodePoints(b);
    Php.DecodeEncode(ca);
    Php.DecodeEncode(cb);
    assert ca == cb;
    forall i | 0 <= i < |a|
      ensures a[i] == b[i]
    {
      assert ca[i] == a[i] as int && cb[i] == b[i] as int;
    }
  }

  function ToPhp(g: ListedGuest): Guests.Guest {
    Guests.Guest(g.id, Utf8(g.name), Utf8(g.nameLower), Utf8(g.firstMetaphone), Utf8(g.lastMetaphone),
                 g.plusOneAllowed, g.preWeddingInvited, g.headcount)
  }

  function AsPhp(out: seq<ListedGuest>): seq<Guests.Guest> {
    seq(|out|, i requires 0 <= i < |out| => ToPhp(out[i]))
  }

  /** A list numbered 1..n without repeated lower-case names serves both
      lookups: each guest is found by its id and by its own lower-case name. */
  lemma {:induction false} ListServesLookup(out: seq<ListedGuest>, k: nat)
    requires forall i :: 0 <= i < |out| ==> out[i].id == i + 1
    requires DistinctNames(out)
    requires k < |out|
    ensures Guests.FindById(AsPhp(out), k + 1) == Some(AsPhp(out)[k])
    ensures Guests.FindByNameLower(AsPhp(out), AsPhp(out)[k].nameLower) == Some(AsPhp(out)[k])
  {
    var php := AsPhp(out);
    assert Guests.DistinctNameLower(php) by {
      forall i, j | 0 <= i < j < |php|
        ensures php[i].nameLower != php[j].nameLower
      {
        if php[i].nameLower == php[j].nameLower {
          Utf8Injective(out[i].nameLower, out[j].nameLower);
        }
      }
    }
    Guests.ExactPassFindsUniqueGuest(php, k);
    Guests.FirstIsEarliest(php, (g: Guests.Guest) => g.id == k + 1, k);
  }

  /** Read by the endpoints, every converted guest is found by its own id
      and, in the exact pass, by its own lower-case name. */
  lemma ConvertedListServesLookup(lib: PyLibrary, corine: seq<Row>, isaac: seq<Row>, parents: seq<Row>, k: nat)
    requires TwoColumnRows(corine) && TwoColumnRows(isaac) && ParentRows(parents)
    requires Convert(lib, corine, isaac, parents).Some?
    requires k < |Convert(lib, corine, isaac, parents).value|
    ensures var php := AsPhp(Convert(lib, corine, isaac, parents).value);
            Guests.FindById(php, k + 1) == Some(php[k])
            && Guests.FindByNameLower(php, php[k].nameLower) == Some(php[k])
  {
    ConvertedList(lib, corine, isaac, parents);
    ListServesLookup(Convert(lib, corine, isaac, parents).value, k);
  }
}

=== FILE: guests.dfy ===
/**
 * The guest list as the endpoints read it from guests.json: immutable
 * records, looked up by id or by precomputed lower-case name, always taking
 * the first record that fits (the `foreach ... exit` loops of both endpoints).
 */
module Guests {
  import opened Options
  import opened Php

  datatype Guest = Guest(
    id: int,
    name: Bytes,
    nameLower: Bytes,
    firstMetaphone: Bytes,
    lastMetaphone: Bytes,
    plusOneAllowed: bool,
    preWeddingInvited: bool,
    headcount: int
  )

  /** The first element of `s` satisfying `p`, if any. */
  function First<T>(s: seq<T>, p: T -> bool): (r: Option<T>)
    ensures r.None? <==> forall i :: 0 <= i < |s| ==> !p(s[i])
    ensures r.Some? ==> exists i :: 0 <= i < |s| && s[i] == r.value && p(s[i])
                                    && forall j :: 0 <= j < i ==> !p(s[j])
    decreases |s|
  {
    if |s| == 0 then None
    else if p(s[0]) then Some(s[0])
    else
      var r := First(s[1..], p);
      assert forall i :: 1 <= i < |s| ==> s[i] == s[1..][i - 1];
      r
  }

  /** When the `k`-th element is the first to satisfy `p`, it is the answer. */
  lemma FirstIsEarliest<T>(s: seq<T>, p: T -> bool, k: nat)
    requires k < |s| && p(s[k])
    requires forall j :: 0 <= j < k ==> !p(s[j])
    ensures First(s, p) == Some(s[k])
  {
    var r := First(s, p);
    var i :| 0 <= i < |s| && s[i] == r.value && p(s[i]) && forall j :: 0 <= j < i ==> !p(s[j]);
    assert i == k;
  }

  /** `$g['id'] === $guestId` over the list. */
  function FindById(guests: seq<Guest>, id: int): Option<Guest> {
    First(guests, (g: Guest) => g.id == id)
  }

  /** `$g['name_lower'] === $nameLower` over the list: the exact pass. */
  function FindByNameLower(guests: seq<Guest>, key: Bytes): Option<Guest> {
    First(guests, (g: Guest) => g.nameLower == key)
  }

  predicate HasId(guests: seq<Guest>, id: int) {
    exists i :: 0 <= i < |guests| && guests[i].id == id
  }

  /** What the list converter guarantees: no two guests share a lower-case name. */
  predicate DistinctNameLower(guests: seq<Guest>) {
    forall i, j :: 0 <= i < j < |guests| ==> guests[i].nameLower != guests[j].nameLower
  }

  /** The by-id search finds a guest exactly when some guest has that id,
      and what it finds has that id. */
  lemma FindByIdFinds(guests: seq<Guest>, id: int)
    ensures FindById(guests, id).Some? <==> HasId(guests, id)
    ensures FindById(guests, id).Some? ==>
              FindById(guests, id).value.id == id && FindById(guests, id).value in guests
  {
    var p := (g: Guest) => g.id == id;
    if FindById(guests, id).Some? {
      var i :| 0 <= i < |guests| && guests[i] == First(guests, p).value && p(guests[i]);
    }
  }

  /** In a list without repeated lower-case names the exact pass returns the
      one guest carrying the key. */
  lemma ExactPassFindsUniqueGuest(guests: seq<Guest>, k: nat)
    requires DistinctNameLower(guests)
    requires k < |guests|
    ensures FindByNameLower(guests, guests[k].nameLower) == Some(guests[k])
  {
    var key := guests[k].nameLower;
    FirstIsEarliest(guests, (g: Guest) => g.nameLower == key, k);
  }

  /** When the exact pass finds nothing, no guest's lower-case name is the key. */
  lemma ExactPassMissMeansNoEqualName(guests: seq<Guest>, key: Bytes, g: Guest)
    requires FindByNameLower(guests, key).None?
    requires g in guests
    ensures g.nameLower != key
  {
    var p := (h: Guest) => h.nameLower == key;
    var i :| 0 <= i < |guests| && guests[i] == g;
    assert !p(guests[i]);
  }
}

=== FILE: levenshtein.dfy ===
/**
 * Edit distance with unit costs, as PHP's levenshtein() computes it over
 * bytes: a recursive definition on prefixes, and the two-row dynamic
 * programme of PHP's implementation proved to compute it.
 */
module Levenshtein {

  function Min3(a: nat, b: nat, c: nat): (m: nat)
    ensures m <= a && m <= b && m <= c
    ensures m == a || m == b || m == c
  {
    if a <= b && a <= c then a else if b <= c then b else c
  }

  /** The least number of single-element insertions, deletions and
      substitutions turning `a` into `b`. */
  function Distance<T(==)>(a: seq<T>, b: seq<T>): nat
    decreases |a| + |b|
  {
    if |a| == 0 then |b|
    else if |b| == 0 then |a|
    else
      var i, j := |a| - 1, |b| - 1;
      Min3(Distance(a[..i], b) + 1,
           Distance(a, b[..j]) + 1,
           Distance(a[..i], b[..j]) + (if a[i] == b[j] then 0 else 1))
  }

  /** Identical sequences are at distance zero. */
  lemma {:induction false} DistanceToSelf<T>(a: seq<T>)
    ensures Distance(a, a) == 0
    decreases |a|
  {
    if |a| > 0 {
      DistanceToSelf(a[..|a| - 1]);
    }
  }

  /** Distance zero means the sequences are equal. */
  lemma {:induction false} DistanceZeroMeansEqual<T>(a: seq<T>, b: seq<T>)
    requires Distance(a, b) == 0
    ensures a == b
    decreases |a| + |b|
  {
    if |a| > 0 && |b| > 0 {
      var i, j := |a| - 1, |b| - 1;
      DistanceZeroMeansEqual(a[..i], b[..j]);
      assert a == a[..i] + [a[i]] && b == b[..j] + [b[j]];
    }
  }

  lemma DistanceZeroIffEqual<T>(a: seq<T>, b: seq<T>)
    ensures Distance(a, b) == 0 <==> a == b
  {
    if a == b {
      DistanceToSelf(a);
    }
    if Distance(a, b) == 0 {
      DistanceZeroMeansEqual(a, b);
    }
  }

  /** The distance is at least the difference of the lengths... */
  lemma {:induction false} DistanceAtLeastLengthGap<T>(a: seq<T>, b: seq<T>)
    ensures Distance(a, b) >= |a| - |b| && Distance(a, b) >= |b| - |a|
    decreases |a| + |b|
  {
    if |a| > 0 && |b| > 0 {
      var i, j := |a| - 1, |b| - 1;
      DistanceAtLeastLengthGap(a[..i], b);
      DistanceAtLeastLengthGap(a, b[..j]);
      DistanceAtLeastLengthGap(a[..i], b[..j]);
    }
  }

  /** ...and at most the length of the longer one. */
  lemma {:induction false} DistanceAtMostLonger<T>(a: seq<T>, b: seq<T>)
    ensures Distance(a, b) <= if |a| >= |b| then |a| else |b|
    decreases |a| + |b|
  {
    if |a| > 0 && |b| > 0 {
      var i, j := |a| - 1, |b| - 1;
      DistanceAtMostLonger(a[..i], b[..j]);
    }
  }

  /** Turning `a` into `b` costs as much as turning `b` into `a`. */
  lemma {:induction false} DistanceSymmetric<T>(a: seq<T>, b: seq<T>)
    ensures Distance(a, b) == Distance(b, a)
    decreases |a| + |b|
  {
    if |a| > 0 && |b| > 0 {
      var i, j := |a| - 1, |b| - 1;
      DistanceSymmetric(a[..i], b);
      DistanceSymmetric(a, b[..j]);
      DistanceSymmetric(a[..i], b[..j]);
    }
  }

  /** One step of the recurrence, stated on prefixes of two fixed sequences. */
  lemma PrefixStep<T>(a: seq<T>, b: seq<T>, i: nat, j: nat)
    requires i < |a| && j < |b|
    ensures Distance(a[..i + 1], b[..j + 1])
         == Min3(Distance(a[..i], b[..j + 1]) + 1,
                 Distance(a[..i + 1], b[..j]) + 1,
                 Distance(a[..i], b[..j]) + (if a[i] == b[j] then 0 else 1))
  {
    assert a[..i + 1][..i] == a[..i];
    assert b[..j + 1][..j] == b[..j];
  }

  lemma ExtendRow<T>(x: seq<T>, b: seq<T>, cur: seq<nat>, j: nat, c0: nat)
    requires j < |b| && |cur| == j + 1
    requires forall k :: 0 <= k <= j ==> cur[k] == Distance(x, b[..k])
    requires c0 == Distance(x, b[..j + 1])
    ensures forall k :: 0 <= k <= j + 1 ==> (cur + [c0])[k] == Distance(x, b[..k])
  {
  }

  /** One cell of the table from its diagonal, upper and left neighbours. */
  method Cell(diag: nat, up: nat, left: nat, same: bool) returns (c0: nat)
    ensures c0 == Min3(up + 1, left + 1, diag + (if same then 0 else 1))
  {
    c0 := diag + (if same then 0 else 1);   // substitute
    var c1 := up + 1;                       // delete
    if c1 < c0 { c0 := c1; }
    var c2 := left + 1;                     // insert
    if c2 < c0 { c0 := c2; }
  }

  /** Row i+1 of the table from row i: the inner loop of PHP's levenshtein(). */
  method NextRow<T(==)>(a: seq<T>, b: seq<T>, i: nat, prev: seq<nat>) returns (cur: seq<nat>)
    requires i < |a|
    requires |prev| == |b| + 1
    requires forall k :: 0 <= k <= |b| ==> prev[k] == Distance(a[..i], b[..k])
    ensures |cur| == |b| + 1
    ensures forall k :: 0 <= k <= |b| ==> cur[k] == Distance(a[..i + 1], b[..k])
  {
    cur := [i + 1];
    assert Distance(a[..i + 1], b[..0]) == i + 1;
    var j := 0;
    while j < |b|
      invariant 0 <= j <= |b|
      invariant |cur| == j + 1
      invariant forall k :: 0 <= k <= j ==> cur[k] == Distance(a[..i + 1], b[..k])
    {
      var c0 := Cell(prev[j], prev[j + 1], cur[j], a[i] == b[j]);
      PrefixStep(a, b, i, j);
      ExtendRow(a[..i + 1], b, cur, j, c0);
      cur := cur + [c0];
      j := j + 1;
    }
  }

  /** PHP's levenshtein(): it answers at once when either side is empty and
      otherwise keeps two rows of the table, the previous one (distances from
      a[..i]) and the one being filled (from a[..i+1]). */
  method Compute<T(==)>(a: seq<T>, b: seq<T>) returns (d: nat)
    ensures d == Distance(a, b)
  {
    if |a| == 0 {
      return |b|;
    }
    if |b| == 0 {
      return |a|;
    }
    var prev: seq<nat> := seq(|b| + 1, k => k);
    var i := 0;
    while i < |a|
      invariant 0 <= i <= |a|
      invariant |prev| == |b| + 1
      invariant forall k :: 0 <= k <= |b| ==> prev[k] == Distance(a[..i], b[..k])
    {
      prev := NextRow(a, b, i, prev);
      i := i + 1;
    }
    assert a[..|a|] == a && b[..|b|] == b;
    d := prev[|b|];
  }
}

=== FILE: matcher.dfy ===
/**
 * The guest search of api/guest-lookup.php: the direct lookup by id, the
 * validation of a typed name, the exact pass over precomputed lower-case
 * names, the additive fuzzy score, and the resolution of the top five
 * candidates into one of the endpoint's answers.
 */
module Matcher {
  import opened Options
  import opened Php
  import opened Levenshtein
  import opened Guests
  import opened Ranking

  const MinNameLength := 2
  const MaxNameLength := 100
  const Threshold := 50
  const MinPrefixLength := 3

  /** The endpoint's answers to a lookup. */
  datatype Reply =
    | GuestFound(guest: Guest)                       // {"guest": {...}}
    | AlreadySubmitted(guestName: Bytes)             // {"already_submitted": true, "guest_name": ...}
    | CandidateList(candidates: seq<CandidateView>)  // {"candidates": [...]}
    | NoGuest                                        // {"guest": null}
    | InvalidName                                    // 400 "Please enter a valid name."

  /** What the "did you mean" list reveals about a candidate. */
  datatype CandidateView = CandidateView(id: int, name: Bytes, alreadySubmitted: bool)

  /** The request body: `guest_id` after intval() when present, and `name`
      (missing counts as ""). */
  datatype LookupInput = LookupInput(guestId: Option<int>, name: Bytes)

  /** The normalised query: lower-cased, split into tokens, and the phonetic
      codes of its first and (when there are two or more tokens) last token. */
  datatype Query = Query(
    lower: Bytes,
    parts: seq<Bytes>,
    first: Bytes,
    last: Bytes,
    firstCode: Bytes,
    lastCode: Bytes
  )

  function QueryOf(lib: Library, name: Bytes): (q: Query)
    ensures |q.parts| >= 1
    ensures q.first == q.parts[0] && q.last == q.parts[|q.parts| - 1]
    ensures |q.parts| == 1 ==> q.lastCode == []
  {
    var lower := lib.lower(name);
    var parts := Split(lower);
    var first, last := parts[0], parts[|parts| - 1];
    Query(lower, parts, first, last, lib.metaphone(first),
          if |parts| > 1 then lib.metaphone(last) else [])
  }

  /** Answer for a single guest: the conflict notice if it already answered. */
  function Answer(g: Guest, submitted: set<int>): Reply {
    if g.id in submitted then AlreadySubmitted(g.name) else GuestFound(g)
  }

  // ---------------------------------------------------------------------
  // The score of one guest
  // ---------------------------------------------------------------------

  /** +40 when either lower-case name contains the other. */
  function SubstringBonus(query: Bytes, name: Bytes): nat {
    if Contains(name, query) || Contains(query, name) then 40 else 0
  }

  /** The phonetic bonus as written: `if ($code && $gCode === $code)`.
      PHP's truthiness makes the code "0" (metaphone's code for the TH sound)
      as false as the empty code. */
  function CodeBonusAsWritten(code: Bytes, guestCode: Bytes): (r: nat)
    ensures code != [Zero] ==> r == CodeBonus(code, guestCode)
    ensures code == [Zero] ==> r == 0
  {
    if Truthy(code) && guestCode == code then 30 else 0
  }

  /** The phonetic bonus as intended: equal codes earn 30 unless the query's
      code is empty. */
  function CodeBonus(code: Bytes, guestCode: Bytes): (r: nat)
    ensures r == 30 <==> code != [] && guestCode == code
    ensures r != 30 ==> r == 0
  {
    if code != [] && guestCode == code then 30 else 0
  }

  /** (3 - d) * 10 for a token edit distance d of at most 2. */
  function TokenEditBonus(d: nat): nat {
    if d <= 2 then (3 - d) * 10 else 0
  }

  /** (4 - d) * 5 for a full-name edit distance d of at most 3. */
  function FullEditBonus(d: nat): nat {
    if d <= 3 then (4 - d) * 5 else 0
  }

  /** A query token of three bytes or more that starts a guest token. */
  predicate IsWordPrefix(sp: Bytes, gp: Bytes) {
    |sp| >= MinPrefixLength && sp <= gp
  }

  /** How many guest tokens `sp` starts. */
  function WordPrefixCount(sp: Bytes, gParts: seq<Bytes>): nat
    decreases |gParts|
  {
    if |gParts| == 0 then 0
    else WordPrefixCount(sp, gParts[..|gParts| - 1])
         + (if IsWordPrefix(sp, gParts[|gParts| - 1]) then 1 else 0)
  }

  /** How many (query token, guest token) pairs have the query token starting
      the guest token. */
  function PrefixPairCount(qParts: seq<Bytes>, gParts: seq<Bytes>): nat
    decreases |qParts|
  {
    if |qParts| == 0 then 0
    else PrefixPairCount(qParts[..|qParts| - 1], gParts)
         + WordPrefixCount(qParts[|qParts| - 1], gParts)
  }

  /** The seven signals of the score, one field each. */
  datatype Signals = Signals(
    substring: nat,
    firstCode: nat,
    lastCode: nat,
    firstEdit: nat,
    lastEdit: nat,
    fullEdit: nat,
    prefix: nat
  ) {
    function Total(): nat {
      substring + firstCode + lastCode + firstEdit + lastEdit + fullEdit + prefix
    }
  }

  function GuestParts(g: Guest): (parts: seq<Bytes>)
    ensures |parts| >= 1
  {
    Split(g.nameLower)
  }

  function SignalsOf(lib: Library, q: Query, g: Guest): Signals {
    var gParts := GuestParts(g);
    var gFirst, gLast := gParts[0], gParts[|gParts| - 1];
    Signals(
      SubstringBonus(q.lower, g.nameLower),
      CodeBonus(q.firstCode, lib.metaphone(gFirst)),
      CodeBonus(q.lastCode, lib.metaphone(gLast)),
      TokenEditBonus(Distance(q.first, gFirst)),
      if |q.parts| > 1 then TokenEditBonus(Distance(q.last, gLast)) else 0,
      FullEditBonus(Distance(q.lower, g.nameLower)),
      15 * PrefixPairCount(q.parts, gParts))
  }

  function Score(lib: Library, q: Query, g: Guest): nat {
    SignalsOf(lib, q, g).Total()
  }

  /** The signals with the phonetic guard as written (see `CodeBonusAsWritten`). */
  function SignalsAsWrittenOf(lib: Library, q: Query, g: Guest): Signals {
    var gParts := GuestParts(g);
    SignalsOf(lib, q, g).(
      firstCode := CodeBonusAsWritten(q.firstCode, lib.metaphone(gParts[0])),
      lastCode := CodeBonusAsWritten(q.lastCode, lib.metaphone(gParts[|gParts| - 1])))
  }

  /** The score the code computes. */
  function ScoreAsWritten(lib: Library, q: Query, g: Guest): nat {
    SignalsAsWrittenOf(lib, q, g).Total()
  }

  // ---------------------------------------------------------------------
  // Scoring every guest, imperatively, as the endpoint does
  // ---------------------------------------------------------------------

  /** The nested `foreach` over query and guest tokens, with strpos. */
  method CountPrefixPairs(qParts: seq<Bytes>, gParts: seq<Bytes>) returns (n: nat)
    ensures n == PrefixPairCount(qParts, gParts)
  {
    n := 0;
    var i := 0;
    while i < |qParts|
      invariant 0 <= i <= |qParts|
      invariant n == PrefixPairCount(qParts[..i], gParts)
    {
      var sp := qParts[i];
      var j := 0;
      while j < |gParts|
        invariant 0 <= j <= |gParts|
        invariant n == PrefixPairCount(qParts[..i], gParts) + WordPrefixCount(sp, gParts[..j])
      {
        StrposZeroIffPrefix(gParts[j], sp);
        if |sp| >= MinPrefixLength && Strpos(gParts[j], sp) == Some(0) {
          n := n + 1;
        }
        assert gParts[..j + 1][..j] == gParts[..j];
        j := j + 1;
      }
      assert gParts[..j] == gParts;
      assert qParts[..i + 1][..i] == qParts[..i];
      i := i + 1;
    }
    assert qParts[..i] == qParts;
  }

  /** +40 when either name contains the other (two `strpos(...) !== false` tests). */
  method SubstringMatch(query: Bytes, name: Bytes) returns (bonus: nat)
    ensures bonus == SubstringBonus(query, name)
  {
    bonus := 0;
    if Contains(name, query) || Contains(query, name) {
      bonus := 40;
    }
  }

  /** The phonetic bonus: `if ($code && $gCode === $code) $score += 30`,
      with the test as intended (see `CodeBonus`). */
  method PhoneticBonus(code: Bytes, guestCode: Bytes) returns (bonus: nat)
    ensures bonus == CodeBonus(code, guestCode)
  {
    bonus := 0;
    if code != [] && guestCode == code {
      bonus := 30;
    }
  }

  /** The edit-distance bonus for a pair of tokens. */
  method TokenEdit(a: Bytes, b: Bytes) returns (bonus: nat)
    ensures bonus == TokenEditBonus(Distance(a, b))
  {
    bonus := 0;
    var lev := Compute(a, b);
    if lev <= 2 {
      bonus := (3 - lev) * 10;
    }
  }

  /** The edit-distance bonus for the whole names. */
  method FullEdit(a: Bytes, b: Bytes) returns (bonus: nat)
    ensures bonus == FullEditBonus(Distance(a, b))
  {
    bonus := 0;
    var lev := Compute(a, b);
    if lev <= 3 {
      bonus := (4 - lev) * 5;
    }
  }

  /** One pass of the scoring loop body for guest `g`. */
  method ScoreGuest(lib: Library, q: Query, g: Guest) returns (score: nat)
    requires |q.parts| >= 1 && q.first == q.parts[0] && q.last == q.parts[|q.parts| - 1]
    ensures score == Score(lib, q, g)
  {
    score := SignalScore(lib, q, g);
    var pairs := CountPrefixPairs(q.parts, Split(g.nameLower));
    score := score + 15 * pairs;
  }

  /** The loop body up to the prefix signal: every signal but the last. */
  method SignalScore(lib: Library, q: Query, g: Guest) returns (score: nat)
    ensures var s := SignalsOf(lib, q, g);
            score == s.substring + s.firstCode + s.lastCode + s.firstEdit + s.lastEdit + s.fullEdit
  {
    var gLower := g.nameLower;
    var gParts := Split(gLower);
    assert gParts == GuestParts(g);
    var gFirst, gLast := gParts[0], gParts[|gParts| - 1];
    ghost var s := SignalsOf(lib, q, g);
    var substring := SubstringMatch(q.lower, gLower);
    var firstCode := PhoneticBonus(q.firstCode, lib.metaphone(gFirst));
    var lastCode := PhoneticBonus(q.lastCode, lib.metaphone(gLast));
    var firstEdit := TokenEdit(q.first, gFirst);
    var lastEdit := 0;
    if |q.parts| > 1 {
      lastEdit := TokenEdit(q.last, gLast);
    }
    var fullEdit := FullEdit(q.lower, gLower);
    assert s == Signals(substring, firstCode, lastCode, firstEdit, lastEdit, fullEdit, s.prefix);
    score := substring + firstCode + lastCode + firstEdit + lastEdit + fullEdit;
  }

  function CandidateOf(lib: Library, q: Query, submitted: set<int>, g: Guest): Candidate {
    Candidate(g, Score(lib, q, g), g.id in submitted)
  }

  /** The guests scoring at least the threshold, in list order. */
  function Qualifying(lib: Library, q: Query, guests: seq<Guest>, submitted: set<int>): (cs: seq<Candidate>)
    ensures forall c :: c in cs ==> c.guest in guests && c == CandidateOf(lib, q, submitted, c.guest)
                                    && c.score >= Threshold
    ensures forall g :: g in guests ==>
              (CandidateOf(lib, q, submitted, g) in cs <==> Score(lib, q, g) >= Threshold)
    decreases |guests|
  {
    if |guests| == 0 then []
    else
      var init, g := guests[..|guests| - 1], guests[|guests| - 1];
      var prior := Qualifying(lib, q, init, submitted);
      assert guests == init + [g];
      if Score(lib, q, g) >= Threshold then prior + [CandidateOf(lib, q, submitted, g)]
      else prior
  }

  /** The scoring loop of the endpoint, collecting the qualifying candidates. */
  method CollectCandidates(lib: Library, q: Query, guests: seq<Guest>, submitted: set<int>)
    returns (cs: seq<Candidate>)
    requires |q.parts| >= 1 && q.first == q.parts[0] && q.last == q.parts[|q.parts| - 1]
    ensures cs == Qualifying(lib, q, guests, submitted)
  {
    cs := [];
    var i := 0;
    while i < |guests|
      invariant 0 <= i <= |guests|
      invariant cs == Qualifying(lib, q, guests[..i], submitted)
    {
      var g := guests[i];
      var score := ScoreGuest(lib, q, g);
      assert guests[..i + 1][..i] == guests[..i];
      if score >= Threshold {
        cs := cs + [Candidate(g, score, g.id in submitted)];
      }
      i := i + 1;
    }
    assert guests[..i] == guests;
  }

  // ---------------------------------------------------------------------
  // From candidates to an answer
  // ---------------------------------------------------------------------

  function ViewOf(c: Candidate): CandidateView {
    CandidateView(c.guest.id, c.guest.name, c.alreadySubmitted)
  }

  /** No candidate: not found; one: that guest; more: the list of views. */
  function Resolve(top: seq<Candidate>): Reply {
    if |top| == 0 then NoGuest
    else if |top| == 1 then
      (if top[0].alreadySubmitted then AlreadySubmitted(top[0].guest.name) else GuestFound(top[0].guest))
    else CandidateList(seq(|top|, i requires 0 <= i < |top| => ViewOf(top[i])))
  }

  /** The exact pass, then the scoring pass when the exact pass finds nothing. */
  function Match(lib: Library, q: Query, guests: seq<Guest>, submitted: set<int>): Reply {
    match FindByNameLower(guests, q.lower)
    case Some(g) => Answer(g, submitted)
    case None => Resolve(Top(Qualifying(lib, q, guests, submitted)))
  }

  /** The trimmed name fails the length test (`empty()` or outside 2..100 bytes). */
  predicate BadLength(name: Bytes) {
    !Truthy(name) || |name| < MinNameLength || |name| > MaxNameLength
  }

  /** Name search: trim, length test, strip_tags, pattern test, then match. */
  function SearchByName(lib: Library, raw: Bytes, guests: seq<Guest>, submitted: set<int>): Reply {
    var name := Trim(raw);
    if BadLength(name) then InvalidName
    else
      var clean := lib.stripTags(name);
      if !MatchesNamePattern(lib, clean) then InvalidName
      else Match(lib, QueryOf(lib, clean), guests, submitted)
  }

  /** Direct lookup by id, used when the client picks a candidate. */
  function LookupById(id: int, guests: seq<Guest>, submitted: set<int>): Reply {
    match FindById(guests, id)
    case Some(g) => Answer(g, submitted)
    case None => NoGuest
  }

  /** The request handling after authorisation: a non-zero `guest_id` wins. */
  function Lookup(lib: Library, input: LookupInput, guests: seq<Guest>, submitted: set<int>): Reply {
    if input.guestId.Some? && input.guestId.value != 0 then
      LookupById(input.guestId.value, guests, submitted)
    else SearchByName(lib, input.name, guests, submitted)
  }
}

=== FILE: options.dfy ===
/** The optional value used wherever PHP yields `null` / `false` or Python raises. */
module Options {

  datatype Option<+T> = None | Some(value: T) {

    /** The wrapped value, or `default` when there is none (PHP's `??`). */
    function GetOr(default: T): T {
      match this
      case Some(v) => v
      case None => default
    }
  }
}

=== FILE: php.dfy ===
/**
 * The PHP runtime behaviour the two endpoints rely on, over byte strings.
 *
 * PHP strings are byte strings: `strlen`, `trim`, `strpos`, `explode`,
 * `levenshtein` and `preg_split` without the `/u` modifier all count and
 * compare bytes.  Library functions whose definitions live outside the
 * repository (`mb_strtolower`, `metaphone`, `strip_tags`, the Unicode letter
 * class) are fields of `Library` and stay uninterpreted.
 */
module Php {
  import opened Options
  import opened Pieces

  type byte = b: int | 0 <= b < 256
  type Bytes = seq<byte>

  const Zero: byte := 0x30   // '0'
  const Dot: byte := 0x2E    // '.'

  /** Extension functions the endpoints call and the model does not define. */
  datatype Library = Library(
    lower: Bytes -> Bytes,          // mb_strtolower
    metaphone: Bytes -> Bytes,      // metaphone
    stripTags: Bytes -> Bytes,      // strip_tags
    isNonAsciiLetter: int -> bool   // \p{L} for code points above U+007F
  )

  // ---------------------------------------------------------------------
  // Truthiness
  // ---------------------------------------------------------------------

  /** Boolean conversion of a string (and the negation of `empty()`):
      false exactly for "" and "0". */
  predicate Truthy(s: Bytes) {
    s != [] && s != [Zero]
  }

  // ---------------------------------------------------------------------
  // trim() with its default character list
  // ---------------------------------------------------------------------

  /** " ", "\t", "\n", "\r", "\0" and "\x0B"; form feed is not among them. */
  predicate IsTrimByte(b: byte) {
    b == 0x20 || b == 0x09 || b == 0x0A || b == 0x0D || b == 0x00 || b == 0x0B
  }

  predicate AllTrim(s: Bytes) {
    forall k :: 0 <= k < |s| ==> IsTrimByte(s[k])
  }

  /** The first index at or after `i` that does not hold a trim byte. */
  function TrimStart(s: Bytes, i: nat): (n: nat)
    requires i <= |s|
    ensures i <= n <= |s|
    ensures forall k :: i <= k < n ==> IsTrimByte(s[k])
    ensures n < |s| ==> !IsTrimByte(s[n])
    decreases |s| - i
  {
    if i < |s| && IsTrimByte(s[i]) then TrimStart(s, i + 1) else i
  }

  /** Scanning back from `j`, no further than `lo`: the end of the last
      byte that is not a trim byte. */
  function TrimEnd(s: Bytes, lo: nat, j: nat): (n: nat)
    requires lo <= j <= |s|
    ensures lo <= n <= j
    ensures forall k :: n <= k < j ==> IsTrimByte(s[k])
    ensures n > lo ==> !IsTrimByte(s[n - 1])
    decreases j
  {
    if j > lo && IsTrimByte(s[j - 1]) then TrimEnd(s, lo, j - 1) else j
  }

  /** PHP trim(): what is left after removing the trim bytes at both ends
      (`TrimSlice` says where it sits in the input). */
  function Trim(s: Bytes): (r: Bytes)
    ensures |r| <= |s|
    ensures r == [] || (!IsTrimByte(r[0]) && !IsTrimByte(r[|r| - 1]))
  {
    var i := TrimStart(s, 0);
    s[i..TrimEnd(s, i, |s|)]
  }

  /** Trim(s) is the slice of `s` starting at `i`, and everything around it
      is trim bytes. */
  lemma TrimSlice(s: Bytes) returns (i: nat)
    ensures i + |Trim(s)| <= |s| && Trim(s) == s[i..i + |Trim(s)|]
    ensures AllTrim(s[..i]) && AllTrim(s[i + |Trim(s)|..])
  {
    i := TrimStart(s, 0);
    var j := TrimEnd(s, i, |s|);
    assert forall k :: 0 <= k < i ==> s[..i][k] == s[k];
    assert forall k :: 0 <= k < |s| - j ==> s[j..][k] == s[j + k];
  }

  lemma TrimIdempotent(s: Bytes)
    ensures Trim(Trim(s)) == Trim(s)
  {
    var r := Trim(s);
    assert TrimStart(r, 0) == 0;
    assert TrimEnd(r, 0, |r|) == |r|;
    assert r[0..|r|] == r;
  }

  // ---------------------------------------------------------------------
  // preg_split('/\s+/', s): splitting on runs of ASCII white space
  // ---------------------------------------------------------------------

  /** PCRE's \s outside UTF mode: tab, LF, VT, FF, CR and space. */
  predicate IsSpace(b: byte) {
    b == 0x20 || 0x09 <= b <= 0x0D
  }

  predicate NoSpace(s: Bytes) {
    forall k :: 0 <= k < |s| ==> !IsSpace(s[k])
  }

  function WordLength(s: Bytes): (n: nat)
    ensures n <= |s|
    ensures NoSpace(s[..n])
    ensures n < |s| ==> IsSpace(s[n])
    decreases |s|
  {
    if |s| > 0 && !IsSpace(s[0]) then
      var n := 1 + WordLength(s[1..]);
      assert s[..n] == [s[0]] + s[1..][..n - 1];
      n
    else 0
  }

  function SpaceRun(s: Bytes): (n: nat)
    ensures n <= |s|
    ensures forall k :: 0 <= k < n ==> IsSpace(s[k])
    ensures n < |s| ==> !IsSpace(s[n])
    decreases |s|
  {
    if |s| > 0 && IsSpace(s[0]) then 1 + SpaceRun(s[1..]) else 0
  }

  /** The pieces between maximal runs of white space.  Empty pieces are kept,
      so a leading or trailing run yields an empty first or last piece. */
  function Split(s: Bytes): (parts: seq<Bytes>)
    ensures |parts| >= 1
    ensures forall i :: 0 <= i < |parts| ==> NoSpace(parts[i])
    decreases |s|
  {
    var w := WordLength(s);
    if w == |s| then
      assert s[..w] == s;
      [s]
    else
      var rest := s[w..];
      var sp := SpaceRun(rest);
      [s[..w]] + Split(rest[sp..])
  }

  /** The bytes of `s` that are not white space, in order. */
  function NonSpace(s: Bytes): Bytes {
    if |s| == 0 then []
    else (if IsSpace(s[0]) then [] else [s[0]]) + NonSpace(s[1..])
  }

  function Concat(parts: seq<Bytes>): Bytes {
    if |parts| == 0 then [] else parts[0] + Concat(parts[1..])
  }

  lemma {:induction false} NonSpaceAppend(a: Bytes, b: Bytes)
    ensures NonSpace(a + b) == NonSpace(a) + NonSpace(b)
    decreases |a|
  {
    if |a| > 0 {
      assert (a + b)[1..] == a[1..] + b;
      NonSpaceAppend(a[1..], b);
    } else {
      assert a + b == b;
    }
  }

  lemma {:induction false} NonSpaceOfWord(s: Bytes)
    requires NoSpace(s)
    ensures NonSpace(s) == s
    decreases |s|
  {
    if |s| > 0 {
      NonSpaceOfWord(s[1..]);
      assert s == [s[0]] + s[1..];
    }
  }

  lemma {:induction false} NonSpaceOfSpaces(s: Bytes)
    requires forall k :: 0 <= k < |s| ==> IsSpace(s[k])
    ensures NonSpace(s) == []
    decreases |s|
  {
    if |s| > 0 {
      NonSpaceOfSpaces(s[1..]);
    }
  }

  /** Splitting loses exactly the white space: gluing the pieces back
      together gives the input with its white space removed. */
  lemma {:induction false} SplitLosesOnlySpace(s: Bytes)
    ensures Concat(Split(s)) == NonSpace(s)
    decreases |s|
  {
    var w := WordLength(s);
    if w == |s| {
      assert s[..w] == s;
      NonSpaceOfWord(s);
      ConcatCons(s, []);
    } else {
      var rest := s[w..];
      var tail := rest[SpaceRun(rest)..];
      SplitLosesOnlySpace(tail);
      SplitStep(s, w, SpaceRun(rest));
    }
  }

  /** The inductive step of `SplitLosesOnlySpace`: a word, a gap, the rest. */
  lemma SplitStep(s: Bytes, w: nat, sp: nat)
    requires w == WordLength(s) < |s| && sp == SpaceRun(s[w..])
    requires Concat(Split(s[w..][sp..])) == NonSpace(s[w..][sp..])
    ensures Concat(Split(s)) == NonSpace(s)
  {
    SplitUnfold(s, w, sp);
    ConcatCons(s[..w], Split(s[w..][sp..]));
    NonSpaceSkipsGap(s, w, sp);
  }

  lemma SplitUnfold(s: Bytes, w: nat, sp: nat)
    requires w == WordLength(s) < |s| && sp == SpaceRun(s[w..])
    ensures Split(s) == [s[..w]] + Split(s[w..][sp..])
  {
  }

  /** A word, then white space: only the word and what follows remain. */
  lemma NonSpaceSkipsGap(s: Bytes, w: nat, sp: nat)
    requires w <= |s| && sp <= |s| - w
    requires NoSpace(s[..w])
    requires forall k :: 0 <= k < sp ==> IsSpace(s[w..][k])
    ensures NonSpace(s) == s[..w] + NonSpace(s[w..][sp..])
  {
    var rest := s[w..];
    NonSpaceAt(s, w);
    NonSpaceOfWord(s[..w]);
    GapVanishes(rest, sp);
  }

  lemma GapVanishes(rest: Bytes, sp: nat)
    requires sp <= |rest|
    requires forall k :: 0 <= k < sp ==> IsSpace(rest[k])
    ensures NonSpace(rest) == NonSpace(rest[sp..])
  {
    NonSpaceAt(rest, sp);
    NonSpaceOfSpaces(rest[..sp]);
    assert NonSpace(rest) == [] + NonSpace(rest[sp..]);
  }

  lemma NonSpaceAt(s: Bytes, i: nat)
    requires i <= |s|
    ensures NonSpace(s) == NonSpace(s[..i]) + NonSpace(s[i..])
  {
    assert s == s[..i] + s[i..];
    NonSpaceAppend(s[..i], s[i..]);
  }

  lemma ConcatCons(x: Bytes, rest: seq<Bytes>)
    ensures Concat([x] + rest) == x + Concat(rest)
  {
    assert ([x] + rest)[1..] == rest;
  }


  /** A string splits into a single piece exactly when it has no white space,
      and that piece is the string itself. */
  lemma SingleWordIffNoSpace(s: Bytes)
    ensures |Split(s)| == 1 <==> NoSpace(s)
    ensures NoSpace(s) ==> Split(s) == [s]
  {
    var w := WordLength(s);
    if w < |s| {
      assert IsSpace(s[w]);
      var rest := s[w..];
      assert |Split(rest[SpaceRun(rest)..])| >= 1;
    } else {
      assert s[..w] == s;
    }
  }

  // ---------------------------------------------------------------------
  // Where preg_split breaks: exactly at the maximal runs of white space
  // ---------------------------------------------------------------------

  /** A non-empty run of white space. */
  predicate IsGap(g: Bytes) {
    g != [] && forall k :: 0 <= k < |g| ==> IsSpace(g[k])
  }

  /** Only the first and the last piece may be empty: between two runs of
      white space there is always a word. */
  predicate InnerPiecesNonEmpty(parts: seq<Bytes>) {
    forall i :: 0 < i < |parts| - 1 ==> parts[i] != []
  }

  /** The input is its pieces with one run of white space between each two
      consecutive ones, and no piece but the first and the last is empty. */
  lemma {:induction false} SplitAtGaps(s: Bytes) returns (gaps: seq<Bytes>)
    ensures |gaps| == |Split(s)| - 1
    ensures forall i :: 0 <= i < |gaps| ==> IsGap(gaps[i])
    ensures InnerPiecesNonEmpty(Split(s))
    ensures Interleave(Split(s), gaps) == s
    decreases |s|
  {
    var w := WordLength(s);
    if w == |s| {
      assert s[..w] == s;
      assert Split(s) == [s];
      gaps := [];
    } else {
      var rest := s[w..];
      var sp := SpaceRun(rest);
      var tail := rest[sp..];
      var more := SplitAtGaps(tail);
      SplitUnfold(s, w, sp);
      ThreeSlices(s, w, sp);
      var gap := rest[..sp];
      assert IsGap(gap) by {
        assert IsSpace(rest[0]);
      }
      if tail != [] {
        FirstPieceNonEmpty(tail);
      }
      gaps := [gap] + more;
      GapsCons(s[..w], gap, tail, Split(tail), more);
    }
  }

  /** Putting a piece and a run of white space in front of an interleaving
      keeps every run a gap and every inner piece non-empty. */
  lemma GapsCons(p: Bytes, g: Bytes, tail: Bytes, parts: seq<Bytes>, more: seq<Bytes>)
    requires IsGap(g) && |parts| == |more| + 1
    requires forall i :: 0 <= i < |more| ==> IsGap(more[i])
    requires InnerPiecesNonEmpty(parts) && (|parts| >= 2 ==> parts[0] != [])
    requires Interleave(parts, more) == tail
    ensures forall i :: 0 <= i < |[g] + more| ==> IsGap(([g] + more)[i])
    ensures InnerPiecesNonEmpty([p] + parts)
    ensures Interleave([p] + parts, [g] + more) == p + g + tail
  {
    InterleaveCons(p, g, parts, more);
    ConsKeepsInnerNonEmpty(p, parts);
  }

  /** A string that starts with a word has that word as its first piece. */
  lemma FirstPieceNonEmpty(t: Bytes)
    requires t != [] && !IsSpace(t[0])
    ensures Split(t)[0] != []
  {
    var w := WordLength(t);
    assert w >= 1;
    if w == |t| {
      assert t[..w] == t;
    }
  }

  lemma ConsKeepsInnerNonEmpty(p: Bytes, ps: seq<Bytes>)
    requires |ps| >= 1 && (|ps| >= 2 ==> ps[0] != [])
    requires InnerPiecesNonEmpty(ps)
    ensures InnerPiecesNonEmpty([p] + ps)
  {
    forall i | 0 < i < |ps|
      ensures ([p] + ps)[i] != [] || i == |ps|
    {
      assert ([p] + ps)[i] == ps[i - 1];
    }
  }

  /** Pieces without white space, joined by runs of white space, split back
      into themselves. */
  lemma {:induction false} SplitInterleave(parts: seq<Bytes>, gaps: seq<Bytes>)
    requires |parts| == |gaps| + 1
    requires forall i :: 0 <= i < |parts| ==> NoSpace(parts[i])
    requires forall i :: 0 <= i < |gaps| ==> IsGap(gaps[i])
    requires InnerPiecesNonEmpty(parts)
    ensures Split(Interleave(parts, gaps)) == parts
    decreases |gaps|
  {
    if |gaps| == 0 {
      SingleWordIffNoSpace(parts[0]);
    } else {
      var r := Interleave(parts[1..], gaps[1..]);
      assert r == [] || !IsSpace(r[0]) by {
        if parts[1] != [] {
          StartsWithFirstPiece(parts[1..], gaps[1..]);
        } else {
          assert |parts| == 2;
        }
      }
      SplitInterleave(parts[1..], gaps[1..]);
      SplitAfterGap(parts[0], gaps[0], r);
      assert parts == [parts[0]] + parts[1..];
    }
  }

  /** A word, a run of white space and then no white space: the word is the
      first piece and the rest is split from where the run stops. */
  lemma SplitAfterGap(p: Bytes, g: Bytes, r: Bytes)
    requires NoSpace(p) && IsGap(g)
    requires r == [] || !IsSpace(r[0])
    ensures Split(p + g + r) == [p] + Split(r)
  {
    var s := p + (g + r);
    assert p + g + r == s;
    WordThenGap(p, g + r);
    GapThenWord(g, r);
    assert s[..|p|] == p && s[|p|..] == g + r;
    assert (g + r)[|g|..] == r;
    SplitUnfold(s, |p|, |g|);
  }

  lemma {:induction false} WordThenGap(p: Bytes, t: Bytes)
    requires NoSpace(p) && t != [] && IsSpace(t[0])
    ensures WordLength(p + t) == |p|
    decreases |p|
  {
    if |p| > 0 {
      assert (p + t)[1..] == p[1..] + t;
      WordThenGap(p[1..], t);
    } else {
      assert p + t == t;
    }
  }

  lemma {:induction false} GapThenWord(g: Bytes, r: Bytes)
    requires forall k :: 0 <= k < |g| ==> IsSpace(g[k])
    requires r == [] || !IsSpace(r[0])
    ensures SpaceRun(g + r) == |g|
    decreases |g|
  {
    if |g| > 0 {
      assert (g + r)[1..] == g[1..] + r;
      GapThenWord(g[1..], r);
    } else {
      assert g + r == r;
    }
  }

  // ---------------------------------------------------------------------
  // explode(sep, s) and implode(sep, parts)
  // ---------------------------------------------------------------------

  /** explode(): the pieces between every occurrence of `sep`, empty ones
      included. */
  function Explode(s: Bytes, sep: byte): (parts: seq<Bytes>)
    ensures |parts| >= 1
    ensures forall i :: 0 <= i < |parts| ==> sep !in parts[i]
    decreases |s|
  {
    if |s| == 0 then [[]]
    else
      var rest := Explode(s[1..], sep);
      if s[0] == sep then [[]] + rest
      else [[s[0]] + rest[0]] + rest[1..]
  }

  /** implode(): the pieces with `sep` between consecutive ones. */
  function Join(parts: seq<Bytes>, sep: byte): Bytes
    requires |parts| >= 1
  {
    if |parts| == 1 then parts[0] else parts[0] + [sep] + Join(parts[1..], sep)
  }

  lemma {:induction false} JoinExplode(s: Bytes, sep: byte)
    ensures Join(Explode(s, sep), sep) == s
    decreases |s|
  {
    if |s| > 0 {
      var rest := Explode(s[1..], sep);
      JoinExplode(s[1..], sep);
      if s[0] == sep {
        assert Explode(s, sep)[1..] == rest;
      } else {
        var parts := Explode(s, sep);
        if |rest| == 1 {
          assert parts == [[s[0]] + rest[0]];
        } else {
          assert parts[1..] == rest[1..];
          assert Join(rest, sep) == rest[0] + [sep] + Join(rest[1..], sep);
        }
      }
    }
  }

  lemma {:induction false} ExplodeWord(p: Bytes, sep: byte)
    requires sep !in p
    ensures Explode(p, sep) == [p]
    decreases |p|
  {
    if |p| > 0 {
      ExplodeWord(p[1..], sep);
      assert [p[0]] + p[1..] == p;
    }
  }

  lemma {:induction false} ExplodeAfterWord(p: Bytes, sep: byte, tail: Bytes)
    requires sep !in p
    ensures Explode(p + [sep] + tail, sep) == [p] + Explode(tail, sep)
    decreases |p|
  {
    var s := p + [sep] + tail;
    if |p| == 0 {
      assert s[1..] == tail;
    } else {
      assert s[1..] == p[1..] + [sep] + tail;
      ExplodeAfterWord(p[1..], sep, tail);
      assert [p[0]] + p[1..] == p;
    }
  }

  /** Splitting a separator-free list of pieces after joining returns the
      pieces: explode and implode are inverse. */
  lemma {:induction false} ExplodeJoin(parts: seq<Bytes>, sep: byte)
    requires |parts| >= 1
    requires forall i :: 0 <= i < |parts| ==> sep !in parts[i]
    ensures Explode(Join(parts, sep), sep) == parts
    decreases |parts|
  {
    if |parts| == 1 {
      ExplodeWord(parts[0], sep);
    } else {
      ExplodeJoin(parts[1..], sep);
      ExplodeAfterWord(parts[0], sep, Join(parts[1..], sep));
      assert [parts[0]] + parts[1..] == parts;
    }
  }

  // ---------------------------------------------------------------------
  // strpos(haystack, needle)
  // ---------------------------------------------------------------------

  predicate OccursAt(h: Bytes, n: Bytes, i: int) {
    0 <= i && i + |n| <= |h| && h[i..i + |n|] == n
  }

  function StrposFrom(h: Bytes, n: Bytes, i: nat): (r: Option<nat>)
    ensures r.Some? ==> i <= r.value && OccursAt(h, n, r.value)
    ensures r.Some? ==> forall k :: i <= k < r.value ==> !OccursAt(h, n, k)
    ensures r.None? ==> forall k :: i <= k ==> !OccursAt(h, n, k)
    decreases |h| - i
  {
    if i + |n| > |h| then None
    else if h[i..i + |n|] == n then Some(i)
    else StrposFrom(h, n, i + 1)
  }

  /** strpos(): the first offset at which `n` occurs in `h`, or none (PHP 8:
      the empty needle occurs at offset 0). */
  function Strpos(h: Bytes, n: Bytes): (r: Option<nat>)
    ensures r.Some? <==> exists k :: OccursAt(h, n, k)
    ensures r.Some? ==> OccursAt(h, n, r.value)
                        && forall k :: 0 <= k < r.value ==> !OccursAt(h, n, k)
  {
    StrposFrom(h, n, 0)
  }

  /** `strpos($h, $n) !== false` */
  predicate Contains(h: Bytes, n: Bytes) {
    Strpos(h, n).Some?
  }

  /** `strpos($h, $n) === 0` holds exactly when `n` is a prefix of `h`. */
  lemma StrposZeroIffPrefix(h: Bytes, n: Bytes)
    ensures Strpos(h, n) == Some(0) <==> n <= h
  {
    if n <= h {
      assert OccursAt(h, n, 0);
    }
  }

  // ---------------------------------------------------------------------
  // UTF-8 as PCRE's /u mode accepts it (the table of section 4 of RFC 3629)
  // ---------------------------------------------------------------------

  predicate IsScalarValue(c: int) {
    0 <= c <= 0x10FFFF && !(0xD800 <= c <= 0xDFFF)
  }

  predicate InRange(b: byte, lo: int, hi: int) {
    lo <= b <= hi
  }

  /** The length of the well-formed sequence at the start of `s`, or 0. */
  function SequenceLength(s: Bytes): (n: nat)
    ensures n <= |s| && n <= 4
  {
    if |s| == 0 then 0
    else
      var b := s[0];
      if b < 0x80 then 1
      else if 0xC2 <= b <= 0xDF then
        (if |s| >= 2 && InRange(s[1], 0x80, 0xBF) then 2 else 0)
      else if 0xE0 <= b <= 0xEF then
        var lo := if b == 0xE0 then 0xA0 else 0x80;
        var hi := if b == 0xED then 0x9F else 0xBF;
        (if |s| >= 3 && InRange(s[1], lo, hi) && InRange(s[2], 0x80, 0xBF) then 3 else 0)
      else if 0xF0 <= b <= 0xF4 then
        var lo := if b == 0xF0 then 0x90 else 0x80;
        var hi := if b == 0xF4 then 0x8F else 0xBF;
        (if |s| >= 4 && InRange(s[1], lo, hi) && InRange(s[2], 0x80, 0xBF)
            && InRange(s[3], 0x80, 0xBF) then 4 else 0)
      else 0
  }

  /** The code point encoded by the well-formed sequence at the start of `s`. */
  function LeadingCodePoint(s: Bytes): (c: int)
    requires SequenceLength(s) > 0
    ensures IsScalarValue(c)
  {
    var n := SequenceLength(s);
    var b0: int, b1: int, b2: int, b3: int := s[0], if n > 1 then s[1] else 0,
      if n > 2 then s[2] else 0, if n > 3 then s[3] else 0;
    if n == 1 then b0
    else if n == 2 then (b0 - 0xC0) * 64 + (b1 - 0x80)
    else if n == 3 then (b0 - 0xE0) * 4096 + (b1 - 0x80) * 64 + (b2 - 0x80)
    else (b0 - 0xF0) * 262144 + (b1 - 0x80) * 4096 + (b2 - 0x80) * 64 + (b3 - 0x80)
  }

  /** The code points of `s`, or none when `s` is not well-formed UTF-8. */
  function DecodeUtf8(s: Bytes): (r: Option<seq<int>>)
    ensures r.Some? ==> forall i :: 0 <= i < |r.value| ==> IsScalarValue(r.value[i])
    decreases |s|
  {
    if |s| == 0 then Some([])
    else
      var n := SequenceLength(s);
      if n == 0 then None
      else match DecodeUtf8(s[n..])
        case None => None
        case Some(rest) => Some([LeadingCodePoint(s)] + rest)
  }

  /** The UTF-8 encoding of one scalar value. */
  function EncodeCodePoint(c: int): (e: Bytes)
    requires IsScalarValue(c)
    ensures 1 <= |e| <= 4
  {
    if c < 0x80 then [c]
    else if c < 0x800 then [0xC0 + c / 64, 0x80 + c % 64]
    else if c < 0x10000 then [0xE0 + c / 4096, 0x80 + (c / 64) % 64, 0x80 + c % 64]
    else [0xF0 + c / 262144, 0x80 + (c / 4096) % 64, 0x80 + (c / 64) % 64, 0x80 + c % 64]
  }

  function EncodeUtf8(cs: seq<int>): Bytes
    requires forall i :: 0 <= i < |cs| ==> IsScalarValue(cs[i])
  {
    if |cs| == 0 then [] else EncodeCodePoint(cs[0]) + EncodeUtf8(cs[1..])
  }

  lemma DecodeLeading(c: int, tail: Bytes)
    requires IsScalarValue(c)
    ensures SequenceLength(EncodeCodePoint(c) + tail) == |EncodeCodePoint(c)|
    ensures LeadingCodePoint(EncodeCodePoint(c) + tail) == c
  {
    if c < 0x80 {
    } else if c < 0x800 {
      DecodeTwo(c, tail);
    } else if c < 0x10000 {
      DecodeThree(c, tail);
    } else {
      DecodeFour(c, tail);
    }
  }

  lemma DecodeTwo(c: int, tail: Bytes)
    requires 0x80 <= c < 0x800
    ensures SequenceLength(EncodeCodePoint(c) + tail) == 2
    ensures LeadingCodePoint(EncodeCodePoint(c) + tail) == c
  {
    var s := EncodeCodePoint(c) + tail;
    assert s[0] == 0xC0 + c / 64 && s[1] == 0x80 + c % 64;
  }

  lemma DecodeThree(c: int, tail: Bytes)
    requires 0x800 <= c < 0x10000 && !(0xD800 <= c <= 0xDFFF)
    ensures SequenceLength(EncodeCodePoint(c) + tail) == 3
    ensures LeadingCodePoint(EncodeCodePoint(c) + tail) == c
  {
    var s := EncodeCodePoint(c) + tail;
    var q := c / 64;
    assert c == q * 64 + c % 64;
    assert q == (q / 64) * 64 + q % 64;
    assert c / 4096 == q / 64;
    assert s[0] == 0xE0 + c / 4096 && s[1] == 0x80 + q % 64 && s[2] == 0x80 + c % 64;
  }

  lemma DecodeFour(c: int, tail: Bytes)
    requires 0x10000 <= c <= 0x10FFFF
    ensures SequenceLength(EncodeCodePoint(c) + tail) == 4
    ensures LeadingCodePoint(EncodeCodePoint(c) + tail) == c
  {
    var s := EncodeCodePoint(c) + tail;
    var q := c / 64;
    var q2 := q / 64;
    assert c == q * 64 + c % 64;
    assert q == q2 * 64 + q % 64;
    assert q2 == (q2 / 64) * 64 + q2 % 64;
    assert c / 4096 == q2;
    assert c / 262144 == q2 / 64;
    assert s[0] == 0xF0 + q2 / 64 && s[1] == 0x80 + q2 % 64;
    assert s[2] == 0x80 + q % 64 && s[3] == 0x80 + c % 64;
  }

  /** Decoding an encoding returns the code points: UTF-8 round trip. */
  lemma {:induction false} DecodeEncode(cs: seq<int>)
    requires forall i :: 0 <= i < |cs| ==> IsScalarValue(cs[i])
    ensures DecodeUtf8(EncodeUtf8(cs)) == Some(cs)
    decreases |cs|
  {
    if |cs| > 0 {
      var e := EncodeCodePoint(cs[0]);
      var tail := EncodeUtf8(cs[1..]);
      DecodeLeading(cs[0], tail);
      assert (e + tail)[|e|..] == tail;
      DecodeEncode(cs[1..]);
      assert [cs[0]] + cs[1..] == cs;
    }
  }

  /** ASCII text decodes to its own bytes. */
  lemma {:induction false} DecodeAscii(s: Bytes)
    requires forall k :: 0 <= k < |s| ==> s[k] < 0x80
    ensures DecodeUtf8(s) == Some(s)
    decreases |s|
  {
    if |s| > 0 {
      DecodeAscii(s[1..]);
      assert [s[0]] + s[1..] == s;
    }
  }

  // ---------------------------------------------------------------------
  // The name pattern /^[\p{L}\s\'\-\.]+$/u
  // ---------------------------------------------------------------------

  predicate IsAsciiLetter(c: int) {
    0x41 <= c <= 0x5A || 0x61 <= c <= 0x7A
  }

  /** \p{L}: concrete below U+0080, where it is exactly A-Z and a-z. */
  predicate IsLetter(lib: Library, c: int) {
    if c < 0x80 then IsAsciiLetter(c) else lib.isNonAsciiLetter(c)
  }

  /** \s in PCRE's Unicode-property mode, which PHP turns on with /u: the
      characters of \p{Z}, \h or \v.  PCRE's \h list still holds U+180E,
      the Mongolian vowel separator. */
  predicate IsUnicodeSpace(c: int) {
    c == 0x20 || 0x09 <= c <= 0x0D || c == 0x85 || c == 0xA0 || c == 0x1680
    || c == 0x180E || 0x2000 <= c <= 0x200A || c == 0x2028 || c == 0x2029 || c == 0x202F
    || c == 0x205F || c == 0x3000
  }

  /** A letter, white space, apostrophe, hyphen or period. */
  predicate IsNameCodePoint(lib: Library, c: int) {
    IsLetter(lib, c) || IsUnicodeSpace(c) || c == 0x27 || c == 0x2D || c == 0x2E
  }

  /** preg_match succeeds: `s` is well-formed UTF-8 and consists of one or
      more name code points.  Ill-formed UTF-8 makes preg_match fail.  The
      `$` anchor may also match before a final newline, but a newline is
      itself in the class, so that changes nothing. */
  predicate MatchesNamePattern(lib: Library, s: Bytes) {
    match DecodeUtf8(s)
    case None => false
    case Some(cs) => |cs| >= 1 && forall i :: 0 <= i < |cs| ==> IsNameCodePoint(lib, cs[i])
  }

  /** A string holding an ASCII digit never matches the name pattern,
      whatever the letter class says about other code points. */
  lemma AsciiDigitFailsNamePattern(lib: Library, s: Bytes, k: nat)
    requires forall j :: 0 <= j < |s| ==> s[j] < 0x80
    requires k < |s| && 0x30 <= s[k] <= 0x39
    ensures !MatchesNamePattern(lib, s)
  {
    DecodeAscii(s);
    assert !IsNameCodePoint(lib, s[k]);
  }

  /** On encoded text the pattern is decided code point by code point: it
      matches exactly when the text is non-empty and every code point is a
      letter, white space, apostrophe, hyphen or period. */
  lemma NamePatternOfEncoded(lib: Library, cs: seq<int>)
    requires forall i :: 0 <= i < |cs| ==> IsScalarValue(cs[i])
    ensures MatchesNamePattern(lib, EncodeUtf8(cs)) <==>
              |cs| >= 1 && forall i :: 0 <= i < |cs| ==> IsNameCodePoint(lib, cs[i])
  {
    DecodeEncode(cs);
  }

  /** "A" followed by U+180E (bytes 41 E1 A0 8E) matches, whatever the letter
      class says: PCRE counts the Mongolian vowel separator as \s. */
  lemma VowelSeparatorMatches(lib: Library)
    ensures MatchesNamePattern(lib, [0x41, 0xE1, 0xA0, 0x8E])
  {
    assert EncodeUtf8([0x41, 0x180E]) == [0x41, 0xE1, 0xA0, 0x8E];
    NamePatternOfEncoded(lib, [0x41, 0x180E]);
  }
}

=== FILE: pieces.dfy ===
/** Pieces of a string with separating runs put back between them: what a
    split on white space undoes. */
module Pieces {

  /** `parts[0] + gaps[0] + parts[1] + ... + gaps[n-1] + parts[n]`. */
  function Interleave<T>(parts: seq<seq<T>>, gaps: seq<seq<T>>): seq<T>
    requires |parts| == |gaps| + 1
    decreases |gaps|
  {
    if |gaps| == 0 then parts[0]
    else parts[0] + gaps[0] + Interleave(parts[1..], gaps[1..])
  }

  /** Putting one more piece and run in front. */
  lemma InterleaveCons<T>(p: seq<T>, g: seq<T>, ps: seq<seq<T>>, gs: seq<seq<T>>)
    requires |ps| == |gs| + 1
    ensures Interleave([p] + ps, [g] + gs) == p + g + Interleave(ps, gs)
  {
    assert ([p] + ps)[1..] == ps && ([g] + gs)[1..] == gs;
  }

  /** The result starts where the first piece starts. */
  lemma StartsWithFirstPiece<T>(parts: seq<seq<T>>, gaps: seq<seq<T>>)
    requires |parts| == |gaps| + 1 && parts[0] != []
    ensures Interleave(parts, gaps) != [] && Interleave(parts, gaps)[0] == parts[0][0]
  {
  }

  /** A sequence is its prefix, a middle slice and the rest. */
  lemma ThreeSlices<T>(s: seq<T>, w: nat, sp: nat)
    requires w + sp <= |s|
    ensures s == s[..w] + s[w..][..sp] + s[w..][sp..]
  {
    assert s[w..] == s[w..][..sp] + s[w..][sp..];
    assert s == s[..w] + s[w..];
  }
}

=== FILE: py_text.dfy ===
/**
 * The Python string behaviour the guest-list converter relies on:
 * `str.strip()` and `str.split()` with no arguments, `str(int)`, and the
 * base-10 `int(str)` parser.  Python strings are sequences of Unicode
 * scalar values, which is what Dafny's `string` is.  Case mapping,
 * metaphone, float formatting and the values of non-ASCII decimal digits
 * are fields of `PyLibrary` and stay uninterpreted.
 */
module PyText {
  import opened Options
  import opened Pieces

  datatype PyLibrary = PyLibrary(
    lower: string -> string,        // str.lower
    upper: string -> string,        // str.upper
    metaphone: string -> string,    // jellyfish.metaphone
    floatStr: real -> string,       // str(float)
    nonAsciiDigit: char -> int      // value of a non-ASCII Unicode decimal digit, or -1
  )

  // ---------------------------------------------------------------------
  // White space: str.isspace(), and what int() skips
  // ---------------------------------------------------------------------

  /** The characters str.isspace() accepts: what strip() and split()
      remove. */
  predicate IsSpace(c: char) {
    var n := c as int;
    (0x09 <= n <= 0x0D) || (0x1C <= n <= 0x20) || n == 0x85 || n == 0xA0 || n == 0x1680
    || (0x2000 <= n <= 0x200A) || n == 0x2028 || n == 0x2029 || n == 0x202F || n == 0x205F
    || n == 0x3000
  }

  /** The white space int() skips around a number.  CPython first turns
      every non-ASCII white space character into a space and then skips
      only the ASCII space and \t, \n, \v, \f, \r, so the information
      separators U+001C to U+001F, white space to isspace(), are not
      skipped. */
  predicate IsIntSpace(c: char) {
    IsSpace(c) && !(0x1C <= c as int <= 0x1F)
  }

  predicate AllSpace(s: string) {
    forall k :: 0 <= k < |s| ==> IsSpace(s[k])
  }

  predicate AllIntSpace(s: string) {
    forall k :: 0 <= k < |s| ==> IsIntSpace(s[k])
  }

  predicate NoSpace(s: string) {
    forall k :: 0 <= k < |s| ==> !IsSpace(s[k])
  }

  /** Which white space a scan skips: strip()'s or int()'s. */
  datatype Blanks = StripBlanks | IntBlanks

  predicate IsBlank(b: Blanks, c: char) {
    match b
    case StripBlanks => IsSpace(c)
    case IntBlanks => IsIntSpace(c)
  }

  /** The first index at or after `i` that does not hold white space. */
  function SpaceStart(s: string, i: nat, b: Blanks): (n: nat)
    requires i <= |s|
    ensures i <= n <= |s|
    ensures forall k :: i <= k < n ==> IsBlank(b, s[k])
    ensures n < |s| ==> !IsBlank(b, s[n])
    decreases |s| - i
  {
    if i < |s| && IsBlank(b, s[i]) then SpaceStart(s, i + 1, b) else i
  }

  /** Scanning back from `j`, no further than `lo`: the end of the last
      character that is not white space. */
  function SpaceEnd(s: string, lo: nat, j: nat, b: Blanks): (n: nat)
    requires lo <= j <= |s|
    ensures lo <= n <= j
    ensures forall k :: n <= k < j ==> IsBlank(b, s[k])
    ensures n > lo ==> !IsBlank(b, s[n - 1])
    decreases j
  {
    if j > lo && IsBlank(b, s[j - 1]) then SpaceEnd(s, lo, j - 1, b) else j
  }

  /** str.strip(): what is left after removing white space at both ends
      (`StripParts` says what was removed). */
  function Strip(s: string): (r: string)
    ensures |r| <= |s|
    ensures r == [] || (!IsSpace(r[0]) && !IsSpace(r[|r| - 1]))
  {
    var i := SpaceStart(s, 0, StripBlanks);
    s[i..SpaceEnd(s, i, |s|, StripBlanks)]
  }

  /** The text int() reads a number from: the argument without int()'s
      white space at either end (`IntStripParts` says what was removed). */
  function IntStrip(s: string): (r: string)
    ensures |r| <= |s|
    ensures r == [] || (!IsIntSpace(r[0]) && !IsIntSpace(r[|r| - 1]))
  {
    var i := SpaceStart(s, 0, IntBlanks);
    s[i..SpaceEnd(s, i, |s|, IntBlanks)]
  }

  /** A string without white space is its own strip. */
  lemma StripOfWord(s: string)
    requires NoSpace(s)
    ensures Strip(s) == s
  {
    assert SpaceStart(s, 0, StripBlanks) == 0;
    assert SpaceEnd(s, 0, |s|, StripBlanks) == |s|;
    assert s[0..|s|] == s;
  }

  /** What strip() removes: white space before and after the result. */
  lemma StripParts(s: string) returns (pre: string, post: string)
    ensures AllSpace(pre) && AllSpace(post)
    ensures s == pre + Strip(s) + post
  {
    var i := SpaceStart(s, 0, StripBlanks);
    var j := SpaceEnd(s, i, |s|, StripBlanks);
    pre, post := s[..i], s[j..];
    SpaceSlice(s, 0, i, StripBlanks);
    SpaceSlice(s, j, |s|, StripBlanks);
    assert s[..j] == pre + s[i..j];
    Rejoin(s, j);
  }

  /** What int() skips: its white space before and after the text it reads. */
  lemma IntStripParts(s: string) returns (pre: string, post: string)
    ensures AllIntSpace(pre) && AllIntSpace(post)
    ensures s == pre + IntStrip(s) + post
  {
    var i := SpaceStart(s, 0, IntBlanks);
    var j := SpaceEnd(s, i, |s|, IntBlanks);
    pre, post := s[..i], s[j..];
    SpaceSlice(s, 0, i, IntBlanks);
    SpaceSlice(s, j, |s|, IntBlanks);
    assert s[..j] == pre + s[i..j];
    Rejoin(s, j);
  }

  lemma SpaceSlice(s: string, lo: nat, hi: nat, b: Blanks)
    requires lo <= hi <= |s|
    requires forall k :: lo <= k < hi ==> IsBlank(b, s[k])
    ensures forall k :: 0 <= k < hi - lo ==> IsBlank(b, s[lo..hi][k])
  {
    assert forall k :: 0 <= k < hi - lo ==> s[lo..hi][k] == s[lo + k];
  }

  lemma Rejoin(s: string, i: nat)
    requires i <= |s|
    ensures s[..i] + s[i..] == s
  {
  }

  /** A string strips to nothing exactly when it is all white space. */
  lemma StripEmptyIffBlank(s: string)
    ensures Strip(s) == [] <==> AllSpace(s)
  {
    var pre, post := StripParts(s);
    if Strip(s) == [] {
      assert s == pre + post;
    } else {
      assert s[|pre|] == Strip(s)[0];
    }
  }

  // ---------------------------------------------------------------------
  // str.split() without a separator
  // ---------------------------------------------------------------------

  function WordLength(s: string): (n: nat)
    ensures n <= |s|
    ensures NoSpace(s[..n])
    ensures n < |s| ==> IsSpace(s[n])
    decreases |s|
  {
    if |s| > 0 && !IsSpace(s[0]) then
      var n := 1 + WordLength(s[1..]);
      assert s[..n] == [s[0]] + s[1..][..n - 1];
      n
    else 0
  }

  /** The maximal runs of non-white-space characters, in order; unlike a
      split on a separator, no piece is ever empty. */
  function Split(s: string): (parts: seq<string>)
    ensures forall i :: 0 <= i < |parts| ==> parts[i] != [] && NoSpace(parts[i])
    decreases |s|
  {
    if |s| == 0 then []
    else if IsSpace(s[0]) then Split(s[1..])
    else
      var w := WordLength(s);
      [s[..w]] + Split(s[w..])
  }

  /** The characters of `s` that are not white space, in order. */
  function NonSpace(s: string): string {
    if |s| == 0 then []
    else (if IsSpace(s[0]) then [] else [s[0]]) + NonSpace(s[1..])
  }

  function Concat(parts: seq<string>): string {
    if |parts| == 0 then [] else parts[0] + Concat(parts[1..])
  }

  lemma {:induction false} NonSpaceAppend(a: string, b: string)
    ensures NonSpace(a + b) == NonSpace(a) + NonSpace(b)
    decreases |a|
  {
    if |a| > 0 {
      assert (a + b)[1..] == a[1..] + b;
      NonSpaceAppend(a[1..], b);
    } else {
      assert a + b == b;
    }
  }

  lemma {:induction false} NonSpaceOfWord(s: string)
    requires NoSpace(s)
    ensures NonSpace(s) == s
    decreases |s|
  {
    if |s| > 0 {
      NonSpaceOfWord(s[1..]);
      assert s == [s[0]] + s[1..];
    }
  }

  /** Splitting loses exactly the white space. */
  lemma {:induction false} SplitLosesOnlySpace(s: string)
    ensures Concat(Split(s)) == NonSpace(s)
    decreases |s|
  {
    if |s| > 0 {
      if IsSpace(s[0]) {
        SplitLosesOnlySpace(s[1..]);
      } else {
        var w := WordLength(s);
        SplitLosesOnlySpace(s[w..]);
        NonSpaceOfWord(s[..w]);
        assert s == s[..w] + s[w..];
        NonSpaceAppend(s[..w], s[w..]);
      }
    }
  }

  lemma {:induction false} SplitOfSpaces(s: string)
    requires AllSpace(s)
    ensures Split(s) == []
    decreases |s|
  {
    if |s| > 0 {
      SplitOfSpaces(s[1..]);
    }
  }

  lemma {:induction false} SplitIgnoresTrailingSpace(t: string, sp: string)
    requires AllSpace(sp)
    ensures Split(t + sp) == Split(t)
    decreases |t|
  {
    if |t| == 0 {
      assert t + sp == sp;
      SplitOfSpaces(sp);
    } else if IsSpace(t[0]) {
      assert (t + sp)[1..] == t[1..] + sp;
      SplitIgnoresTrailingSpace(t[1..], sp);
    } else {
      var w := WordLength(t);
      assert WordLength(t + sp) == w by {
        WordLengthOfPrefix(t, sp);
      }
      assert (t + sp)[..w] == t[..w];
      assert (t + sp)[w..] == t[w..] + sp;
      SplitIgnoresTrailingSpace(t[w..], sp);
    }
  }

  lemma {:induction false} WordLengthOfPrefix(t: string, sp: string)
    requires AllSpace(sp)
    ensures WordLength(t + sp) == WordLength(t)
    decreases |t|
  {
    if |t| == 0 {
      assert t + sp == sp;
    } else if !IsSpace(t[0]) {
      assert (t + sp)[1..] == t[1..] + sp;
      WordLengthOfPrefix(t[1..], sp);
    }
  }

  lemma {:induction false} SplitIgnoresLeadingSpace(sp: string, t: string)
    requires AllSpace(sp)
    ensures Split(sp + t) == Split(t)
    decreases |sp|
  {
    if |sp| == 0 {
      assert sp + t == t;
    } else {
      assert (sp + t)[1..] == sp[1..] + t;
      SplitIgnoresLeadingSpace(sp[1..], t);
    }
  }

  /** Stripping before splitting changes nothing: `name.strip().split()`
      is `name.split()`. */
  lemma SplitIgnoresStrip(s: string)
    ensures Split(Strip(s)) == Split(s)
  {
    var pre, post := StripParts(s);
    var r := Strip(s);
    assert s == pre + (r + post);
    SplitIgnoresLeadingSpace(pre, r + post);
    SplitIgnoresTrailingSpace(r, post);
  }

  /** A non-empty string without white space splits into itself alone; a
      blank one into nothing. */
  lemma SplitOfWord(s: string)
    requires s != [] && NoSpace(s)
    ensures Split(s) == [s]
  {
    assert WordLength(s) == |s|;
    assert s[..|s|] == s;
  }

  // ---------------------------------------------------------------------
  // Where split() breaks: at the maximal runs of white space
  // ---------------------------------------------------------------------

  /** A non-empty run of white space. */
  predicate IsGap(g: string) {
    g != [] && AllSpace(g)
  }

  /** The input is white space, then its pieces with one run of white space
      between each two consecutive ones, then white space; with no pieces
      it is all white space. */
  lemma {:induction false} SplitAtGaps(s: string) returns (lead: string, gaps: seq<string>, trail: string)
    ensures AllSpace(lead) && AllSpace(trail)
    ensures forall i :: 0 <= i < |gaps| ==> IsGap(gaps[i])
    ensures Split(s) == [] <==> AllSpace(s)
    ensures Split(s) != [] ==>
      |gaps| == |Split(s)| - 1 && s == lead + Interleave(Split(s), gaps) + trail
    decreases |s|
  {
    if |s| == 0 {
      lead, gaps, trail := [], [], [];
    } else if IsSpace(s[0]) {
      var l, g, t := SplitAtGaps(s[1..]);
      lead, gaps, trail := [s[0]] + l, g, t;
      assert Split(s) == Split(s[1..]);
      SpaceInFront(s, l, if Split(s) == [] then [] else Interleave(Split(s), gaps), t);
    } else {
      var w := WordLength(s);
      var l, g, t := SplitAtGaps(s[w..]);
      assert Split(s) == [s[..w]] + Split(s[w..]);
      if Split(s[w..]) == [] {
        lead, gaps, trail := [], [], s[w..];
        assert Interleave(Split(s), gaps) == s[..w];
        Rejoin(s, w);
      } else {
        var m := Interleave(Split(s[w..]), g);
        GapAfterWord(s, w, l, m + t);
        lead, gaps, trail := [], [l] + g, t;
        InterleaveCons(s[..w], l, Split(s[w..]), g);
        WordInFront(s, w, l, m, t);
      }
    }
  }

  lemma SpaceInFront(s: string, l: string, m: string, t: string)
    requires s != [] && IsSpace(s[0]) && AllSpace(l)
    requires AllSpace(s[1..]) || s[1..] == l + m + t
    ensures AllSpace([s[0]] + l)
    ensures AllSpace(s[1..]) ==> AllSpace(s)
    ensures !AllSpace(s[1..]) ==> s == [s[0]] + l + m + t
  {
    assert s == [s[0]] + s[1..];
  }

  lemma WordInFront(s: string, w: nat, l: string, m: string, t: string)
    requires w <= |s| && s[w..] == l + m + t
    ensures s == [] + (s[..w] + l + m) + t
  {
    Rejoin(s, w);
  }

  /** The run of white space after a word is not empty when pieces follow. */
  lemma GapAfterWord(s: string, w: nat, l: string, rest: string)
    requires w == WordLength(s) && w < |s|
    requires s[w..] == l + rest
    requires AllSpace(l)
    requires rest != [] && !IsSpace(rest[0])
    ensures IsGap(l)
  {
  }

  /** Words joined by runs of white space, with white space around them,
      split back into those words. */
  lemma SplitInterleave(lead: string, parts: seq<string>, gaps: seq<string>, trail: string)
    requires AllSpace(lead) && AllSpace(trail)
    requires |parts| == |gaps| + 1
    requires forall i :: 0 <= i < |parts| ==> parts[i] != [] && NoSpace(parts[i])
    requires forall i :: 0 <= i < |gaps| ==> IsGap(gaps[i])
    ensures Split(lead + Interleave(parts, gaps) + trail) == parts
  {
    var m := Interleave(parts, gaps);
    assert lead + m + trail == lead + (m + trail);
    SplitIgnoresLeadingSpace(lead, m + trail);
    SplitIgnoresTrailingSpace(m, trail);
    SplitOfInterleave(parts, gaps);
  }

  lemma {:induction false} SplitOfInterleave(parts: seq<string>, gaps: seq<string>)
    requires |parts| == |gaps| + 1
    requires forall i :: 0 <= i < |parts| ==> parts[i] != [] && NoSpace(parts[i])
    requires forall i :: 0 <= i < |gaps| ==> IsGap(gaps[i])
    ensures Split(Interleave(parts, gaps)) == parts
    decreases |gaps|
  {
    if |gaps| == 0 {
      SplitOfWord(parts[0]);
    } else {
      var r := Interleave(parts[1..], gaps[1..]);
      SplitOfInterleave(parts[1..], gaps[1..]);
      SplitAfterWord(parts[0], gaps[0] + r);
      SplitIgnoresLeadingSpace(gaps[0], r);
      assert parts[0] + gaps[0] + r == parts[0] + (gaps[0] + r);
      assert parts == [parts[0]] + parts[1..];
    }
  }

  /** A word followed by white space is the first piece; the rest is split
      on its own. */
  lemma SplitAfterWord(p: string, t: string)
    requires p != [] && NoSpace(p)
    requires t != [] && IsSpace(t[0])
    ensures Split(p + t) == [p] + Split(t)
  {
    var s := p + t;
    WordLengthBeforeSpace(p, t);
    assert s[..|p|] == p && s[|p|..] == t;
    assert s[0] == p[0];
  }

  lemma {:induction false} WordLengthBeforeSpace(p: string, t: string)
    requires NoSpace(p) && t != [] && IsSpace(t[0])
    ensures WordLength(p + t) == |p|
    decreases |p|
  {
    if |p| > 0 {
      assert (p + t)[1..] == p[1..] + t;
      WordLengthBeforeSpace(p[1..], t);
    } else {
      assert p + t == t;
    }
  }

  // ---------------------------------------------------------------------
  // str(int) and int(str)
  // ---------------------------------------------------------------------

  function DigitChar(d: nat): (c: char)
    requires d < 10
    ensures '0' <= c <= '9' && (c as int) - ('0' as int) == d
  {
    (('0' as int) + d) as char
  }

  /** The decimal digits of `n`, most significant first, no leading zero. */
  function Digits(n: nat): (s: string)
    ensures |s| >= 1 && forall k :: 0 <= k < |s| ==> '0' <= s[k] <= '9'
    ensures |s| > 1 ==> s[0] != '0'
    decreases n
  {
    if n < 10 then [DigitChar(n)] else Digits(n / 10) + [DigitChar(n % 10)]
  }

  /** str(n) for an int. */
  function DecimalString(n: int): string {
    if n < 0 then "-" + Digits(-n) else Digits(n)
  }

  /** The value of a decimal digit: ASCII digits concretely, other Unicode
      decimal digits through the library; -1 for anything else. */
  function DigitValue(lib: PyLibrary, c: char): int {
    if '0' <= c <= '9' then (c as int) - ('0' as int)
    else if c as int < 0x80 then -1
    else lib.nonAsciiDigit(c)
  }

  predicate IsDigit(lib: PyLibrary, c: char) {
    0 <= DigitValue(lib, c) <= 9
  }

  /** The digit part int() accepts: digits, with single underscores allowed
      between two digits. */
  predicate DigitRun(lib: PyLibrary, t: string) {
    |t| >= 1 && IsDigit(lib, t[0]) && IsDigit(lib, t[|t| - 1])
    && (forall k :: 0 <= k < |t| ==> IsDigit(lib, t[k]) || t[k] == '_')
    && (forall k :: 0 <= k < |t| - 1 ==> t[k] == '_' ==> t[k + 1] != '_')
  }

  /** The value of a digit run, read left to right, underscores skipped. */
  function RunValue(lib: PyLibrary, t: string): nat
    decreases |t|
  {
    if |t| == 0 then 0
    else
      var v := RunValue(lib, t[..|t| - 1]);
      var d := DigitValue(lib, t[|t| - 1]);
      if 0 <= d <= 9 then v * 10 + d else v
  }

  /** int(s) for a string in base 10: None where Python raises ValueError. */
  function ParseInt(lib: PyLibrary, s: string): Option<int> {
    ParseStripped(lib, IntStrip(s))
  }

  /** The sign and digit part of int(), after the white space is gone. */
  function ParseStripped(lib: PyLibrary, t: string): Option<int> {
    if |t| > 0 && (t[0] == '+' || t[0] == '-') then
      (if DigitRun(lib, t[1..]) then
         var v: int := RunValue(lib, t[1..]);
         Some(if t[0] == '-' then -v else v)
       else None)
    else if DigitRun(lib, t) then Some(RunValue(lib, t))
    else None
  }

  lemma {:induction false} DigitsRoundTrip(lib: PyLibrary, n: nat)
    ensures DigitRun(lib, Digits(n))
    ensures RunValue(lib, Digits(n)) == n
    decreases n
  {
    var s := Digits(n);
    if n >= 10 {
      DigitsRoundTrip(lib, n / 10);
      assert s[..|s| - 1] == Digits(n / 10);
    }
  }

  lemma DecimalStringShape(n: int)
    ensures |DecimalString(n)| >= 1
    ensures !IsSpace(DecimalString(n)[0]) && !IsSpace(DecimalString(n)[|DecimalString(n)| - 1])
    ensures n < 0 ==> DecimalString(n)[0] == '-' && DecimalString(n)[1..] == Digits(-n)
    ensures n >= 0 ==> DecimalString(n) == Digits(n) && '0' <= DecimalString(n)[0] <= '9'
  {
    if n < 0 {
      assert ("-" + Digits(-n))[1..] == Digits(-n);
    }
  }

  /** int(str(n)) == n, also with white space int() skips around the digits. */
  lemma ParsePrintedInt(lib: PyLibrary, n: int, pad1: string, pad2: string)
    requires AllIntSpace(pad1) && AllIntSpace(pad2)
    ensures ParseInt(lib, pad1 + DecimalString(n) + pad2) == Some(n)
  {
    DecimalStringShape(n);
    StripAround(pad1, DecimalString(n), pad2);
    ParseDecimal(lib, n);
  }

  lemma ParseDecimal(lib: PyLibrary, n: int)
    ensures ParseStripped(lib, DecimalString(n)) == Some(n)
  {
    if n < 0 {
      ParseNegative(lib, -n);
    } else {
      ParseUnsigned(lib, n);
    }
  }

  lemma ParseUnsigned(lib: PyLibrary, m: nat)
    ensures ParseStripped(lib, Digits(m)) == Some(m)
  {
    DigitsRoundTrip(lib, m);
  }

  lemma ParseNegative(lib: PyLibrary, m: nat)
    ensures ParseStripped(lib, "-" + Digits(m)) == Some(-(m as int))
  {
    DigitsRoundTrip(lib, m);
    assert ("-" + Digits(m))[1..] == Digits(m);
  }

  lemma StripAround(pad1: string, s: string, pad2: string)
    requires AllIntSpace(pad1) && AllIntSpace(pad2)
    requires s != [] && !IsIntSpace(s[0]) && !IsIntSpace(s[|s| - 1])
    ensures IntStrip(pad1 + s + pad2) == s
  {
    var x := pad1 + s + pad2;
    var m := |pad1| + |s|;
    assert forall k :: 0 <= k < |pad1| ==> x[k] == pad1[k];
    assert forall k :: m <= k < |x| ==> x[k] == pad2[k - m];
    assert x[|pad1|] == s[0] && x[m - 1] == s[|s| - 1];
    var i := SpaceStart(x, 0, IntBlanks);
    assert i == |pad1|;
    assert SpaceEnd(x, i, |x|, IntBlanks) == m;
    assert x[|pad1|..m] == s;
  }

  /** Text holding an ASCII character that is neither a digit, a sign, an
      underscore nor white space int() skips is not a number. */
  lemma NonNumericText(lib: PyLibrary, s: string, k: nat)
    requires k < |s| && s[k] as int < 0x80
    requires !('0' <= s[k] <= '9') && s[k] != '+' && s[k] != '-' && s[k] != '_' && !IsIntSpace(s[k])
    ensures ParseInt(lib, s) == None
  {
    var pre, post := IntStripParts(s);
    var t := IntStrip(s);
    assert |pre| <= k < |pre| + |t|;
    var j := k - |pre|;
    assert t[j] == s[k];
    assert !IsDigit(lib, t[j]) && t[j] != '_';
    if |t| > 0 && (t[0] == '+' || t[0] == '-') {
      assert j >= 1 && t[1..][j - 1] == t[j];
    }
  }

  /** The information separators U+001C to U+001F are white space to
      strip() but not to int(): text holding one is not a number. */
  lemma SeparatorRefused(lib: PyLibrary, s: string, k: nat)
    requires k < |s| && 0x1C <= s[k] as int <= 0x1F
    ensures IsSpace(s[k])
    ensures ParseInt(lib, s) == None
  {
    NonNumericText(lib, s, k);
  }

  /** "\x1c1" strips to "1", yet int() refuses it. */
  lemma SeparatorPaddedOne(lib: PyLibrary)
    ensures Strip("\U{1C}1") == "1"
    ensures ParseInt(lib, "\U{1C}1") == None
  {
    StripOfWord("1");
    assert SpaceStart("\U{1C}1", 0, StripBlanks) == 1;
    assert "\U{1C}1"[1..2] == "1";
    SeparatorRefused(lib, "\U{1C}1", 0);
  }
}

=== FILE: ranking.dfy ===
/**
 * Ordering the scored candidates: `usort` by descending score followed by
 * `array_slice($candidates, 0, 5)`.  The sort here is a stable insertion
 * sort, as PHP 8's usort is: candidates with equal scores keep the order of
 * the guest list.
 */
module Ranking {
  import opened Guests

  /** A guest that reached the threshold, with its score and whether an
      RSVP for its id already exists. */
  datatype Candidate = Candidate(guest: Guest, score: int, alreadySubmitted: bool)

  const MaxCandidates := 5

  predicate SortedByScore(s: seq<Candidate>) {
    forall i, j :: 0 <= i < j < |s| ==> s[i].score >= s[j].score
  }

  /** Places `c` after every element scoring strictly more. */
  function Insert(c: Candidate, s: seq<Candidate>): (r: seq<Candidate>)
    requires SortedByScore(s)
    ensures SortedByScore(r)
    ensures multiset(r) == multiset(s) + multiset{c}
    decreases |s|
  {
    if |s| == 0 then [c]
    else if s[0].score > c.score then
      var rest := Insert(c, s[1..]);
      HeadDominates(s[0], s[1..], c, rest);
      assert s == [s[0]] + s[1..];
      [s[0]] + rest
    else
      HeadDominates(c, s, c, s);
      [c] + s
  }

  lemma HeadDominates(h: Candidate, tail: seq<Candidate>, c: Candidate, rest: seq<Candidate>)
    requires SortedByScore(rest)
    requires forall y :: y in tail ==> h.score >= y.score
    requires h.score >= c.score
    requires multiset(rest) <= multiset(tail) + multiset{c}
    ensures SortedByScore([h] + rest)
  {
    forall y | y in rest
      ensures h.score >= y.score
    {
      assert y in multiset(rest);
    }
  }

  /** The candidates in non-increasing score order, as a permutation of the input. */
  function SortByScore(s: seq<Candidate>): (r: seq<Candidate>)
    ensures SortedByScore(r)
    ensures multiset(r) == multiset(s)
    decreases |s|
  {
    if |s| == 0 then []
    else
      var sorted := SortByScore(s[1..]);
      var r := Insert(s[0], sorted);
      assert s == [s[0]] + s[1..];
      assert multiset(s) == multiset{s[0]} + multiset(s[1..]);
      r
  }

  /** The sorted candidates cut to the first five. */
  function Top(s: seq<Candidate>): (r: seq<Candidate>)
    ensures |r| == if |s| < MaxCandidates then |s| else MaxCandidates
    ensures SortedByScore(r)
    ensures multiset(r) <= multiset(s)
  {
    var sorted := SortByScore(s);
    var k := if |sorted| < MaxCandidates then |sorted| else MaxCandidates;
    assert |sorted| == |multiset(sorted)| == |multiset(s)| == |s|;
    assert sorted == sorted[..k] + sorted[k..];
    sorted[..k]
  }

  /** What the cut keeps scores at least as much as everything it drops. */
  lemma TopKeepsBest(s: seq<Candidate>)
    ensures forall x, y :: x in Top(s) && y in multiset(s) - multiset(Top(s)) ==> x.score >= y.score
  {
    var sorted := SortByScore(s);
    var k := if |sorted| < MaxCandidates then |sorted| else MaxCandidates;
    assert Top(s) == sorted[..k];
    SortedPrefixDominates(sorted, k);
    assert multiset(s) - multiset(Top(s)) == multiset(sorted) - multiset(sorted[..k]);
  }

  lemma SortedPrefixDominates(sorted: seq<Candidate>, k: nat)
    requires SortedByScore(sorted) && k <= |sorted|
    ensures multiset(sorted) - multiset(sorted[..k]) == multiset(sorted[k..])
    ensures forall x, y :: x in sorted[..k] && y in multiset(sorted) - multiset(sorted[..k]) ==> x.score >= y.score
  {
    assert sorted == sorted[..k] + sorted[k..];
    forall x, y | x in sorted[..k] && y in multiset(sorted[k..])
      ensures x.score >= y.score
    {
      var i :| 0 <= i < k && sorted[i] == x;
      assert y in sorted[k..];
      var j :| k <= j < |sorted| && sorted[j] == y;
    }
  }
}

=== FILE: rate_limit.dfy ===
/**
 * The per-client, per-endpoint sliding window both endpoints keep in a
 * side file: drop timestamps a minute old or older, refuse when the rest
 * already reaches the limit (leaving the file as it was), otherwise record
 * the current request.
 */
module RateLimit {

  const WindowSeconds := 60
  const DefaultLookupLimit := 10   // `lookup_rpm ?? 10`
  const DefaultSubmitLimit := 5    // `submit_rpm ?? 5`

  /** What the step stores: the new window, or the untouched old one. */
  datatype Decision = Allowed(window: seq<int>) | Rejected(window: seq<int>)

  /** array_values(array_filter(...)): the timestamps less than a minute old, in order. */
  function Prune(w: seq<int>, now: int): (r: seq<int>)
    ensures |r| <= |w|
    ensures forall i :: 0 <= i < |r| ==> now - r[i] < WindowSeconds
    ensures forall x :: x in r <==> x in w && now - x < WindowSeconds
    decreases |w|
  {
    if |w| == 0 then []
    else
      var init, ts := w[..|w| - 1], w[|w| - 1];
      assert w == init + [ts];
      Prune(init, now) + (if now - ts < WindowSeconds then [ts] else [])
  }

  /** One request at time `now` against the stored window `w`. */
  function Step(w: seq<int>, now: int, limit: int): (d: Decision)
    ensures d.Rejected? <==> |Prune(w, now)| >= limit
    ensures d.Rejected? ==> d.window == w
    ensures d.Allowed? ==> d.window == Prune(w, now) + [now] && |d.window| <= limit
  {
    var kept := Prune(w, now);
    if |kept| >= limit then Rejected(w) else Allowed(kept + [now])
  }

  lemma {:induction false} PruneAppend(a: seq<int>, b: seq<int>, now: int)
    ensures Prune(a + b, now) == Prune(a, now) + Prune(b, now)
    decreases |b|
  {
    if |b| == 0 {
      assert a + b == a;
    } else {
      var init := b[..|b| - 1];
      assert (a + b)[..|a + b| - 1] == a + init;
      PruneAppend(a, init, now);
    }
  }

  /** Pruning at an earlier time and then at a later one is pruning at the later one. */
  lemma {:induction false} PruneLater(w: seq<int>, earlier: int, later: int)
    requires earlier <= later
    ensures Prune(Prune(w, earlier), later) == Prune(w, later)
    decreases |w|
  {
    if |w| > 0 {
      var init, ts := w[..|w| - 1], w[|w| - 1];
      PruneLater(init, earlier, later);
      PruneAppend(Prune(init, earlier), if earlier - ts < WindowSeconds then [ts] else [], later);
    }
  }

  /** A full window refuses the request and stores nothing new. */
  lemma FullWindowRejects(w: seq<int>, now: int, limit: int)
    requires limit <= |w|
    requires forall i :: 0 <= i < |w| ==> now - w[i] < WindowSeconds
    ensures Step(w, now, limit) == Rejected(w)
  {
    assert forall x :: x in w ==> x in Prune(w, now);
    PruneKeepsRecent(w, now);
  }

  lemma {:induction false} PruneKeepsRecent(w: seq<int>, now: int)
    requires forall i :: 0 <= i < |w| ==> now - w[i] < WindowSeconds
    ensures Prune(w, now) == w
    decreases |w|
  {
    if |w| > 0 {
      PruneKeepsRecent(w[..|w| - 1], now);
      assert w == w[..|w| - 1] + [w[|w| - 1]];
    }
  }

  /** Once every stored timestamp is a minute old, a request is let through
      and becomes the only entry. */
  lemma StaleWindowAllows(w: seq<int>, now: int, limit: int)
    requires limit >= 1
    requires forall i :: 0 <= i < |w| ==> now - w[i] >= WindowSeconds
    ensures Step(w, now, limit) == Allowed([now])
  {
    PruneDropsStale(w, now);
  }

  lemma {:induction false} PruneDropsStale(w: seq<int>, now: int)
    requires forall i :: 0 <= i < |w| ==> now - w[i] >= WindowSeconds
    ensures Prune(w, now) == []
    decreases |w|
  {
    if |w| > 0 {
      PruneDropsStale(w[..|w| - 1], now);
    }
  }

  // ---------------------------------------------------------------------
  // Many requests from one client
  // ---------------------------------------------------------------------

  /** The stored window and every request let through so far. */
  datatype History = History(window: seq<int>, accepted: seq<int>)

  /** Requests at the given times, from an empty window. */
  function Run(times: seq<int>, limit: int): History
    decreases |times|
  {
    if |times| == 0 then History([], [])
    else
      var h := Run(times[..|times| - 1], limit);
      var t := times[|times| - 1];
      match Step(h.window, t, limit)
      case Allowed(w) => History(w, h.accepted + [t])
      case Rejected(w) => History(w, h.accepted)
  }

  predicate Nondecreasing(times: seq<int>) {
    forall i, j :: 0 <= i < j < |times| ==> times[i] <= times[j]
  }

  /** Pruned at any time from the last request on, the stored window holds
      exactly the accepted requests of the last minute. */
  lemma {:induction false} WindowTracksAccepted(times: seq<int>, limit: int, t: int)
    requires Nondecreasing(times)
    requires forall i :: 0 <= i < |times| ==> times[i] <= t
    ensures Prune(Run(times, limit).window, t) == Prune(Run(times, limit).accepted, t)
    decreases |times|
  {
    if |times| > 0 {
      var init, last := times[..|times| - 1], times[|times| - 1];
      var h := Run(init, limit);
      WindowTracksAccepted(init, limit, t);
      if Step(h.window, last, limit).Allowed? {
        calc {
          Prune(Prune(h.window, last) + [last], t);
          { PruneAppend(Prune(h.window, last), [last], t); }
          Prune(Prune(h.window, last), t) + Prune([last], t);
          { PruneLater(h.window, last, t); }
          Prune(h.window, t) + Prune([last], t);
          Prune(h.accepted, t) + Prune([last], t);
          { PruneAppend(h.accepted, [last], t); }
          Prune(h.accepted + [last], t);
        }
      }
    }
  }

  /** The limiter's guarantee: counting back a minute from any request, at
      most `limit` requests were let through. */
  lemma {:induction false} AcceptedPerMinuteBounded(times: seq<int>, limit: int)
    requires Nondecreasing(times) && |times| > 0 && limit >= 0
    ensures |Prune(Run(times, limit).accepted, times[|times| - 1])| <= limit
    decreases |times|
  {
    var init, t := times[..|times| - 1], times[|times| - 1];
    var h := Run(init, limit);
    WindowTracksAccepted(init, limit, t);
    if Step(h.window, t, limit).Allowed? {
      PruneAppend(h.accepted, [t], t);
    } else if |init| > 0 {
      var prev := init[|init| - 1];
      AcceptedPerMinuteBounded(init, limit);
      PruneLater(h.accepted, prev, t);
    }
  }
}

=== FILE: rsvp_store.dfy ===
/**
 * The submission endpoint after authorisation: validate the body, find the
 * guest, refuse a second RSVP for the same guest, otherwise append one
 * record to rsvps.json.  The file's contents are `None` when they do not
 * decode to a non-empty list (`json_decode(...) ?: []`), and the clock's
 * `date('c')` string is a parameter.
 */
module RsvpStore {
  import opened Options
  import opened Php
  import opened Guests

  datatype Rsvp = Rsvp(
    guestId: int,
    guestName: Bytes,
    attendingWedding: bool,
    attendingPreWedding: bool,
    plusOneComing: bool,
    plusOneName: Bytes,
    submittedAt: Bytes
  )

  /** The decoded request body; `guestId` is `intval` of the field when present. */
  datatype SubmitInput = SubmitInput(
    guestId: Option<int>,
    attendingWedding: bool,
    attendingPreWedding: bool,
    plusOneComing: bool,
    plusOneName: Bytes
  )

  datatype SubmitError =
    | InvalidSubmission     // 400: no usable guest id
    | InvalidPlusOneName    // 400
    | GuestNotFound         // 400
    | AlreadySubmitted      // 409

  datatype Outcome = Success | Failure(error: SubmitError)

  /** The response and what rsvps.json holds afterwards. */
  datatype Submission = Submission(outcome: Outcome, file: Option<seq<Rsvp>>)

  /** The records the endpoints read from the file. */
  function Records(file: Option<seq<Rsvp>>): seq<Rsvp> {
    file.GetOr([])
  }

  function SubmittedIds(rsvps: seq<Rsvp>): (ids: set<int>)
    ensures forall id :: id in ids <==> exists i :: 0 <= i < |rsvps| && rsvps[i].guestId == id
    decreases |rsvps|
  {
    if |rsvps| == 0 then {}
    else
      var init := rsvps[..|rsvps| - 1];
      assert forall i :: 0 <= i < |init| ==> init[i] == rsvps[i];
      SubmittedIds(init) + {rsvps[|rsvps| - 1].guestId}
  }

  /** At most one record per guest. */
  predicate UniqueIds(rsvps: seq<Rsvp>) {
    forall i, j :: 0 <= i < j < |rsvps| ==> rsvps[i].guestId != rsvps[j].guestId
  }

  /** Every record belongs to a guest on the list. */
  predicate KnownGuests(rsvps: seq<Rsvp>, guests: seq<Guest>) {
    forall i :: 0 <= i < |rsvps| ==> HasId(guests, rsvps[i].guestId)
  }

  /** The plus-one guard as written: the `$plusOneName &&` test lets the
      falsy name "0" skip the pattern. */
  predicate PlusOneNameOkAsWritten(lib: Library, name: Bytes) {
    !Truthy(name) || MatchesNamePattern(lib, name)
  }

  /** The plus-one guard as intended: any provided (non-empty) name must
      match the name pattern. */
  predicate PlusOneNameOk(lib: Library, name: Bytes) {
    name == [] || MatchesNamePattern(lib, name)
  }

  function RecordOf(g: Guest, input: SubmitInput, plusOneName: Bytes, submittedAt: Bytes): Rsvp {
    Rsvp(g.id, g.name, input.attendingWedding, input.attendingPreWedding, input.plusOneComing,
         if input.plusOneComing then plusOneName else [], submittedAt)
  }

  /** The handler with the intended plus-one guard (see `SubmitAsWritten`
      for the guard the code has). */
  function Submit(lib: Library, input: SubmitInput, guests: seq<Guest>,
                  file: Option<seq<Rsvp>>, submittedAt: Bytes): Submission
  {
    Process(input, guests, file, CleanPlusOne(lib, input),
            PlusOneNameOk(lib, CleanPlusOne(lib, input)), submittedAt)
  }

  /** The handler as written, whose plus-one guard lets the name "0" through. */
  function SubmitAsWritten(lib: Library, input: SubmitInput, guests: seq<Guest>,
                           file: Option<seq<Rsvp>>, submittedAt: Bytes): Submission
  {
    Process(input, guests, file, CleanPlusOne(lib, input),
            PlusOneNameOkAsWritten(lib, CleanPlusOne(lib, input)), submittedAt)
  }

  /** The handler's checks in order, given the cleaned plus-one name and the
      verdict of the plus-one guard on it. */
  function Process(input: SubmitInput, guests: seq<Guest>, file: Option<seq<Rsvp>>,
                   plusOneName: Bytes, nameOk: bool, submittedAt: Bytes): Submission
  {
    if input.guestId.None? || input.guestId.value == 0 then Submission(Failure(InvalidSubmission), file)
    else if !nameOk then Submission(Failure(InvalidPlusOneName), file)
    else
      var id := input.guestId.value;
      match FindById(guests, id)
      case None => Submission(Failure(GuestNotFound), file)
      case Some(g) =>
        var rsvps := Records(file);
        if id in SubmittedIds(rsvps) then Submission(Failure(AlreadySubmitted), file)
        else Submission(Success, Some(rsvps + [RecordOf(g, input, plusOneName, submittedAt)]))
  }

  /** The plus-one name as stored: tags stripped, trimmed. */
  function CleanPlusOne(lib: Library, input: SubmitInput): Bytes {
    Trim(lib.stripTags(input.plusOneName))
  }

  /** A submission succeeds exactly when the id is present and non-zero, the
      cleaned plus-one name is empty or a valid name, the guest exists and
      has no RSVP yet; every failure leaves the file as it was. */
  lemma SubmitSucceedsIff(lib: Library, input: SubmitInput, guests: seq<Guest>,
                          file: Option<seq<Rsvp>>, submittedAt: Bytes)
    ensures Submit(lib, input, guests, file, submittedAt).outcome == Success <==>
              input.guestId.Some? && input.guestId.value != 0
              && PlusOneNameOk(lib, CleanPlusOne(lib, input))
              && HasId(guests, input.guestId.value)
              && forall i :: 0 <= i < |Records(file)| ==> Records(file)[i].guestId != input.guestId.value
    ensures Submit(lib, input, guests, file, submittedAt).outcome != Success ==>
              Submit(lib, input, guests, file, submittedAt).file == file
  {
    if input.guestId.Some? && input.guestId.value != 0 {
      FindByIdFinds(guests, input.guestId.value);
    }
  }

  /** On success the new file is the old records plus the record built
      from the guest the id finds. */
  lemma SuccessShape(lib: Library, input: SubmitInput, guests: seq<Guest>,
                     file: Option<seq<Rsvp>>, submittedAt: Bytes)
    requires Submit(lib, input, guests, file, submittedAt).outcome == Success
    ensures input.guestId.Some? && FindById(guests, input.guestId.value).Some?
    ensures Submit(lib, input, guests, file, submittedAt).file ==
              Some(Records(file) + [RecordOf(FindById(guests, input.guestId.value).value, input,
                                              CleanPlusOne(lib, input), submittedAt)])
    ensures input.guestId.value !in SubmittedIds(Records(file))
  {
  }

  /** A successful submission appends one record for the guest found by id,
      carrying the guest's own name and the plus-one name only when the
      plus-one comes; the earlier records are kept as they were. */
  lemma SuccessAppendsOneRecord(lib: Library, input: SubmitInput, guests: seq<Guest>,
                                file: Option<seq<Rsvp>>, submittedAt: Bytes)
    requires Submit(lib, input, guests, file, submittedAt).outcome == Success
    ensures var after := Submit(lib, input, guests, file, submittedAt).file;
            after.Some? && |after.value| == |Records(file)| + 1
            && after.value[..|Records(file)|] == Records(file)
            && var r := after.value[|Records(file)|];
               r.guestId == input.guestId.value
               && r.guestName == FindById(guests, input.guestId.value).value.name
               && FindById(guests, input.guestId.value).value in guests
               && r.attendingWedding == input.attendingWedding
               && r.attendingPreWedding == input.attendingPreWedding
               && r.plusOneComing == input.plusOneComing
               && r.plusOneName == (if input.plusOneComing then CleanPlusOne(lib, input) else [])
               && r.submittedAt == submittedAt
  {
    SuccessShape(lib, input, guests, file, submittedAt);
    FindByIdFinds(guests, input.guestId.value);
    var before := Records(file);
    var after := before + [RecordOf(FindById(guests, input.guestId.value).value, input,
                                    CleanPlusOne(lib, input), submittedAt)];
    assert after[..|before|] == before;
  }

  lemma AppendKeepsInvariant(before: seq<Rsvp>, r: Rsvp, guests: seq<Guest>)
    requires UniqueIds(before) && KnownGuests(before, guests)
    requires r.guestId !in SubmittedIds(before) && HasId(guests, r.guestId)
    ensures UniqueIds(before + [r]) && KnownGuests(before + [r], guests)
  {
    var after := before + [r];
    assert forall i :: 0 <= i < |before| ==> after[i] == before[i];
  }

  /** The store keeps at most one record per guest, each for a listed guest. */
  lemma SubmitPreservesStoreInvariant(lib: Library, input: SubmitInput, guests: seq<Guest>,
                                      file: Option<seq<Rsvp>>, submittedAt: Bytes)
    requires UniqueIds(Records(file)) && KnownGuests(Records(file), guests)
    ensures var after := Records(Submit(lib, input, guests, file, submittedAt).file);
            UniqueIds(after) && KnownGuests(after, guests)
  {
    var s := Submit(lib, input, guests, file, submittedAt);
    if s.outcome == Success {
      SuccessShape(lib, input, guests, file, submittedAt);
      var id := input.guestId.value;
      FindByIdFinds(guests, id);
      var g := FindById(guests, id).value;
      AppendKeepsInvariant(Records(file), RecordOf(g, input, CleanPlusOne(lib, input), submittedAt), guests);
    } else {
      SubmitSucceedsIff(lib, input, guests, file, submittedAt);
    }
  }

  /** Whatever else the request says, a guest with a stored RSVP is refused
      with 409 and the file is not touched. */
  lemma DuplicateRefused(lib: Library, input: SubmitInput, guests: seq<Guest>,
                         file: Option<seq<Rsvp>>, submittedAt: Bytes)
    requires input.guestId.Some? && input.guestId.value != 0
    requires PlusOneNameOk(lib, CleanPlusOne(lib, input))
    requires HasId(guests, input.guestId.value)
    requires input.guestId.value in SubmittedIds(Records(file))
    ensures Submit(lib, input, guests, file, submittedAt) == Submission(Failure(AlreadySubmitted), file)
  {
    FindByIdFinds(guests, input.guestId.value);
  }

  /** Submitting twice for the same guest: the second attempt is refused and
      the file keeps exactly the first record. */
  lemma SecondSubmissionConflicts(lib: Library, first: SubmitInput, second: SubmitInput,
                                  guests: seq<Guest>, file: Option<seq<Rsvp>>, t1: Bytes, t2: Bytes)
    requires Submit(lib, first, guests, file, t1).outcome == Success
    requires second.guestId == first.guestId
    requires PlusOneNameOk(lib, CleanPlusOne(lib, second))
    ensures var after := Submit(lib, first, guests, file, t1).file;
            Submit(lib, second, guests, after, t2) == Submission(Failure(AlreadySubmitted), after)
  {
    SubmitSucceedsIff(lib, first, guests, file, t1);
    SuccessAppendsOneRecord(lib, first, guests, file, t1);
    var after := Submit(lib, first, guests, file, t1).file;
    assert Records(after)[|Records(file)|].guestId == first.guestId.value;
    DuplicateRefused(lib, second, guests, after, t2);
  }

  /** The server reads nothing of the guest but its id and name: it does not
      enforce the plus-one allowance, the pre-wedding invitation or the
      headcount.  Guest lists that agree on ids and names give the same
      outcome and the same file. */
  lemma OnlyIdAndNameMatter(lib: Library, input: SubmitInput, guests: seq<Guest>, other: seq<Guest>,
                            file: Option<seq<Rsvp>>, submittedAt: Bytes)
    requires |other| == |guests|
    requires forall i :: 0 <= i < |guests| ==> other[i].id == guests[i].id && other[i].name == guests[i].name
    ensures Submit(lib, input, other, file, submittedAt) == Submit(lib, input, guests, file, submittedAt)
  {
    if input.guestId.Some? {
      var id := input.guestId.value;
      SameIdsSameFind(guests, other, id);
      if FindById(guests, id).Some? {
        var g, h := FindById(guests, id).value, FindById(other, id).value;
        assert RecordOf(g, input, CleanPlusOne(lib, input), submittedAt)
            == RecordOf(h, input, CleanPlusOne(lib, input), submittedAt);
      }
    }
  }

  lemma {:induction false} SameIdsSameFind(a: seq<Guest>, b: seq<Guest>, id: int)
    requires |a| == |b|
    requires forall i :: 0 <= i < |a| ==> a[i].id == b[i].id && a[i].name == b[i].name
    ensures FindById(a, id).Some? <==> FindById(b, id).Some?
    ensures FindById(a, id).Some? ==>
              FindById(a, id).value.id == FindById(b, id).value.id
              && FindById(a, id).value.name == FindById(b, id).value.name
    decreases |a|
  {
    if |a| > 0 && a[0].id != id {
      SameIdsSameFind(a[1..], b[1..], id);
      assert FindById(a, id) == FindById(a[1..], id);
      assert FindById(b, id) == FindById(b[1..], id);
    }
  }

  // ---------------------------------------------------------------------
  // The "0" plus-one name
  // ---------------------------------------------------------------------

  /** The plus-one name "0" is not a name, yet the guard as written lets it
      through; the intended guard refuses it. */
  lemma ZeroPlusOneNameSlipsThrough(lib: Library)
    ensures PlusOneNameOkAsWritten(lib, [Zero])
    ensures !PlusOneNameOk(lib, [Zero])
  {
    AsciiDigitFailsNamePattern(lib, [Zero], 0);
  }

  /** The two guards disagree on no other name. */
  lemma PlusOneGuardsAgreeExceptZero(lib: Library, name: Bytes)
    requires name != [Zero]
    ensures PlusOneNameOkAsWritten(lib, name) <==> PlusOneNameOk(lib, name)
  {
  }

  /** As written, a submission succeeds exactly when the id is present and
      non-zero, the cleaned plus-one name is falsy or a valid name, the guest
      exists and has no RSVP yet; every failure leaves the file as it was. */
  lemma SubmitAsWrittenSucceedsIff(lib: Library, input: SubmitInput, guests: seq<Guest>,
                                   file: Option<seq<Rsvp>>, submittedAt: Bytes)
    ensures SubmitAsWritten(lib, input, guests, file, submittedAt).outcome == Success <==>
              input.guestId.Some? && input.guestId.value != 0
              && PlusOneNameOkAsWritten(lib, CleanPlusOne(lib, input))
              && HasId(guests, input.guestId.value)
              && forall i :: 0 <= i < |Records(file)| ==> Records(file)[i].guestId != input.guestId.value
    ensures SubmitAsWritten(lib, input, guests, file, submittedAt).outcome != Success ==>
              SubmitAsWritten(lib, input, guests, file, submittedAt).file == file
  {
    if input.guestId.Some? && input.guestId.value != 0 {
      FindByIdFinds(guests, input.guestId.value);
    }
  }

  /** The handler as written and as intended differ only when the cleaned
      plus-one name is "0". */
  lemma SubmitAsWrittenAgrees(lib: Library, input: SubmitInput, guests: seq<Guest>,
                              file: Option<seq<Rsvp>>, submittedAt: Bytes)
    requires CleanPlusOne(lib, input) != [Zero]
    ensures SubmitAsWritten(lib, input, guests, file, submittedAt) == Submit(lib, input, guests, file, submittedAt)
  {
    PlusOneGuardsAgreeExceptZero(lib, CleanPlusOne(lib, input));
  }

  /** A new RSVP whose plus-one name cleans to "0" is stored with that name
      by the handler as written, and refused with 400 as intended. */
  lemma ZeroPlusOneNameStored(lib: Library, input: SubmitInput, guests: seq<Guest>,
                              file: Option<seq<Rsvp>>, submittedAt: Bytes)
    requires input.guestId.Some? && input.guestId.value != 0
    requires HasId(guests, input.guestId.value)
    requires input.guestId.value !in SubmittedIds(Records(file))
    requires input.plusOneComing && CleanPlusOne(lib, input) == [Zero]
    ensures Submit(lib, input, guests, file, submittedAt) == Submission(Failure(InvalidPlusOneName), file)
    ensures var after := SubmitAsWritten(lib, input, guests, file, submittedAt);
            after.outcome == Success && after.file.Some?
            && |after.file.value| == |Records(file)| + 1
            && after.file.value[|Records(file)|].plusOneName == [Zero]
  {
    ZeroPlusOneNameSlipsThrough(lib);
    FindByIdFinds(guests, input.guestId.value);
  }

  /** As written too, a guest with a stored RSVP is refused with 409 and the
      file is not touched, once the plus-one guard as written passes. */
  lemma DuplicateRefusedAsWritten(lib: Library, input: SubmitInput, guests: seq<Guest>,
                                  file: Option<seq<Rsvp>>, submittedAt: Bytes)
    requires input.guestId.Some? && input.guestId.value != 0
    requires PlusOneNameOkAsWritten(lib, CleanPlusOne(lib, input))
    requires HasId(guests, input.guestId.value)
    requires input.guestId.value in SubmittedIds(Records(file))
    ensures SubmitAsWritten(lib, input, guests, file, submittedAt)
              == Submission(Failure(AlreadySubmitted), file)
  {
    FindByIdFinds(guests, input.guestId.value);
  }

  /** As written too, the store keeps at most one record per guest, each for
      a listed guest. */
  lemma SubmitAsWrittenPreservesStoreInvariant(lib: Library, input: SubmitInput, guests: seq<Guest>,
                                               file: Option<seq<Rsvp>>, submittedAt: Bytes)
    requires UniqueIds(Records(file)) && KnownGuests(Records(file), guests)
    ensures var after := Records(SubmitAsWritten(lib, input, guests, file, submittedAt).file);
            UniqueIds(after) && KnownGuests(after, guests)
  {
    var s := SubmitAsWritten(lib, input, guests, file, submittedAt);
    if s.outcome == Success {
      var id := input.guestId.value;
      FindByIdFinds(guests, id);
      var g := FindById(guests, id).value;
      AppendKeepsInvariant(Records(file), RecordOf(g, input, CleanPlusOne(lib, input), submittedAt), guests);
    }
  }
}

=== FILE: search_properties.dfy ===
/**
 * What the guest search promises: the exact pass wins and stops the search,
 * the validation rejects before any matching, the ranges and conditions of
 * every score signal, the shape of the answer after scoring, and the direct
 * lookup by id.
 */
module SearchProperties {
  import opened Options
  import opened Php
  import opened Levenshtein
  import opened Guests
  import opened Ranking
  import opened Matcher

  // ---------------------------------------------------------------------
  // Exact pass
  // ---------------------------------------------------------------------

  /** The first guest whose lower-case name is the query decides the answer:
      that guest, or the conflict notice when its id has an RSVP. */
  lemma ExactMatchShortCircuits(lib: Library, q: Query, guests: seq<Guest>, submitted: set<int>, k: nat)
    requires k < |guests| && guests[k].nameLower == q.lower
    requires forall j :: 0 <= j < k ==> guests[j].nameLower != q.lower
    ensures Match(lib, q, guests, submitted)
         == if guests[k].id in submitted then AlreadySubmitted(guests[k].name) else GuestFound(guests[k])
  {
    FirstIsEarliest(guests, (g: Guest) => g.nameLower == q.lower, k);
  }

  /** The scoring pass only runs when no guest's lower-case name is the query,
      so no guest then earns the full-name bonus for distance zero. */
  lemma ScoringPassHasNoExactName(lib: Library, q: Query, guests: seq<Guest>, submitted: set<int>, g: Guest)
    requires FindByNameLower(guests, q.lower).None?
    requires g in guests
    ensures Match(lib, q, guests, submitted) == Resolve(Top(Qualifying(lib, q, guests, submitted)))
    ensures g.nameLower != q.lower
    ensures SignalsOf(lib, q, g).fullEdit <= 15
  {
    ExactPassMissMeansNoEqualName(guests, q.lower, g);
    DistanceZeroIffEqual(q.lower, g.nameLower);
  }

  /** Searching a guest's own lower-case name in a list without repeated
      lower-case names returns that guest (or its conflict notice). */
  lemma SearchingOwnNameFindsGuest(lib: Library, raw: Bytes, guests: seq<Guest>, submitted: set<int>, k: nat)
    requires DistinctNameLower(guests) && k < |guests|
    requires !BadLength(Trim(raw))
    requires MatchesNamePattern(lib, lib.stripTags(Trim(raw)))
    requires lib.lower(lib.stripTags(Trim(raw))) == guests[k].nameLower
    ensures SearchByName(lib, raw, guests, submitted)
         == if guests[k].id in submitted then AlreadySubmitted(guests[k].name) else GuestFound(guests[k])
  {
    ExactPassFindsUniqueGuest(guests, k);
  }

  // ---------------------------------------------------------------------
  // Validation of the typed name
  // ---------------------------------------------------------------------

  lemma MatchNeverInvalid(lib: Library, q: Query, guests: seq<Guest>, submitted: set<int>)
    ensures Match(lib, q, guests, submitted) != InvalidName
  {
  }

  /** A name is refused with 400 exactly when its trimmed form has a bad
      length or, after strip_tags, fails the name pattern; the guest list
      and the RSVPs play no part in that decision. */
  lemma NameValidation(lib: Library, raw: Bytes, guests: seq<Guest>, submitted: set<int>)
    ensures SearchByName(lib, raw, guests, submitted) == InvalidName
        <==> BadLength(Trim(raw)) || !MatchesNamePattern(lib, lib.stripTags(Trim(raw)))
  {
    var name := Trim(raw);
    if !BadLength(name) && MatchesNamePattern(lib, lib.stripTags(name)) {
      MatchNeverInvalid(lib, QueryOf(lib, lib.stripTags(name)), guests, submitted);
    }
  }

  /** A query that, once tags are stripped, is ASCII holding a digit is refused. */
  lemma DigitQueryRejected(lib: Library, raw: Bytes, guests: seq<Guest>, submitted: set<int>, k: nat)
    requires var c := lib.stripTags(Trim(raw));
             (forall j :: 0 <= j < |c| ==> c[j] < 0x80) && k < |c| && 0x30 <= c[k] <= 0x39
    ensures SearchByName(lib, raw, guests, submitted) == InvalidName
  {
    AsciiDigitFailsNamePattern(lib, lib.stripTags(Trim(raw)), k);
  }

  // ---------------------------------------------------------------------
  // The signals of the score
  // ---------------------------------------------------------------------

  /** The range of each signal and when it fires. */
  lemma SignalRanges(lib: Library, q: Query, g: Guest)
    ensures var s := SignalsOf(lib, q, g);
            var gParts := GuestParts(g);
            var gLast := gParts[|gParts| - 1];
            && (s.substring == 40 <==> Contains(g.nameLower, q.lower) || Contains(q.lower, g.nameLower))
            && (s.substring == 0 || s.substring == 40)
            && (s.firstCode == 30 <==> q.firstCode != [] && lib.metaphone(gParts[0]) == q.firstCode)
            && (s.firstCode == 0 || s.firstCode == 30)
            && (s.lastCode == 30 <==> q.lastCode != [] && lib.metaphone(gLast) == q.lastCode)
            && (s.lastCode == 0 || s.lastCode == 30)
            && (s.firstEdit == 0 || s.firstEdit == 10 || s.firstEdit == 20 || s.firstEdit == 30)
            && (s.firstEdit > 0 <==> Distance(q.first, gParts[0]) <= 2)
            && (s.firstEdit == 30 <==> q.first == gParts[0])
            && (s.lastEdit == 0 || s.lastEdit == 10 || s.lastEdit == 20 || s.lastEdit == 30)
            && (s.lastEdit > 0 <==> |q.parts| > 1 && Distance(q.last, gLast) <= 2)
            && (s.lastEdit == 30 <==> |q.parts| > 1 && q.last == gLast)
            && (s.fullEdit == 0 || s.fullEdit == 5 || s.fullEdit == 10 || s.fullEdit == 15 || s.fullEdit == 20)
            && (s.fullEdit > 0 <==> Distance(q.lower, g.nameLower) <= 3)
            && (s.fullEdit == 20 <==> q.lower == g.nameLower)
  {
    var gParts := GuestParts(g);
    var s := SignalsOf(lib, q, g);
    assert s.firstEdit == TokenEditBonus(Distance(q.first, gParts[0]));
    assert s.fullEdit == FullEditBonus(Distance(q.lower, g.nameLower));
    TokenEditValues(Distance(q.first, gParts[0]));
    FullEditValues(Distance(q.lower, g.nameLower));
    if |q.parts| > 1 {
      TokenEditValues(Distance(q.last, gParts[|gParts| - 1]));
      DistanceZeroIffEqual(q.last, gParts[|gParts| - 1]);
    }
    DistanceZeroIffEqual(q.first, gParts[0]);
    DistanceZeroIffEqual(q.lower, g.nameLower);
  }

  lemma TokenEditValues(d: nat)
    ensures var b := TokenEditBonus(d);
            && (b == 0 || b == 10 || b == 20 || b == 30)
            && (b > 0 <==> d <= 2) && (b == 30 <==> d == 0)
  {
  }

  lemma FullEditValues(d: nat)
    ensures var b := FullEditBonus(d);
            && (b == 0 || b == 5 || b == 10 || b == 15 || b == 20)
            && (b > 0 <==> d <= 3) && (b == 20 <==> d == 0)
  {
  }

  /** A single-token query gets nothing from the last-name signals. */
  lemma SingleTokenIgnoresLastName(lib: Library, name: Bytes, g: Guest)
    requires NoSpace(lib.lower(name))
    ensures |QueryOf(lib, name).parts| == 1
    ensures SignalsOf(lib, QueryOf(lib, name), g).lastCode == 0
    ensures SignalsOf(lib, QueryOf(lib, name), g).lastEdit == 0
  {
    SingleWordIffNoSpace(lib.lower(name));
  }

  /** The index pairs (query token, guest token) with the query token of
      three bytes or more starting the guest token. */
  function PrefixPairs(qParts: seq<Bytes>, gParts: seq<Bytes>): set<(int, int)> {
    set i, j | 0 <= i < |qParts| && 0 <= j < |gParts| && IsWordPrefix(qParts[i], gParts[j]) :: (i, j)
  }

  function RowPairs(i: int, sp: Bytes, gParts: seq<Bytes>): set<(int, int)> {
    set j | 0 <= j < |gParts| && IsWordPrefix(sp, gParts[j]) :: (i, j)
  }

  lemma {:induction false} RowPairsCount(i: int, sp: Bytes, gParts: seq<Bytes>)
    ensures |RowPairs(i, sp, gParts)| == WordPrefixCount(sp, gParts)
    decreases |gParts|
  {
    if |gParts| > 0 {
      var m := |gParts| - 1;
      var init := gParts[..m];
      RowPairsCount(i, sp, init);
      var extra: set<(int, int)> := if IsWordPrefix(sp, gParts[m]) then {(i, m)} else {};
      assert RowPairs(i, sp, gParts) == RowPairs(i, sp, init) + extra;
      assert (i, m) !in RowPairs(i, sp, init);
    }
  }

  lemma PrefixPairsSplit(qParts: seq<Bytes>, gParts: seq<Bytes>)
    requires |qParts| > 0
    ensures var n := |qParts| - 1;
            PrefixPairs(qParts, gParts) == PrefixPairs(qParts[..n], gParts) + RowPairs(n, qParts[n], gParts)
    ensures var n := |qParts| - 1;
            PrefixPairs(qParts[..n], gParts) * RowPairs(n, qParts[n], gParts) == {}
  {
    var n := |qParts| - 1;
    var a, b := PrefixPairs(qParts[..n], gParts), RowPairs(n, qParts[n], gParts);
    forall p | p in PrefixPairs(qParts, gParts) ensures p in a + b {
      var i, j :| 0 <= i < |qParts| && 0 <= j < |gParts| && IsWordPrefix(qParts[i], gParts[j]) && p == (i, j);
      if i < n {
        assert qParts[..n][i] == qParts[i];
      }
    }
    forall p | p in a ensures p in PrefixPairs(qParts, gParts) && p.0 < n {
      var i, j :| 0 <= i < n && 0 <= j < |gParts| && IsWordPrefix(qParts[..n][i], gParts[j]) && p == (i, j);
      assert qParts[..n][i] == qParts[i];
    }
    forall p | p in b ensures p in PrefixPairs(qParts, gParts) && p.0 == n {
      var j :| 0 <= j < |gParts| && IsWordPrefix(qParts[n], gParts[j]) && p == (n, j);
    }
  }

  lemma {:induction false} PrefixPairsCount(qParts: seq<Bytes>, gParts: seq<Bytes>)
    ensures |PrefixPairs(qParts, gParts)| == PrefixPairCount(qParts, gParts)
    decreases |qParts|
  {
    if |qParts| > 0 {
      var n := |qParts| - 1;
      PrefixPairsCount(qParts[..n], gParts);
      RowPairsCount(n, qParts[n], gParts);
      PrefixPairsSplit(qParts, gParts);
    }
  }

  /** The prefix bonus is 15 for every (query token, guest token) pair whose
      query token has at least three bytes and starts the guest token. */
  lemma PrefixBonusCountsPairs(lib: Library, q: Query, g: Guest)
    ensures SignalsOf(lib, q, g).prefix == 15 * |PrefixPairs(q.parts, GuestParts(g))|
  {
    PrefixPairsCount(q.parts, GuestParts(g));
  }

  // ---------------------------------------------------------------------
  // After scoring
  // ---------------------------------------------------------------------

  function Views(top: seq<Candidate>): seq<CandidateView> {
    seq(|top|, i requires 0 <= i < |top| => ViewOf(top[i]))
  }

  /** When the exact pass finds nothing: no qualifying guest gives "not found";
      a single qualifying guest is answered directly; otherwise the answer
      lists the views of the best five qualifying candidates, each of which
      scored at least the threshold, best first. */
  lemma ScoringOutcome(lib: Library, q: Query, guests: seq<Guest>, submitted: set<int>)
    requires FindByNameLower(guests, q.lower).None?
    ensures var quals := Qualifying(lib, q, guests, submitted);
            var r := Match(lib, q, guests, submitted);
            && (r == NoGuest <==> forall g :: g in guests ==> Score(lib, q, g) < Threshold)
            && (|quals| == 1 ==> r == Answer(quals[0].guest, submitted))
            && (r.GuestFound? || r.AlreadySubmitted? ==> |quals| == 1)
            && (r.CandidateList? <==> |quals| >= 2)
            && (r.CandidateList? ==> r.candidates == Views(Top(quals)) && 2 <= |r.candidates| <= MaxCandidates)
  {
    var quals := Qualifying(lib, q, guests, submitted);
    var top := Top(quals);
    if |quals| == 0 {
      forall g | g in guests ensures Score(lib, q, g) < Threshold {
        assert CandidateOf(lib, q, submitted, g) !in quals;
      }
    } else {
      var c := quals[0];
      assert c.score >= Threshold && c.guest in guests;
      if |quals| == 1 {
        assert multiset(top) <= multiset(quals) && |top| == 1;
        assert top[0] in multiset(quals);
      }
    }
  }

  /** Every listed candidate is a guest of the list that reached the
      threshold, with its RSVP flag; none of them outscores one listed earlier. */
  lemma ListedCandidatesQualify(lib: Library, q: Query, guests: seq<Guest>, submitted: set<int>, i: nat)
    requires FindByNameLower(guests, q.lower).None?
    requires Match(lib, q, guests, submitted).CandidateList?
    requires i < |Match(lib, q, guests, submitted).candidates|
    ensures var top := Top(Qualifying(lib, q, guests, submitted));
            var v := Match(lib, q, guests, submitted).candidates[i];
            && i < |top| && top[i].guest in guests
            && v == CandidateView(top[i].guest.id, top[i].guest.name, top[i].guest.id in submitted)
            && Score(lib, q, top[i].guest) >= Threshold
            && forall j :: 0 <= j < i ==> Score(lib, q, top[j].guest) >= Score(lib, q, top[i].guest)
  {
    var quals := Qualifying(lib, q, guests, submitted);
    var top := Top(quals);
    var r := Match(lib, q, guests, submitted);
    assert r == Resolve(top);
    assert |top| >= 2 && r.candidates[i] == ViewOf(top[i]);
    TopEntryQualifies(lib, q, guests, submitted, i);
    forall j | 0 <= j < i
      ensures Score(lib, q, top[j].guest) >= Score(lib, q, top[i].guest)
    {
      TopEntryQualifies(lib, q, guests, submitted, j);
    }
  }

  lemma TopEntryQualifies(lib: Library, q: Query, guests: seq<Guest>, submitted: set<int>, i: nat)
    requires i < |Top(Qualifying(lib, q, guests, submitted))|
    ensures var c := Top(Qualifying(lib, q, guests, submitted))[i];
            c.guest in guests && c == CandidateOf(lib, q, submitted, c.guest) && c.score >= Threshold
  {
    var quals := Qualifying(lib, q, guests, submitted);
    var top := Top(quals);
    assert top[i] in multiset(quals);
  }

  // ---------------------------------------------------------------------
  // Direct lookup by id
  // ---------------------------------------------------------------------

  /** A non-zero `guest_id` is answered from the list alone: the guest with
      that id, its conflict notice, or "not found"; the name in the body is
      never looked at, so no validation and no scoring take place. */
  lemma DirectLookup(lib: Library, id: int, name: Bytes, otherName: Bytes, guests: seq<Guest>, submitted: set<int>)
    requires id != 0
    ensures var r := Lookup(lib, LookupInput(Some(id), name), guests, submitted);
            && r == Lookup(lib, LookupInput(Some(id), otherName), guests, submitted)
            && (!HasId(guests, id) <==> r == NoGuest)
            && (r.GuestFound? ==> r.guest in guests && r.guest.id == id && id !in submitted)
            && (r.AlreadySubmitted? ==> id in submitted && HasId(guests, id))
            && (HasId(guests, id) && id in submitted ==> r.AlreadySubmitted?)
            && !r.CandidateList? && !r.InvalidName?
  {
    FindByIdFinds(guests, id);
  }

  /** A missing or zero `guest_id` falls through to the name search. */
  lemma ZeroIdSearchesByName(lib: Library, id: Option<int>, name: Bytes, guests: seq<Guest>, submitted: set<int>)
    requires id == None || id == Some(0)
    ensures Lookup(lib, LookupInput(id, name), guests, submitted) == SearchByName(lib, name, guests, submitted)
  {
  }

  // ---------------------------------------------------------------------
  // Worked examples
  // ---------------------------------------------------------------------

  /** "george" is contained in "george smith": 40 points from containment alone. */
  lemma GeorgeInGeorgeSmith()
    ensures SubstringBonus([0x67, 0x65, 0x6F, 0x72, 0x67, 0x65],
                           [0x67, 0x65, 0x6F, 0x72, 0x67, 0x65, 0x20, 0x73, 0x6D, 0x69, 0x74, 0x68]) == 40
  {
    var h: Bytes := [0x67, 0x65, 0x6F, 0x72, 0x67, 0x65, 0x20, 0x73, 0x6D, 0x69, 0x74, 0x68];
    var n: Bytes := [0x67, 0x65, 0x6F, 0x72, 0x67, 0x65];
    assert OccursAt(h, n, 0);
  }

  /** Inserting one byte before the last one costs exactly one edit, so
      "jon" against "john" is worth 20 points as a first-name match. */
  lemma InsertionIsOneEdit(p: Bytes, x: byte, c: byte)
    ensures Distance(p + [c], p + [x, c]) == 1
    ensures TokenEditBonus(Distance(p + [c], p + [x, c])) == 20
  {
    var a, b := p + [c], p + [x, c];
    assert a[..|a| - 1] == p && b[..|b| - 1] == p + [x];
    assert (p + [x])[..|p|] == p;
    DistanceToSelf(p);
    assert Distance(p, p + [x]) <= 1;
    DistanceAtLeastLengthGap(a, b);
  }

  // ---------------------------------------------------------------------
  // Finding: the phonetic guard and the code "0"
  // ---------------------------------------------------------------------

  /** As written, a query code "0" (the TH sound, as in "Thea") never earns the
      phonetic bonus, even against the same code; as intended it does. */
  lemma ZeroCodeLosesBonus()
    ensures CodeBonusAsWritten([Zero], [Zero]) == 0
    ensures CodeBonus([Zero], [Zero]) == 30
  {
  }

  /** For every other code the guard as written and as intended agree. */
  lemma CodeBonusAgreesExceptZero(code: Bytes, guestCode: Bytes)
    requires code != [Zero]
    ensures CodeBonusAsWritten(code, guestCode) == CodeBonus(code, guestCode)
  {
  }

  /** The phonetic signals as written: 30 when the query's code is truthy and
      the guest token's code equals it, else 0; every other signal is the
      intended one. */
  lemma CodeSignalsAsWritten(lib: Library, q: Query, g: Guest)
    ensures var s, w := SignalsOf(lib, q, g), SignalsAsWrittenOf(lib, q, g);
            var gParts := GuestParts(g);
            && (w.firstCode == 30 <==> Truthy(q.firstCode) && lib.metaphone(gParts[0]) == q.firstCode)
            && (w.firstCode == 0 || w.firstCode == 30)
            && (w.lastCode == 30 <==> Truthy(q.lastCode) && lib.metaphone(gParts[|gParts| - 1]) == q.lastCode)
            && (w.lastCode == 0 || w.lastCode == 30)
            && w.substring == s.substring && w.firstEdit == s.firstEdit && w.lastEdit == s.lastEdit
            && w.fullEdit == s.fullEdit && w.prefix == s.prefix
  {
  }

  /** The score as written never exceeds the intended one, falls short of it
      by at most the two phonetic bonuses, and equals it unless a query code
      is "0". */
  lemma ScoreAsWrittenAgrees(lib: Library, q: Query, g: Guest)
    ensures ScoreAsWritten(lib, q, g) <= Score(lib, q, g) <= ScoreAsWritten(lib, q, g) + 60
    ensures q.firstCode != [Zero] && q.lastCode != [Zero] ==> ScoreAsWritten(lib, q, g) == Score(lib, q, g)
  {
    var s, w := SignalsOf(lib, q, g), SignalsAsWrittenOf(lib, q, g);
    assert w.firstCode <= s.firstCode && w.lastCode <= s.lastCode;
  }

  /** A query and a guest whose first tokens both have the code "0" score 30
      less as written than as intended: a guest can fall under the threshold
      only because of the guard. */
  lemma ZeroCodeLowersScore(lib: Library, q: Query, g: Guest)
    requires q.firstCode == [Zero] && lib.metaphone(GuestParts(g)[0]) == [Zero]
    ensures ScoreAsWritten(lib, q, g) + 30 <= Score(lib, q, g)
  {
    ScoreAsWrittenAgrees(lib, q, g);
  }
}

=== FILE: token.dfy ===
/**
 * The signed, expiring token both endpoints demand in the X-RSVP-Token
 * header: `<payload>.<signature>`, where the signature is the keyed hash of
 * the payload part under the shared secret and the payload carries an
 * expiry time.  The hash and the base64/JSON decoding are fields of
 * `Crypto` and stay uninterpreted.
 */
module Token {
  import opened Options
  import opened Php

  datatype Crypto = Crypto(
    hmac: (Bytes, Bytes) -> Bytes,                     // hash_hmac('sha256', message, key), hex
    decodePayload: Bytes -> Option<map<Bytes, int>>    // json_decode(base64_decode(_)); None when not a non-empty array
  )

  /** The payload key holding the expiry time: "exp". */
  const ExpKey: Bytes := [0x65, 0x78, 0x70]

  /** Every refusal answers 403; the messages differ. */
  datatype TokenError =
    | MissingToken    // empty header, or "0"
    | Malformed       // not two dot-separated parts, or no expiry in the payload
    | BadSignature
    | Expired

  datatype Verdict = Accepted | Refused(error: TokenError)

  /** The checks in the order the endpoints make them. */
  function Check(c: Crypto, secret: Bytes, token: Bytes, now: int): Verdict {
    if !Truthy(token) then Refused(MissingToken)
    else
      var parts := Explode(token, Dot);
      if |parts| != 2 then Refused(Malformed)
      else match c.decodePayload(parts[0])
        case None => Refused(Malformed)
        case Some(payload) =>
          if ExpKey !in payload then Refused(Malformed)
          else if c.hmac(parts[0], secret) != parts[1] then Refused(BadSignature)
          else if payload[ExpKey] < now then Refused(Expired)
          else Accepted
  }

  /** A token is accepted exactly when it is `p.s` with `s` the signature of
      `p`, `p` decodes to a payload with an expiry, and that expiry is not
      yet past. */
  lemma AcceptedIff(c: Crypto, secret: Bytes, token: Bytes, now: int)
    ensures Check(c, secret, token, now) == Accepted <==>
              exists p, s :: token == p + [Dot] + s && Dot !in p && Dot !in s
                && c.hmac(p, secret) == s
                && c.decodePayload(p).Some? && ExpKey in c.decodePayload(p).value
                && c.decodePayload(p).value[ExpKey] >= now
  {
    if Check(c, secret, token, now) == Accepted {
      var parts := Explode(token, Dot);
      JoinExplode(token, Dot);
      assert token == parts[0] + [Dot] + parts[1];
    }
    if exists p, s :: token == p + [Dot] + s && Dot !in p && Dot !in s
         && c.hmac(p, secret) == s
         && c.decodePayload(p).Some? && ExpKey in c.decodePayload(p).value
         && c.decodePayload(p).value[ExpKey] >= now {
      var p, s :| token == p + [Dot] + s && Dot !in p && Dot !in s
         && c.hmac(p, secret) == s
         && c.decodePayload(p).Some? && ExpKey in c.decodePayload(p).value
         && c.decodePayload(p).value[ExpKey] >= now;
      SplitsAtItsDot(p, s);
      assert token[|p|] == Dot;
    }
  }

  lemma SplitsAtItsDot(p: Bytes, s: Bytes)
    requires Dot !in p && Dot !in s
    ensures Explode(p + [Dot] + s, Dot) == [p, s]
  {
    ExplodeJoin([p, s], Dot);
  }

  /** A token issued for payload `p` (the page signs the payload part and
      appends the signature) passes until its expiry, inclusive, and is
      refused as expired after it. */
  lemma IssuedTokenLifetime(c: Crypto, secret: Bytes, p: Bytes, now: int)
    requires Dot !in p && Dot !in c.hmac(p, secret)
    requires c.decodePayload(p).Some? && ExpKey in c.decodePayload(p).value
    ensures Check(c, secret, p + [Dot] + c.hmac(p, secret), now) ==
              if c.decodePayload(p).value[ExpKey] >= now then Accepted else Refused(Expired)
  {
    var token := p + [Dot] + c.hmac(p, secret);
    SplitsAtItsDot(p, c.hmac(p, secret));
    assert token[|p|] == Dot;
  }

  /** Replacing the signature of a well-formed token by anything else gets
      it refused for its signature. */
  lemma ForgedSignatureRefused(c: Crypto, secret: Bytes, p: Bytes, forged: Bytes, now: int)
    requires Dot !in p && Dot !in forged
    requires c.decodePayload(p).Some? && ExpKey in c.decodePayload(p).value
    requires forged != c.hmac(p, secret)
    ensures Check(c, secret, p + [Dot] + forged, now) == Refused(BadSignature)
  {
    SplitsAtItsDot(p, forged);
    assert (p + [Dot] + forged)[|p|] == Dot;
  }
}
